=== FILE: README.md ===
# Marin email classification cascade, modelled in Dafny

Marin sorts a Gmail inbox by sending each email down a five-tier
escalation cascade:

- **Tier 0** is learned rules matched against sender, address and subject.
- **Tier 1** is a BERT classifier. It has a model state machine.
- **Tier 2** is a fast local LLM prompted with few-shot examples.
- **Tier 3** is a larger LLM that is shown the body.
- **Tier 4** is a person answering menus on the terminal.

Every tier either answers with an `AnalysisDecision` or passes the email
on. The analysis coordinator runs the tiers in order, counts the answers
and stores them. Every 300 classifications it retrains Tier 1 and
invalidates the caches. The higher tiers teach Tier 0 new rules through
an upsert on the rule table.

Next to the cascade sit two more components:

- The email syncer pages through Gmail. It parses each message: the sender,
  the MIME part tree, the label flags and the date fallbacks. It stores
  the new messages and counts what it downloaded, skipped and failed.
- A settings store is read and written by dotted key paths.

This project models those parts:

- Pure logic becomes functions with contracts.
- Objects whose fields change become classes with `modifies` frames. These
  are the tiers' caches, Tier 1's model state, the coordinator's counters,
  the database tables, the syncer and the settings.
- Loops become methods with invariants. These include rule matching, the
  menu input loops, the batch loops, the part-tree walks, the sync loop
  and the key-path walk.

Each method is proved against a specification function. Its properties
are stated as lemmas.

Oracles stand in for what the model cannot see:

- The LLMs are functions from the prompt's contents to an optional reply.
- `json.loads` is a function from text to an optional JSON value.
- Gmail is a list of page answers plus a fetch function.
- The database is an in-memory `Database` class shared by every tier. A
  database that cannot be reached is a `reachable` flag. With it, every
  query fails and the callers catch the failure.
- Terminal input is a sequence of lines.

Behaviours the model keeps as they are written:

- Tier 1 always maps BERT's output to UNKNOWN/KEEP at 0.30, so it never
  accepts (`Tier1.NeverAccepts`).
- The Tier 0 cache invalidation that Tiers 2 and 3 trigger runs on a
  temporary engine. It does not touch the coordinator's Tier 0 cache.
- Tier 4's `analyze` catches the quit command. A quit therefore only
  skips the current email and does not stop a batch.
- A sync target of `0` counts as "no target", because `0` is falsy.

## Model

| member | source | states |
|---|---|---|
| Decisions.ParseCategory | analyzers/tier0_rules_engine.py:14-27 | `EmailCategory(s)` succeeds exactly on the twelve enumeration values and gives the category with that name |
| Decisions.CategoryRoundTrip | analyzers/tier0_rules_engine.py:14-27 | every category's value parses back to that category |
| Decisions.ParseAction | analyzers/tier0_rules_engine.py:29-33 | `EmailAction(s)` succeeds exactly on KEEP, DELETE and ARCHIVE |
| Decisions.ActionRoundTrip | analyzers/tier0_rules_engine.py:29-33 | every action's value parses back to that action |
| Decisions.TierValue | analyzers/tier0_rules_engine.py:35-41 | the tier numbers run from 0 to 4 |
| Decisions.TierValueInjective | analyzers/tier0_rules_engine.py:35-41 | two tiers have the same number exactly when they are the same tier |
| Text.TrimLeft | core/email_syncer.py:327 | `lstrip` drops exactly a prefix of stripped characters and stops at the first kept one |
| Text.TrimRight | core/email_syncer.py:327 | `rstrip` drops exactly a suffix of stripped characters and stops at the last kept one |
| Text.StripTrimmed | core/email_syncer.py:327-334 | a stripped string neither starts nor ends with whitespace |
| Text.Lower | analyzers/tier0_rules_engine.py:149-151 | lower-casing keeps the length |
| Text.LowerIdempotent | analyzers/tier0_rules_engine.py:149-151 | lower-casing twice is lower-casing once |
| Text.LowerSlice | analyzers/tier0_rules_engine.py:196-202 | lower-casing commutes with slicing |
| Text.ContainsIff | analyzers/tier0_rules_engine.py:196-210 | the `in` test holds exactly when the pattern occurs at some index |
| Text.SliceContained | analyzers/tier2_fast_ollama.py:392 | every slice of a string is `in` the string |
| Text.Take | analyzers/tier1_bert_classifier.py:243 | `s[:n]` is the prefix of length `min(n, len(s))` |
| Text.Repeat | analyzers/tier2_fast_ollama.py:288 | `c * n` has length n and holds only c |
| Text.IndexOf | analyzers/tier2_fast_ollama.py:392 | the index found holds the character and no earlier index does |
| Text.LastIndexOf | analyzers/tier2_fast_ollama.py:241 | None exactly when the character is absent; otherwise no later index holds it |
| Text.Split | utils/config.py:224 | `split` gives at least two pieces exactly when the separator occurs, and no piece holds the separator |
| Text.SplitCount | utils/config.py:224 | `split` gives one piece more than there are separators |
| Text.JoinSplit | utils/config.py:224 | joining the pieces of a split with the separator gives back the string |
| Text.SplitHeadIsPrefix | utils/config.py:224 | the first piece of a split is a prefix of the string |
| Text.SplitUnfold | analyzers/tier2_fast_ollama.py:392 | the second piece is the first piece of what follows the first separator |
| Text.SplitSecondIsSlice | analyzers/tier2_fast_ollama.py:392 | `split('@')[1]` is a slice of the address |
| Text.ReplaceKeepsCount | analyzers/tier2_fast_ollama.py:314-319 | `replace` keeps the count of every character in neither the pattern nor the replacement |
| Text.ReplaceCharRemoves | analyzers/tier2_fast_ollama.py:314 | replacing `'` by `"` leaves no `'` |
| Text.ShortNoContains | analyzers/tier2_fast_ollama.py:316-318 | a string shorter than the pattern does not contain it |
| Text.NoHeadNoContains | analyzers/tier2_fast_ollama.py:316-318 | characters other than the pattern's first, put in front of a string without the pattern, add no occurrence |
| Text.PrefixOfJoined | analyzers/tier2_fast_ollama.py:316-318 | a prefix of `a + x` that is no longer than `a` is a prefix of `a` (the step that carries a prefix back through one replaced occurrence) |
| Text.ReplacedPrefix | analyzers/tier2_fast_ollama.py:316-318 | when the result of a `replace` starts with `q` and no suffix of `q` begins the replacement, the input started with `q` |
| Text.ReplaceLeavesNone | analyzers/tier2_fast_ollama.py:316-318 | after `replace(pat, rep)` no occurrence of `pat`, or of a pattern absent before, is left when `rep` cannot re-form it |
| Text.NoContainsSuffix | analyzers/tier2_fast_ollama.py:316-318 | dropping a prefix of a string adds no occurrence of a pattern |
| Text.ParseInt | analyzers/tier4_human_interface.py:212-214 | `int()` accepts exactly an optional sign followed by one or more digits |
| Text.NatText | analyzers/tier4_human_interface.py:212-214 | `str(n)` of a natural number is a non-empty run of digits |
| Text.NatTextValue | analyzers/tier4_human_interface.py:212-214 | the digits `str` writes have the number's value |
| Text.ParseIntText | analyzers/tier4_human_interface.py:212-214 | `int(str(n)) == n` for every integer |
| Json.NumericValue | analyzers/tier2_fast_ollama.py:75-84 | only integers, reals and booleans compare as numbers; their numeric value is given |
| Json.StringOr | analyzers/tier2_fast_ollama.py:93 | `get(key, default)` gives the stored string when there is one and the default otherwise |
| Json.IntOrNone | analyzers/tier2_fast_ollama.py:98-99 | `get(key)` of a score gives the stored integer or None |
| Json.ExtractJsonObject | analyzers/tier2_fast_ollama.py:241-244 | the greedy `\{.*\}` match runs from the first `{` to the last `}` and exists only when a `}` follows a `{` |
| Json.RequireFields | analyzers/tier2_fast_ollama.py:261-267 | a reply is kept only when it decodes to an object holding every required field |
| Store.FindKey | analyzers/tier0_rules_engine.py:253-263 | finds the row holding the (rule_type, pattern_text, action) key, or None when no row holds it |
| Store.UpsertExisting | analyzers/tier0_rules_engine.py:253-265 | on an existing key: confidence becomes the maximum, one more learning email, active again; every other field and row is unchanged |
| Store.UpsertNew | analyzers/tier0_rules_engine.py:253-258 | on a new key, one active row is appended with `learned_from_emails = 1` and the old rows are kept |
| Store.UpsertInvariant | analyzers/tier0_rules_engine.py:253-265 | the upsert keeps the key unique and never lowers a confidence or removes a row; afterwards the key is active and at least as confident as the request |
| Store.ActiveRulesFrom | analyzers/tier0_rules_engine.py:101-108 | `WHERE is_active = true`: exactly the active rows, each as its cached rule |
| Store.ActiveCount | analyzers/tier0_rules_engine.py:73-80 | the count is zero exactly when no row is active |
| Store.ConsSorted | analyzers/tier0_rules_engine.py:106 | a rule ranked before every rule of a ranked list can lead it |
| Store.HeadRanksTail | analyzers/tier0_rules_engine.py:106 | the head of a ranked list ranks before all the others |
| Store.InsertByRank | analyzers/tier0_rules_engine.py:106 | inserting into a ranked list keeps it ranked and adds exactly the one rule |
| Store.SortByRank | analyzers/tier0_rules_engine.py:106 | `ORDER BY confidence DESC, times_matched DESC` is a permutation, sorted by rank |
| Store.LoadActiveRules | analyzers/tier0_rules_engine.py:96-123 | the cache load is exactly the active rows, ranked |
| Store.Bumped | analyzers/tier0_rules_engine.py:216-229 | `times_matched` of the one matched row goes up by one and nothing else changes |
| Store.NoActiveLoadsEmpty | analyzers/tier0_rules_engine.py:84-90 | with no active row, skipping the load and setting `[]` is the same as loading |
| Store.NoActiveFromEmpty | analyzers/tier0_rules_engine.py:84-90 | no active row from some index on gives an empty load from there |
| Store.ExamplesFor | analyzers/tier2_fast_ollama.py:116-124 | `LIMIT limit`: exactly the first `limit` active rows of the requested tier, in stored order, or all of them when there are fewer |
| Store.MatchingExamples | analyzers/tier2_fast_ollama.py:119-121 | `WHERE tier_level = t AND is_active = true`: a row is kept exactly when it is active and of tier t, and no row is added |
| Store.Database.constructor | core/database.py:68-77 | a database starts with the given tables, the given email ids and no analyses |
| Store.Database.UpsertRule | analyzers/tier0_rules_engine.py:250-283 | the upsert succeeds exactly when the database is reachable, and the table is then the upserted one |
| Store.Database.IncrementTimesMatched | analyzers/tier0_rules_engine.py:216-229 | a reachable database bumps the matched rule and keeps the key unique |
| Store.Database.InsertAnalysis | core/database.py:277-313 | the insert succeeds exactly when the database is reachable, the email id is in the emails table (the foreign key) and the confidence, fraud and importance scores are NULL or in 0..100 (the CHECK constraints); it then upserts the row on (email_id, analysis_version, ai_model) and keeps that key unique, and otherwise the table is unchanged |
| Store.FindAnalysis | core/database.py:297 | the last row with the (email_id, analysis_version, ai_model) key, or None exactly when no row has that key |
| Store.UpsertAnalysisSpec | core/database.py:287-308 | `ON CONFLICT ... DO UPDATE` keeps the key unique, stores the new row, keeps every row with another key, adds no other row, and grows the table only for a new key |
| Store.UpsertAnalysisTwice | core/database.py:297-308 | two upserts with the same key leave only the second row |
| Store.FindAnalysisLast | core/database.py:297 | a row with the key that no later row shares is the row found |
| Tier0.CheckRuleMatch | analyzers/tier0_rules_engine.py:190-214 | each rule type's match test, as an iff over occurrences, and an unknown type never matches |
| Tier0.FirstMatchFrom | analyzers/tier0_rules_engine.py:154-175 | finds the first firing rule from an index on, or None when none fires |
| Tier0.FirstMatch | analyzers/tier0_rules_engine.py:154-175 | the lowest-index firing rule, or None exactly when no rule fires |
| Tier0.ExactRuleFires | analyzers/tier0_rules_engine.py:200-202 | a `sender_exact` rule on an email's lower-cased address fires on that email |
| Tier0.DomainRuleFires | analyzers/tier0_rules_engine.py:196-198 | a `sender_domain` rule on the domain part of an address fires on that email |
| Tier0.RuleDecision | analyzers/tier0_rules_engine.py:163-173 | the decision carries the rule's action, category and confidence, tier RULES_ENGINE, and is a deletion candidate iff the action is DELETE |
| Tier0.Verdict | analyzers/tier0_rules_engine.py:129-175 | no rules gives None; otherwise the decision of the first firing rule, and None exactly when no rule fires |
| Tier0.AfterAnalyze | analyzers/tier0_rules_engine.py:154-162 | only a match on a reachable database changes the rule table, and its length stays the same |
| Tier0.RulesEngine.constructor | analyzers/tier0_rules_engine.py:60-66 | a new engine has checked for rules, so its cache is loaded |
| Tier0.RulesEngine.CheckForNewRules | analyzers/tier0_rules_engine.py:68-94 | loads only an unloaded cache; a database error leaves `[]` |
| Tier0.RulesEngine.LoadRulesFromDatabase | analyzers/tier0_rules_engine.py:96-127 | the cache becomes the ranked active rules, or `[]` on error |
| Tier0.RulesEngine.GetActiveRules | analyzers/tier0_rules_engine.py:177-188 | reloads only when the cache is None; otherwise returns the cache unchanged |
| Tier0.RulesEngine.Analyze | analyzers/tier0_rules_engine.py:129-175 | answers the verdict of the cached rules and records one more use of the matched rule |
| Tier0.RulesEngine.AddLearnedRule | analyzers/tier0_rules_engine.py:231-283 | the upsert, then an unloaded cache on success; a failure changes nothing |
| Tier0.RulesEngine.InvalidateCache | analyzers/tier0_rules_engine.py:285-294 | the cache becomes None and nothing else changes |
| Tier1.LoadedVersion | analyzers/tier1_bert_classifier.py:119-142 | a trained model is used only when its file exists and loads; otherwise the base model; None when neither loads |
| Tier1.MapBertOutput | analyzers/tier1_bert_classifier.py:289-305 | the output is always UNKNOWN/KEEP below the 0.75 floor |
| Tier1.ClassifyWithBert | analyzers/tier1_bert_classifier.py:248-287 | a result carries the model version and a confidence below the floor |
| Tier1.AcceptBert | analyzers/tier1_bert_classifier.py:88-117 | no result, or one below 0.75, escalates; an accepted decision is from BERT_CLASSIFIER with the result's confidence |
| Tier1.InputParts | analyzers/tier1_bert_classifier.py:223-246 | the non-empty parts in order: `Subject: ` and the subject first, `From: ` and the sender next, `Preview: ` and the 200-character preview last; none exactly when all three fields are blank |
| Tier1.JoinNonEmpty | analyzers/tier1_bert_classifier.py:246 | joining non-empty parts is empty only for no parts, and starts with the first part |
| Tier1.JoinThree | analyzers/tier1_bert_classifier.py:246 | joining three parts puts the separator between each neighbouring pair |
| Tier1.InputText | analyzers/tier1_bert_classifier.py:223-246 | the parts joined by a space-bar-space separator, empty exactly when every field is, starting with the subject part, and all three parts in order when every field is present |
| Tier1.AllPartsJoined | analyzers/tier1_bert_classifier.py:237-246 | with every field present the text is the subject part, the sender part and the preview part, in that order, joined by the separator |
| Tier1.PrepareInputText | analyzers/tier1_bert_classifier.py:223-246 | the input text built from the stripped subject, sender and snippet; empty exactly when all three strip to blank |
| Tier1.BertClassifier.constructor | analyzers/tier1_bert_classifier.py:50-66 | NOT_INITIALIZED, then the state `_initialize_model` reaches |
| Tier1.BertClassifier.InitializeModel | analyzers/tier1_bert_classifier.py:119-142 | FAILED without transformers; otherwise LOADING, then READY with the loaded version, or FAILED; ready for training exactly when READY |
| Tier1.BertClassifier.SetTrainingState | analyzers/tier1_bert_classifier.py:321-336 | TRAINING, keeping the version and not ready for training; when training ends, a fresh initialisation, ready for training exactly when READY |
| Tier1.BertClassifier.Verdict | analyzers/tier1_bert_classifier.py:68-117 | escalates unless transformers are present and the model is READY; an answer is from BERT and meets the floor |
| Tier1.InitializedState | analyzers/tier1_bert_classifier.py:119-142 | initialisation ends READY exactly when transformers are present and a model loads, and FAILED otherwise |
| Tier1.NeverAccepts | analyzers/tier1_bert_classifier.py:289-305 | with the output mapping as written, Tier 1 never accepts an email |
| Tier2.DateText | analyzers/tier2_fast_ollama.py:185 | 'Unknown' for no date, otherwise the date's first `n` characters: a prefix of length `n`, or the whole date when it is shorter |
| Tier2.BuildPrompt | analyzers/tier2_fast_ollama.py:142-203 | at most three cached examples, none when the cache is unloaded; the preview is the snippet's first 300 characters (the whole snippet when shorter) and the date its first ten, or 'Unknown' |
| Tier2.CloseBraces | analyzers/tier2_fast_ollama.py:281-289 | appends exactly as many `}` as `{` outnumbers `}`, and nothing else; afterwards no `{` is unmatched by count |
| Tier2.CloseStrings | analyzers/tier2_fast_ollama.py:291-299 | the string fixes add no `{` and remove no `}` |
| Tier2.TrimKeepsCount | analyzers/tier2_fast_ollama.py:310-311 | skipping whitespace removes no other character |
| Tier2.DropKeepsCount | analyzers/tier2_fast_ollama.py:310-311 | dropping trailing commas keeps every character that is not a comma or whitespace |
| Tier2.CountHead | analyzers/tier2_fast_ollama.py:310-311 | a character's count in a string is its count in the first character plus its count in the rest |
| Tier2.CountCons | analyzers/tier2_fast_ollama.py:310-311 | putting one character in front adds one to its own count and nothing to any other |
| Tier2.DropShrinks | analyzers/tier2_fast_ollama.py:310-311 | removing trailing commas only deletes characters |
| Tier2.DropAllTrailingCommas | analyzers/tier2_fast_ollama.py:309-311 | the two comma rewrites only delete characters, and only commas and whitespace; every other character, braces included, keeps its count |
| Tier2.DropBothKeeps | analyzers/tier2_fast_ollama.py:310-311 | the `}` rewrite and then the `]` rewrite delete nothing but commas and whitespace |
| Tier2.NormaliseLiterals | analyzers/tier2_fast_ollama.py:313-319 | the replacements keep the brace counts and leave no single quote and none of `True`, `False` and `None` |
| Tier2.LiteralsCannotReform | analyzers/tier2_fast_ollama.py:316-318 | no proper suffix of `True`, `False` or `None` begins `true`, `false` or `null`, so a replacement cannot re-form a literal |
| Tier2.LiteralsGone | analyzers/tier2_fast_ollama.py:316-318 | after the three replacements in turn, none of `True`, `False` and `None` is left |
| Tier2.RepairJson | analyzers/tier2_fast_ollama.py:277-321 | a repaired string has no unmatched `{` by count, no single quote and none of `True`, `False` and `None` |
| Tier2.ParseResponse | analyzers/tier2_fast_ollama.py:236-275 | no extracted object means no result; a successful direct decode is used as it is; when it fails, the repaired object is decoded instead; a result holds category, action and confidence |
| Tier2.Gate | analyzers/tier2_fast_ollama.py:74-100 | UNKNOWN, a non-numeric confidence or one below 0.75 escalate; every other reply with a numeric confidence at the floor and a valid action and category is accepted, as a FAST_OLLAMA decision with the reply's fields |
| Tier2.RuleRequestFor | analyzers/tier2_fast_ollama.py:362-410 | rules only at confidence 0.95 or more with '@' in the address: an exact KEEP rule for work, financial, personal and health mail at min(c - 0.02, 0.95), or a promotional domain DELETE rule at min(c - 0.05, 0.90); both conditions also suffice for their rule |
| Tier2.TaughtRuleMatches | analyzers/tier2_fast_ollama.py:377-405 | a rule Tier 2 teaches fires, in Tier 0, on the email it was learned from |
| Tier2.FewShotExampleFor | analyzers/tier2_fast_ollama.py:462-487 | an example only at confidence 0.95 or more, for tier 2, with no body and with the snippet's first 200 characters (the whole snippet when shorter) |
| Tier2.FastOllama.constructor | analyzers/tier2_fast_ollama.py:32-44 | a new classifier has loaded its examples |
| Tier2.FastOllama.LoadFewShotExamples | analyzers/tier2_fast_ollama.py:111-140 | the first five active tier-2 rows in stored order, or `[]` on error |
| Tier2.FastOllama.Classification | analyzers/tier2_fast_ollama.py:60-72 | an empty or missing reply escalates; a parsed answer holds the required fields |
| Tier2.FastOllama.Verdict | analyzers/tier2_fast_ollama.py:46-109 | an answer is from FAST_OLLAMA, not UNKNOWN, with confidence at least 0.75 |
| Tier2.FastOllama.TaughtRule | analyzers/tier2_fast_ollama.py:323-335 | a rule is taught only for an accepted answer and is less confident than the answer |
| Tier2.FastOllama.Analyze | analyzers/tier2_fast_ollama.py:46-109 | answers the verdict and upserts exactly the taught rule |
| Tier2.FastOllama.InvalidateExamplesCache | analyzers/tier2_fast_ollama.py:489-491 | the example cache becomes None |
| Tier2.InvalidatedPromptHasNoExamples | analyzers/tier2_fast_ollama.py:165-172 | once the cache is invalidated, prompts carry no examples |
| Tier3.BodyPreview | analyzers/tier3_deep_ollama.py:176-183 | the body's first 2000 characters (the whole body when shorter), or the snippet when there is no body |
| Tier3.DatePrefix | analyzers/tier3_deep_ollama.py:191-207 | the fallback for no date, otherwise the date's first `n` characters (the whole date when shorter) |
| Tier3.BuildPrompt | analyzers/tier3_deep_ollama.py:124-227 | the cached examples (none when unloaded) and the body preview |
| Tier3.ParseResponse | analyzers/tier3_deep_ollama.py:260-287 | a result is the decoded extracted object and holds the required fields |
| Tier3.Gate | analyzers/tier3_deep_ollama.py:34-90 | a non-numeric confidence or one below 0.60 escalates; every reply with a numeric confidence at the floor and a valid action and category is accepted, UNKNOWN included, as a DEEP_OLLAMA decision with the reply's fields |
| Tier3.Relationship | analyzers/tier3_deep_ollama.py:351-367 | `get('sender_relationship', '')`: empty when absent, the stored string when present |
| Tier3.RuleRequestFor | analyzers/tier3_deep_ollama.py:333-385 | rules only at confidence 0.95 or more with '@' in the address: an exact KEEP rule at 0.98 for a business relationship, or a promotional domain DELETE rule at 0.92, and both directions of those conditions |
| Tier3.TaughtRuleMatches | analyzers/tier3_deep_ollama.py:345-380 | a rule Tier 3 teaches fires, in Tier 0, on the email it was learned from |
| Tier3.Tier2ExampleFor | analyzers/tier3_deep_ollama.py:431-453 | a tier-2 example only above 0.95, with the snippet's first 200 characters (the whole snippet when shorter), no body, and reasoning marked as Tier 3 insight |
| Tier3.Tier3ExampleFor | analyzers/tier3_deep_ollama.py:455-476 | a tier-3 example only above 0.90, with the snippet's first 200 characters and the body's first 500 as its preview (each whole when shorter) |
| Tier3.DeepOllama.constructor | analyzers/tier3_deep_ollama.py:20-32 | a new classifier has loaded its examples |
| Tier3.DeepOllama.LoadFewShotExamples | analyzers/tier3_deep_ollama.py:92-122 | the active tier-3 rows up to the limit, or `[]` on error |
| Tier3.DeepOllama.Classification | analyzers/tier3_deep_ollama.py:46-60 | an empty or missing reply escalates; a parsed answer holds the required fields |
| Tier3.DeepOllama.Verdict | analyzers/tier3_deep_ollama.py:34-90 | an answer is from DEEP_OLLAMA with confidence at least 0.60 |
| Tier3.DeepOllama.TaughtRule | analyzers/tier3_deep_ollama.py:289-307 | a rule is taught only for an accepted answer at confidence 0.95 or more |
| Tier3.DeepOllama.Analyze | analyzers/tier3_deep_ollama.py:34-90 | answers the verdict and upserts exactly the taught rule |
| Tier3.DeepOllama.InvalidateExamplesCache | analyzers/tier3_deep_ollama.py:478-480 | the example cache becomes None |
| Tier4.CategoryKey | analyzers/tier4_human_interface.py:23-36 | every category has a menu key that maps back to it |
| Tier4.ActionKey | analyzers/tier4_human_interface.py:38-42 | every action has a menu key that maps back to it |
| Tier4.CategoryMenuBijective | analyzers/tier4_human_interface.py:23-36 | keys 1 to 12 and the twelve categories correspond one to one |
| Tier4.ActionMenuBijective | analyzers/tier4_human_interface.py:38-42 | keys 1 to 3 and the three actions correspond one to one |
| Tier4.MenuChoice | analyzers/tier4_human_interface.py:151-185 | the menu loop consumes input and stops only on a choice, a skip, or a quit (including end of input) |
| Tier4.MenuChoiceSpec | analyzers/tier4_human_interface.py:151-185 | the answer comes from the first line that is a key, 's'/'skip' or 'q'/'quit', every line before it is re-prompted, and end of input quits |
| Tier4.ReadMenu | analyzers/tier4_human_interface.py:151-185 | the `while True` input loop computes the menu choice |
| Tier4.StripAll | analyzers/tier4_human_interface.py:153-174 | every typed line is read stripped |
| Tier4.ReadLine | analyzers/tier4_human_interface.py:190-223 | `input()` gives the next line, or end of input once the lines run out |
| Tier4.Clamp | analyzers/tier4_human_interface.py:214-225 | `max(lo, min(hi, n))` lies within the bounds, and is n when n already does |
| Tier4.ReasoningAnswer | analyzers/tier4_human_interface.py:189-194 | never empty; the typed reasoning when one is given |
| Tier4.DeletionAnswer | analyzers/tier4_human_interface.py:197-205 | never empty; the typed reason when one is given |
| Tier4.ImportanceAnswer | analyzers/tier4_human_interface.py:208-216 | set exactly when an integer is typed, then clamped to [1, 100] |
| Tier4.FraudAnswer | analyzers/tier4_human_interface.py:219-229 | always in [0, 100]; 50 on blank or invalid input; the typed value when it is in range |
| Tier4.Classification | analyzers/tier4_human_interface.py:139-238 | a skip or quit at the category menu ends the session; after a category, a skip or quit at the action menu does too, and a chosen action is the one the classification carries; the optional answers are asked only for DELETE, KEEP and SPAM |
| Tier4.GetHumanClassification | analyzers/tier4_human_interface.py:139-238 | the input session computes the classification |
| Tier4.DecisionOf | analyzers/tier4_human_interface.py:69-80 | a human decision has confidence 1.0 and tier HUMAN_REVIEW, and is a deletion candidate iff the action is DELETE |
| Tier4.Verdict | analyzers/tier4_human_interface.py:44-92 | an answer exactly when the person classified, and then the decision for that classification |
| Tier4.EndOfInputSkips | analyzers/tier4_human_interface.py:87-89 | with no input left, `analyze` answers None and consumes nothing |
| Tier4.Analyze | analyzers/tier4_human_interface.py:44-92 | the input session computes the verdict |
| Tier4.HumanValidatedRule | analyzers/tier4_human_interface.py:283-310 | a rule exactly for DELETE on PROMOTIONAL/SPAM with '@' in the address: a `sender_domain` rule on the domain at 0.98 |
| Tier4.HumanRuleMatches | analyzers/tier4_human_interface.py:290-304 | a rule Tier 4 teaches fires, in Tier 0, on the email it was learned from |
| Tier4.HumanFewShotExamples | analyzers/tier4_human_interface.py:312-339 | two examples, for tiers 2 and 3, at confidence 1.0, each with the snippet's first 200 characters; only the tier-3 one carries a body preview, the body's first 500 characters (each whole when shorter) |
| Tier4.CountSome | analyzers/tier4_human_interface.py:366 | the count of answered emails is at most the number of emails |
| Tier4.BatchVerdicts | analyzers/tier4_human_interface.py:350-364 | one verdict per email, each answer human at confidence 1.0 |
| Tier4.VerdictsAdvance | analyzers/tier4_human_interface.py:350-364 | one email further into the batch, the verdicts so far, the new one and those of the rest still make up the whole batch |
| Tier4.ExhaustedBatchSkips | analyzers/tier4_human_interface.py:350-364 | once input runs out, every remaining email is skipped |
| Tier4.BatchClassify | analyzers/tier4_human_interface.py:341-369 | one decision per email, and classified plus skipped equals the number of decisions |
| Coordinator.Handled | core/analysis_coordinator.py:86-119 | one tier's counter goes up by one and the others stay |
| Coordinator.Finalized | core/analysis_coordinator.py:126-143 | one more email processed, and one more learning event exactly on a multiple of 300 |
| Coordinator.EventsFollowCount | core/analysis_coordinator.py:171-179 | the learning events counted one by one equal the classification count divided by 300 |
| Coordinator.NextTrainingAt | core/analysis_coordinator.py:341 | the next training point is the next multiple of 300 above the count |
| Coordinator.Truncate | core/analysis_coordinator.py:160 | `int(x)` truncates toward zero |
| Coordinator.RecordOf | core/analysis_coordinator.py:145-166 | the stored row carries the email id, version v1.0, the model, the category's value, the reasoning, the fraud and importance scores, the deletion flag and reason, and the tier's number; the confidence score is `int(confidence * 100)`, in [0, 100] when the confidence is in [0, 1] |
| Coordinator.ConfidenceScoreChecked | core/analysis_coordinator.py:160 | the confidence score passes the table's CHECK exactly when the confidence is strictly between -0.01 and 1.01 |
| Coordinator.FirstDecisionSpec | core/analysis_coordinator.py:82-124 | the cascade answer is the first tier's answer; None exactly when no tier answers |
| Coordinator.FirstOfFive | core/analysis_coordinator.py:82-124 | over five tiers, the first answer is the if-chain of the cascade |
| Coordinator.Taught | core/analysis_coordinator.py:98-112 | teaching a rule never removes a row, and no rule or no database changes nothing |
| Coordinator.NewRulesEngine | core/analysis_coordinator.py:49 | a fresh Tier 0 engine on the shared database |
| Coordinator.NewFastOllama | core/analysis_coordinator.py:51 | a fresh Tier 2 classifier on the shared database |
| Coordinator.NewDeepOllama | core/analysis_coordinator.py:52 | a fresh Tier 3 classifier on the shared database |
| Coordinator.NewBertClassifier | core/analysis_coordinator.py:50 | a fresh Tier 1 classifier in a valid state |
| Coordinator.AnalysisCoordinator.constructor | core/analysis_coordinator.py:36-64 | every tier built on one shared database, zero statistics, zero count |
| Coordinator.AnalysisCoordinator.Candidates | core/analysis_coordinator.py:82-121 | five candidate answers, the k-th from tier k |
| Coordinator.AnalysisCoordinator.BertAnswer | core/analysis_coordinator.py:91-95 | Tier 1 only ever answers with a BERT decision |
| Coordinator.AnalysisCoordinator.FastAnswer | core/analysis_coordinator.py:99-103 | Tier 2 only ever answers with a fast-LLM decision |
| Coordinator.AnalysisCoordinator.DeepAnswer | core/analysis_coordinator.py:107-111 | Tier 3 only ever answers with a deep-LLM decision |
| Coordinator.AnalysisCoordinator.RulesAnswer | core/analysis_coordinator.py:83-87 | Tier 0 only ever answers with a rules-engine decision |
| Coordinator.AnalysisCoordinator.HumanAnswer | core/analysis_coordinator.py:115-120 | Tier 4 only ever answers with a human-review decision |
| Coordinator.AnalysisCoordinator.StoredTwice | core/analysis_coordinator.py:145-169 | analysing an email again replaces its stored row: after two decisions only the second is kept, unless the table refuses the second row, which then leaves the first |
| Coordinator.AnalysisCoordinator.StoredSpec | core/analysis_coordinator.py:145-169 | a row the table refuses leaves it unchanged; an admitted decision is in the table as the email's only row under version v1.0 and the configured model; other emails' rows are kept and keys stay unique |
| Coordinator.AnalysisCoordinator.TriggerBertTraining | core/analysis_coordinator.py:181-203 | Tier 1 passes through TRAINING and is initialised afresh |
| Coordinator.AnalysisCoordinator.TriggerCacheInvalidation | core/analysis_coordinator.py:205-225 | Tier 0 reloads its rules, and the Tier 2 and Tier 3 example caches become None |
| Coordinator.AnalysisCoordinator.CheckLearningTriggers | core/analysis_coordinator.py:171-179 | retrains and invalidates exactly on a multiple of 300 |
| Coordinator.AnalysisCoordinator.FinalizeDecision | core/analysis_coordinator.py:126-166 | one more classification, statistics updated, the email's row upserted under version v1.0 and the configured model unless dry run or the table refuses it, and retraining on a multiple of 300 |
| Coordinator.AnalysisCoordinator.Accept | core/analysis_coordinator.py:84-121 | the answering tier's counter goes up, then the decision is finalised |
| Coordinator.AnalysisCoordinator.RunAutomatedTiers | core/analysis_coordinator.py:82-112 | Tiers 0 to 3 in order give the first automated answer; none exactly when the email reaches a person; the rule table is what the tiers taught |
| Coordinator.AnalysisCoordinator.AnalyzeEmail | core/analysis_coordinator.py:66-124 | the answer is the first tier's answer; only an answer moves the counters and stores a row |
| Coordinator.AnalysisCoordinator.Conclude | core/analysis_coordinator.py:114-124 | a person is asked exactly when the automated tiers gave nothing; a decision moves the tier's counter by one, is finalised and stored; no decision leaves the counters alone |
| Coordinator.AnalysisCoordinator.AnalyzeOne | core/analysis_coordinator.py:248-262 | one email of the batch: a decision adds exactly one classification, and one human answer when a person gave it |
| Coordinator.AnalysisCoordinator.AnalyzeBatch | core/analysis_coordinator.py:227-288 | successful plus failed is the number of emails handled before an interrupt; human answers are among the successes; the counters agree |
| Coordinator.AnalysisCoordinator.Status | core/analysis_coordinator.py:336-351 | the processed count, the classification count, the next training point above it on a multiple of 300, the learning events, the dry-run flag, and one performance entry per tier |
| Syncer.FindFrom | core/email_syncer.py:324 | the first occurrence of a character at or after an index, or None when there is none |
| Syncer.AngleClose | core/email_syncer.py:324 | a `<` at the index closes at the first `>` after at least one other character |
| Syncer.SearchAngle | core/email_syncer.py:324 | `re.search(r'<([^>]+)>')`: the leftmost bracketed address, or None when there is none |
| Syncer.BracketOccurs | core/email_syncer.py:324-327 | the match found is `<` + address + `>` at that index |
| Syncer.AddressFound | core/email_syncer.py:324-327 | the address found is non-empty, holds no `>`, and occurs bracketed at the match index |
| Syncer.ParseSender | core/email_syncer.py:310-334 | ('', '') for empty input; the bracket contents and the rest stripped of whitespace and quotes; (stripped, '') with '@'; ('', stripped) otherwise |
| Syncer.RemoveTrailingPattern | core/email_syncer.py:327 | `replace` removes a pattern that ends the string |
| Syncer.CloseAt | core/email_syncer.py:324 | a bracket that closes at the first `>` is found by the search |
| Syncer.SearchFinds | core/email_syncer.py:324 | the search finds the first bracket when no earlier one closes |
| Syncer.FirstBracket | core/email_syncer.py:324 | a `<` that closes, with no `<` before it, is the match the search returns |
| Syncer.DisplayFormChars | core/email_syncer.py:320-324 | `Name <addr>` is the name, `<`, the address and `>` |
| Syncer.DisplayFormSearch | core/email_syncer.py:324 | in `Name <addr>` the search finds the bracket right after the name |
| Syncer.ParseDisplayForm | core/email_syncer.py:320-328 | `Name <addr>` parses to (addr, the name stripped of whitespace and quotes) |
| Syncer.PreOrder | core/email_syncer.py:436-461 | the pre-order walk lists the part first |
| Syncer.PreOrderAllAppend | core/email_syncer.py:458-459 | walking a list of parts is walking each in turn |
| Syncer.PreOrderAllSnoc | core/email_syncer.py:458-459 | walking one more part appends its walk |
| Syncer.NamedCount | core/email_syncer.py:483-484 | parts with a non-empty filename are counted |
| Syncer.NamedCountAppend | core/email_syncer.py:483-486 | counting is additive over concatenation |
| Syncer.HasAttachmentsIffCount | core/email_syncer.py:465-489 | `_has_attachments` holds exactly when the count is positive |
| Syncer.AnyHasAttachmentsIffCount | core/email_syncer.py:470-472 | the same for a list of subparts |
| Syncer.CountPart | core/email_syncer.py:481-486 | the recursive walk adds the number of named parts in the subtree |
| Syncer.CountAttachments | core/email_syncer.py:477-489 | the count is the number of named parts in pre-order, positive exactly when `_has_attachments` holds |
| Syncer.ScanAppend | core/email_syncer.py:436-461 | scanning concatenated walks scans them in turn |
| Syncer.ScanOne | core/email_syncer.py:436-461 | scanning the walk of a single part is visiting that part |
| Syncer.LastCarrier | core/email_syncer.py:441-455 | the last part of the given type with non-empty data, or None |
| Syncer.ScanIsLast | core/email_syncer.py:436-461 | the scan's result is the last carrier's data, or the start value when there is none |
| Syncer.ExtractFromPart | core/email_syncer.py:436-459 | the recursive walk with its `nonlocal` bodies computes the scans of the pre-order walk |
| Syncer.BodyOf | core/email_syncer.py:423-463 | the body of a type is the data of its last carrier in pre-order, or '' when there is none |
| Syncer.ExtractBody | core/email_syncer.py:423-463 | the text and HTML bodies are those of the last text/plain and text/html carriers |
| Syncer.Assign | core/email_syncer.py:248 | a dict assignment sets the key to the value |
| Syncer.LookupAssign | core/email_syncer.py:248 | reading back an assigned key gives the value; other keys are unchanged |
| Syncer.HeadersLastWins | core/email_syncer.py:244-254 | for a repeated header, the dict holds the last value |
| Syncer.ParseDate | core/email_syncer.py:336-351 | an empty string gives None without asking the parser |
| Syncer.BlankRunEnd | core/email_syncer.py:380 | `\s+` ends where the whitespace run ends |
| Syncer.MatchToken | core/email_syncer.py:380 | one token of the pattern matches where stated |
| Syncer.MatchTokens | core/email_syncer.py:380 | the token sequence matches in order |
| Syncer.Search | core/email_syncer.py:380 | the leftmost match of the pattern, or None when there is none |
| Syncer.FromReceived | core/email_syncer.py:372-386 | the date is read from the leftmost stamp in the Received header |
| Syncer.FromInternalDate | core/email_syncer.py:388-396 | `internalDate` read as milliseconds when it parses as an integer |
| Syncer.FromDateLikeHeader | core/email_syncer.py:398-403 | the first header in dict order whose name contains 'date' and whose value parses |
| Syncer.DateWithFallbacks | core/email_syncer.py:353-406 | Date header first, then Received, then internalDate, then any date-like header |
| Syncer.ParsedMessage | core/email_syncer.py:229-308 | None exactly without an id; flags from the labels; sender and subject from the last header; bodies, counts and date as above |
| Syncer.ParseGmailMessage | core/email_syncer.py:229-308 | the method, built from the body and attachment walks, computes the parsed message that `Parser` stands for |
| Syncer.IdsCons | core/database.py:240-275 | the stored ids of a row list with one more row |
| Syncer.IdsIff | core/database.py:240-275 | an id is stored exactly when some row carries it |
| Syncer.InsertRow | core/database.py:240-275 | `ON CONFLICT (message_id)` updates the row with that id; otherwise appends; the id set gains the id |
| Syncer.EmailTable.constructor | core/database.py:68-77 | a table starts with the given rows |
| Syncer.EmailTable.Insert | core/database.py:240-275 | a reachable table takes the row; an unreachable one is unchanged |
| Syncer.MessageStep | core/email_syncer.py:141-174 | an existing id is skipped; a failed fetch or a parser that gives nothing fails; otherwise the parsed row is stored as downloaded |
| Syncer.BatchStep | core/email_syncer.py:135-178 | every message adds one to exactly one counter, so the counters sum to the batch size |
| Syncer.BatchStepFirst | core/email_syncer.py:135-178 | a batch is its first message's step followed by the rest of the batch |
| Syncer.AddTalliesAssoc | core/email_syncer.py:170-174 | adding up the counters does not depend on grouping |
| Syncer.BatchAdvance | core/email_syncer.py:135-178 | one message further, the counters so far plus those of the rest still make up the whole batch, and the rows are those the whole batch leaves |
| Syncer.SyncFoldNext | core/email_syncer.py:176-178 | one more list call adds its page's counters to the totals and its rows to the table |
| Syncer.SyncFoldCounts | core/email_syncer.py:135-180 | the counters of the listed pages sum to the number of message ids listed, and the table never loses a row |
| Syncer.EmailSyncer.constructor | core/email_syncer.py:24-39 | a syncer over the given table |
| Syncer.EmailSyncer.EmailExists | core/email_syncer.py:219-227 | the id is stored, and an unreachable database answers false |
| Syncer.EmailSyncer.ProcessMessage | core/email_syncer.py:141-174 | the outcome and the table are the message step for the parser it is given, which the sync loop sets to `_parse_gmail_message` (`Parser`) |
| Syncer.EmailSyncer.ProcessBatch | core/email_syncer.py:135-178 | the loop computes the batch step; the counters sum to the number of messages |
| Syncer.EmailSyncer.SyncPage | core/email_syncer.py:113-182 | one round of the loop adds the page's batch counters and leaves the table one page further along the fold |
| Syncer.TargetMissedAll | core/email_syncer.py:183-186 | while the loop goes on, no prefix of the listed pages has reached the target count |
| Syncer.AllTargetMissed | core/email_syncer.py:183-186 | conversely, when no prefix reached the target, the loop's record of missed targets holds |
| Syncer.TargetMissedStep | core/email_syncer.py:123-192 | after a page the loop stops exactly when the page does not continue or the target is reached, and going on keeps the target missed for one more page |
| Syncer.EmailSyncer.SyncEmailsWithQuery | core/email_syncer.py:91-198 | pages are listed until a failed listing, an empty page, the target, or a missing or empty next-page token; every earlier call continued and left the target unreached, so the loop stops at the first call after which the target holds; the counters and the table are those of the listed pages processed in turn |
| Config.SetPath | utils/config.py:234-252 | the write succeeds exactly when every existing map on the path holds a map where the path goes on |
| Config.SetThenGet | utils/config.py:213-252 | after a write, reading the path gives the value and reading below it reads inside the value |
| Config.SetGetRoundTrip | utils/config.py:213-252 | `get_setting(p)` after `set_setting(p, v)` gives v |
| Config.SetKeepsOthers | utils/config.py:234-252 | a write leaves every path that parts ways with it unchanged |
| Config.PathOfTwo | utils/config.py:258-263 | `settings[a][b]` reads one map inside another |
| Config.DeletionCriteria | utils/config.py:257-264 | exactly the four `deletion.*` settings under their own names; None where a key or map is missing |
| Config.DefaultDeletionCriteria | utils/config.py:100-105 | by default the criteria are the default `deletion` section |
| Config.MarinConfig.constructor | utils/config.py:81-129 | the stored settings, or the defaults when there is no settings file |
| Config.MarinConfig.GetSetting | utils/config.py:213-232 | the value at the dotted path, or the default on a missing key or a value that is not a map |
| Config.MarinConfig.SetSetting | utils/config.py:234-255 | the write, raising exactly when a value on the path is not a map, and then changing nothing |
| Config.MarinConfig.GetDeletionCriteria | utils/config.py:257-264 | the deletion criteria of the current settings, with exactly the four keys |

## Left out

- I/O is not modelled: printing, timing, `time.sleep`, and `processing_time_ms`.
- The analyses row has no `fraud_flags` (always '[]') and no `tier_decision_confidence`: the coordinator passes the latter, but the INSERT of core/database.py:288-291 names no such column, so it is never stored.
- Floating point is not modelled. Confidences are exact reals, so values such as `0.95 - 0.02` are not rounded the way Python floats are.
- Prompt wording is not modelled. Prompts are records holding what the prompt is built from.
- The HTTP calls to Ollama and the BERT pipeline are oracles.
- SQL ordering other than the rule ranking is not modelled. The few-shot rows come back in stored order, not by effectiveness score.
- Store.ExamplesFor: does not order rows by `effectiveness_score, created_at`; the table's stored order stands in for that ordering.
- Text.Lower: lower-cases ASCII letters only, not the rest of Unicode.
- Text.ParseInt: does not accept the underscores, surrounding whitespace or non-ASCII digits that Python's `int()` accepts.
- Tier2.RepairJson: leaves out the two regex rewrites, the unescaped-quote fix and the bare-key fix. Only the brace, string, trailing-comma and literal steps are modelled.
- Json.StringOr and Json.IntOrNone: read a value of the wrong JSON type as absent. The source would pass such a value through or fail later.
- Tiers 2, 3 and 4 build few-shot examples and training examples but never store them. The model computes the example values and does not store them either.
- The BERT training and model files are not modelled. Only the model state machine and the installed version are modelled.
- `get_rules_summary`, `get_model_status`, `get_classifier_status` and the display functions are left out. They only report or print.
- Coordinator.AnalysisCoordinator.AnalyzeBatch: a KeyboardInterrupt is modelled as the index `interruptAt`. An unexpected exception that counts as a failure is not modelled, since no modelled tier raises.
- Processing times and the batch duration and rate figures are left out.
- Base64 decoding is not modelled. `Part.data` holds the decoded text, and a decoding error appears as a part without data.
- `parsedate_to_datetime` is an oracle. The range check of `datetime.fromtimestamp` is not modelled.
- The Gmail page token's value is not modelled. A page only says whether it announces a next token, and a missing or empty token ends the paging, as `if not page_token` does. Listing call k is answered by `listing[k]`, and calls past the end of the list fail.
- Syncer.MatchToken: `\d` is modelled as the ASCII digits 0-9. On a str, Python's `\d` also matches every other Unicode decimal digit, so a Received header whose date is written in such digits matches in the source (core/email_syncer.py:380) but not in the model, which then falls through to the internalDate fallback.
- Syncer.EmailSyncer.SyncEmailsWithQuery: takes no batch size, so `max_results` paging is not modelled, and neither is the ZeroDivisionError that `emails_downloaded//batch_size` raises for a batch size of 0 (core/email_syncer.py:115, reached from core/email_syncer.py:500 with a count of 0).
- Syncer.EmailSyncer.SyncEmailsWithQuery: the message parser is a parameter. The syncer passes `_parse_gmail_message`, which is `Parser(parsedate)`; its properties are stated on `Syncer.ParsedMessage`.
- `date_received` and the JSON copies of headers, labels and the raw message are left out of the stored row.
- The duplicated dead docstring and body after `_parse_date_with_fallbacks` are not modelled.
- A message without a payload is modelled as an empty part. A header entry without a 'name' is not modelled.
- `sync_oldest_emails` and `sync_recent_emails` are left out. They only build a Gmail query and call the sync loop.
- The settings file is not read or written. Its parsed contents are given to the constructor. `.env` loading, directory creation and `save_settings` are left out.
- `set_setting` changes the nested dicts in place. The model rebuilds the tree as a value, so aliasing of the nested dicts is not captured.
- `get_digest_config` and `validate_configuration` are left out, as are the model and path properties of the settings store.

=== FILE: analysis_coordinator.dfy ===
/** The escalation cascade (core/analysis_coordinator.py): an email goes to
    tiers 0, 1, 2, 3 and 4 in turn and the first decision wins. Every
    accepted decision is counted against its tier, stored unless in dry-run
    mode, and every 300th one triggers a learning event that retrains BERT
    and refreshes the tiers' caches. */
module Coordinator {

  import opened Optional
  import opened Json
  import opened Decisions
  import opened Store
  import Tier0
  import Tier1
  import Tier2
  import Tier3
  import Tier4

  /** `training_threshold` */
  const TrainingThreshold: nat := 300

  /** `CoordinatorStats`, without the processing-time total. */
  datatype CoordinatorStats = CoordinatorStats(
    emailsProcessed: nat,
    tier0Handled: nat,
    tier1Handled: nat,
    tier2Handled: nat,
    tier3Handled: nat,
    tier4Handled: nat,
    learningEventsTriggered: nat)

  const ZeroStats: CoordinatorStats := CoordinatorStats(0, 0, 0, 0, 0, 0, 0)

  /** The `tierN_handled` counter of tier `t`. */
  function HandledBy(s: CoordinatorStats, t: ProcessingTier): nat {
    match t
    case RulesEngine => s.tier0Handled
    case BertClassifier => s.tier1Handled
    case FastOllama => s.tier2Handled
    case DeepOllama => s.tier3Handled
    case HumanReview => s.tier4Handled
  }

  function HandledTotal(s: CoordinatorStats): nat {
    s.tier0Handled + s.tier1Handled + s.tier2Handled + s.tier3Handled + s.tier4Handled
  }

  /** One more decision from tier `t`: that counter and no other goes up. */
  function Handled(s: CoordinatorStats, t: ProcessingTier): (r: CoordinatorStats)
    ensures HandledBy(r, t) == HandledBy(s, t) + 1
    ensures forall u :: u != t ==> HandledBy(r, u) == HandledBy(s, u)
    ensures HandledTotal(r) == HandledTotal(s) + 1
    ensures r.emailsProcessed == s.emailsProcessed && r.learningEventsTriggered == s.learningEventsTriggered
  {
    match t
    case RulesEngine => s.(tier0Handled := s.tier0Handled + 1)
    case BertClassifier => s.(tier1Handled := s.tier1Handled + 1)
    case FastOllama => s.(tier2Handled := s.tier2Handled + 1)
    case DeepOllama => s.(tier3Handled := s.tier3Handled + 1)
    case HumanReview => s.(tier4Handled := s.tier4Handled + 1)
  }

  /** Whether the `count`-th classification fires a learning event. */
  predicate LearningDue(count: nat) {
    count % TrainingThreshold == 0
  }

  /** `_finalize_decision`'s counters once `classification_count` is `count`. */
  function Finalized(s: CoordinatorStats, count: nat): (r: CoordinatorStats)
    ensures r.emailsProcessed == s.emailsProcessed + 1
    ensures r.learningEventsTriggered == s.learningEventsTriggered + (if LearningDue(count) then 1 else 0)
    ensures forall t :: HandledBy(r, t) == HandledBy(s, t)
  {
    s.(emailsProcessed := s.emailsProcessed + 1,
       learningEventsTriggered := s.learningEventsTriggered + (if LearningDue(count) then 1 else 0))
  }

  /** Counting one classification more adds a learning event exactly when
      the new count is a multiple of the threshold, so the number of events
      is always the count divided by the threshold. */
  lemma EventsFollowCount(n: nat)
    ensures (n + 1) / TrainingThreshold == n / TrainingThreshold + (if LearningDue(n + 1) then 1 else 0)
  {
    var q, r := n / TrainingThreshold, n % TrainingThreshold;
    assert n == q * TrainingThreshold + r;
    if r + 1 == TrainingThreshold {
      assert n + 1 == (q + 1) * TrainingThreshold;
    } else {
      assert n + 1 == q * TrainingThreshold + (r + 1);
    }
  }

  /** `next_training_at` of `get_coordinator_status`. */
  function NextTrainingAt(count: nat): (r: nat)
    ensures count < r <= count + TrainingThreshold
    ensures r % TrainingThreshold == 0
  {
    (count / TrainingThreshold + 1) * TrainingThreshold
  }

  /** Python's `int(x)`: truncation toward zero. */
  function Truncate(x: real): (n: int)
    ensures x >= 0.0 ==> n as real <= x < n as real + 1.0
    ensures x < 0.0 ==> n as real - 1.0 < x <= n as real
  {
    if x >= 0.0 then x.Floor else -((-x).Floor)
  }

  /** The `analysis_version` every stored analysis carries. */
  const AnalysisVersion: string := "v1.0"

  /** The row `_store_analysis_result` inserts for a decision, under the
      configured default model. */
  function RecordOf(email: Email, d: AnalysisDecision, aiModel: string): (r: AnalysisRecord)
    ensures r.emailId == email.id && r.analysisVersion == AnalysisVersion && r.aiModel == aiModel
    ensures r.category == CategoryName(d.category) && r.summary == d.reasoning
    ensures r.tier == TierValue(d.tier)
    ensures r.fraudScore == d.fraudScore && r.importanceScore == d.importanceScore
    ensures r.deletionCandidate == d.deletionCandidate && r.deletionReason == d.deletionReason
    ensures 0.0 <= d.confidence <= 1.0 ==> 0 <= r.confidenceScore <= 100
    ensures d.confidence >= 0.0 ==> r.confidenceScore as real <= d.confidence * 100.0 < r.confidenceScore as real + 1.0
  {
    AnalysisRecord(email.id, AnalysisVersion, aiModel, CategoryName(d.category), d.reasoning, d.fraudScore,
                   d.deletionCandidate, d.deletionReason, d.importanceScore,
                   Truncate(d.confidence * 100.0), TierValue(d.tier))
  }

  /** The stored confidence passes its CHECK exactly when the decision's
      confidence lies strictly between -0.01 and 1.01: Tiers 2 and 3 accept
      any confidence from their floor up, so a reply such as 85 yields a
      score of 8500 that the table refuses. */
  lemma ConfidenceScoreChecked(email: Email, d: AnalysisDecision, aiModel: string)
    ensures ScoreInRange(RecordOf(email, d, aiModel).confidenceScore) <==> -0.01 < d.confidence < 1.01
  {
    var x := d.confidence * 100.0;
    var n := Truncate(x);
    assert n == RecordOf(email, d, aiModel).confidenceScore;
    if x >= 0.0 {
      assert n as real <= x < n as real + 1.0;
    } else {
      assert n as real - 1.0 < x <= n as real;
    }
  }

  /** The first decision of the cascade, if any tier gives one. */
  function FirstDecision(vs: seq<Option<AnalysisDecision>>): Option<AnalysisDecision> {
    if vs == [] then None
    else if vs[0].Some? then vs[0]
    else FirstDecision(vs[1..])
  }

  /** The cascade answers None exactly when every tier does, and otherwise
      the answer of the first tier that gives one. */
  lemma {:induction false} FirstDecisionSpec(vs: seq<Option<AnalysisDecision>>)
    ensures FirstDecision(vs).None? <==> forall k | 0 <= k < |vs| :: vs[k].None?
    ensures FirstDecision(vs).Some? ==>
      exists k | 0 <= k < |vs| :: vs[k] == FirstDecision(vs) && forall j | 0 <= j < k :: vs[j].None?
  {
    if vs != [] && vs[0].None? {
      FirstDecisionSpec(vs[1..]);
      assert forall k | 1 <= k < |vs| :: vs[k] == vs[1..][k - 1];
      if FirstDecision(vs).Some? {
        var k :| 0 <= k < |vs[1..]| && vs[1..][k] == FirstDecision(vs) && forall j | 0 <= j < k :: vs[1..][j].None?;
        assert vs[k + 1] == FirstDecision(vs);
        assert forall j | 0 <= j < k + 1 :: vs[j].None?;
      }
    }
  }

  /** The cascade of five tiers, written out. */
  lemma {:induction false} FirstOfFive(vs: seq<Option<AnalysisDecision>>)
    requires |vs| == 5
    ensures FirstDecision(vs) ==
      if vs[0].Some? then vs[0] else if vs[1].Some? then vs[1] else if vs[2].Some? then vs[2]
      else if vs[3].Some? then vs[3] else vs[4]
  {
    var w1, w2, w3, w4 := vs[1..], vs[2..], vs[3..], vs[4..];
    assert w1[0] == vs[1] && w1[1..] == w2;
    assert w2[0] == vs[2] && w2[1..] == w3;
    assert w3[0] == vs[3] && w3[1..] == w4;
    assert w4[0] == vs[4] && w4[1..] == [];
    assert FirstDecision(w4) == vs[4];
    assert FirstDecision(w3) == if vs[3].Some? then vs[3] else vs[4];
    assert FirstDecision(w2) == if vs[2].Some? then vs[2] else FirstDecision(w3);
    assert FirstDecision(w1) == if vs[1].Some? then vs[1] else FirstDecision(w2);
  }

  /** The external answers one email meets: whether the BERT pipeline call
      returns, the two LLMs, and `json.loads`. */
  datatype Oracles = Oracles(
    pipelineOk: bool,
    fastLlm: Tier2.FastPrompt -> Option<string>,
    deepLlm: Tier3.DeepPrompt -> Option<string>,
    decode: string -> Option<Json>)

  /** The rule rows after a tier's rule request went to the database. */
  function Taught(rows: seq<RuleRow>, reachable: bool, req: Option<RuleRequest>): (r: seq<RuleRow>)
    ensures |rows| <= |r|
    ensures req.None? || !reachable ==> r == rows
  {
    if reachable && req.Some? then Upsert(rows, req.value) else rows
  }

  /** The tiers as `__init__` builds them, over the shared database. */
  method NewRulesEngine(db: Database) returns (t: Tier0.RulesEngine)
    ensures fresh(t) && t.db == db
  {
    t := new Tier0.RulesEngine(db);
  }

  method NewFastOllama(db: Database) returns (t: Tier2.FastOllama)
    ensures fresh(t) && t.db == db
  {
    t := new Tier2.FastOllama(db);
  }

  method NewDeepOllama(db: Database) returns (t: Tier3.DeepOllama)
    ensures fresh(t) && t.db == db
  {
    t := new Tier3.DeepOllama(db);
  }

  method NewBertClassifier(transformersAvailable: bool, env: Tier1.ModelEnv) returns (t: Tier1.BertClassifier)
    ensures fresh(t) && t.Valid() && t.transformersAvailable == transformersAvailable
  {
    t := new Tier1.BertClassifier(transformersAvailable, env);
  }

  class AnalysisCoordinator {
    const db: Database
    const dryRun: bool
    /** `config.default_ai_model`, the model every analysis is stored under. */
    const aiModel: string
    const tier0: Tier0.RulesEngine
    const tier1: Tier1.BertClassifier
    const tier2: Tier2.FastOllama
    const tier3: Tier3.DeepOllama
    /** The model files Tier 1 finds on disk. */
    const modelEnv: Tier1.ModelEnv
    /** Standard input, stripped line by line, and how much of it is read. */
    const humanInput: seq<string>
    var humanPos: nat
    var stats: CoordinatorStats
    var classificationCount: nat

    /** Every tier shares the one database, and the objects are well formed. */
    ghost predicate Wired()
      reads this, db, tier1
    {
      && tier0.db == db && tier2.db == db && tier3.db == db
      && db.Valid() && tier1.Valid()
      && humanPos <= |humanInput|
    }

    /** The counters agree: one classification per processed email and per
        tier count, and one learning event per 300 classifications. */
    ghost predicate Valid()
      reads this, db, tier1
    {
      && Wired()
      && stats.emailsProcessed == classificationCount
      && HandledTotal(stats) == classificationCount
      && stats.learningEventsTriggered == classificationCount / TrainingThreshold
    }

    /** `__init__`: every tier built over the same database, counters at zero. */
    constructor (db: Database, dryRun: bool, aiModel: string, transformersAvailable: bool, modelEnv: Tier1.ModelEnv, humanInput: seq<string>)
      requires db.Valid()
      ensures humanPos == 0
      ensures classificationCount == 0
      ensures stats == ZeroStats
      ensures Valid()
      ensures this.db == db && this.dryRun == dryRun
      ensures this.aiModel == aiModel && this.humanInput == humanInput
      ensures tier1.transformersAvailable == transformersAvailable
    {
      var rules := NewRulesEngine(db);
      var fast := NewFastOllama(db);
      var deep := NewDeepOllama(db);
      var bert := NewBertClassifier(transformersAvailable, modelEnv);
      assert bert.transformersAvailable == transformersAvailable && bert.Valid();
      this.db := db;
      this.dryRun := dryRun;
      this.aiModel := aiModel;
      this.modelEnv := modelEnv;
      this.humanInput := humanInput;
      tier0, tier1, tier2, tier3 := rules, bert, fast, deep;
      humanPos := 0;
      stats := ZeroStats;
      classificationCount := 0;
      new;
      assert Wired();
      assert this.aiModel == aiModel && this.humanInput == humanInput;
    }

    /** What each tier would answer for `email` in the current state. Tier k
        only ever answers with tier k's decisions. */
    function Candidates(email: Email, o: Oracles): (vs: seq<Option<AnalysisDecision>>)
      requires humanPos <= |humanInput|
      reads this, db, tier0, tier1, tier2, tier3
      ensures |vs| == 5
      ensures vs[0].Some? ==> vs[0].value.tier == RulesEngine
      ensures vs[1].Some? ==> vs[1].value.tier == BertClassifier
      ensures vs[2].Some? ==> vs[2].value.tier == FastOllama
      ensures vs[3].Some? ==> vs[3].value.tier == DeepOllama
      ensures vs[4].Some? ==> vs[4].value.tier == HumanReview
    {
      [RulesAnswer(email), BertAnswer(email, o), FastAnswer(email, o), DeepAnswer(email, o), HumanAnswer()]
    }

    /** Tier 1's answer in its current model state. */
    function BertAnswer(email: Email, o: Oracles): (r: Option<AnalysisDecision>)
      reads tier1
      ensures r.Some? ==> r.value.tier == BertClassifier
    {
      tier1.Verdict(email, o.pipelineOk)
    }

    /** Tier 2's answer with its current examples cache. */
    function FastAnswer(email: Email, o: Oracles): (r: Option<AnalysisDecision>)
      reads tier2
      ensures r.Some? ==> r.value.tier == FastOllama
    {
      tier2.Verdict(email, o.fastLlm, o.decode)
    }

    /** Tier 3's answer with its current examples cache. */
    function DeepAnswer(email: Email, o: Oracles): (r: Option<AnalysisDecision>)
      reads tier3
      ensures r.Some? ==> r.value.tier == DeepOllama
    {
      tier3.Verdict(email, o.deepLlm, o.decode)
    }

    /** Tier 0's answer over the rules it would use now. */
    function RulesAnswer(email: Email): (r: Option<AnalysisDecision>)
      reads this, db, tier0
      ensures r.Some? ==> r.value.tier == RulesEngine
    {
      Tier0.Verdict(Tier0.ActiveRules(tier0.rulesCache, db.reachable, db.rules), email)
    }

    /** The person's answer, read from where standard input stands now. */
    function HumanAnswer(): (r: Option<AnalysisDecision>)
      requires humanPos <= |humanInput|
      reads this
      ensures r.Some? ==> r.value.tier == HumanReview
    {
      Tier4.Verdict(humanInput, humanPos).0
    }

    /** The analyses table after `_store_analysis_result` ran for `d`:
        the email's row under version v1.0 and the default model is written
        or replaced; nothing is written in dry-run mode, when the database
        is down, or when the table's constraints refuse the row (the error
        is caught and only printed). */
    function Stored(analyses: seq<AnalysisRecord>, email: Email, d: AnalysisDecision): seq<AnalysisRecord>
      reads this, db
    {
      if !dryRun && db.reachable && db.Admits(RecordOf(email, d, aiModel)) then UpsertAnalysis(analyses, RecordOf(email, d, aiModel))
      else analyses
    }

    /** Analysing an email again replaces its stored row: after two
        decisions for the same email only the second is kept, unless the
        table refuses the second row, which then leaves the first. */
    lemma StoredTwice(analyses: seq<AnalysisRecord>, email: Email, d1: AnalysisDecision, d2: AnalysisDecision)
      ensures db.Admits(RecordOf(email, d2, aiModel)) ==>
        Stored(Stored(analyses, email, d1), email, d2) == Stored(analyses, email, d2)
      ensures !db.Admits(RecordOf(email, d2, aiModel)) ==>
        Stored(Stored(analyses, email, d1), email, d2) == Stored(analyses, email, d1)
    {
      if !dryRun && db.reachable && db.Admits(RecordOf(email, d1, aiModel)) && db.Admits(RecordOf(email, d2, aiModel)) {
        UpsertAnalysisTwice(analyses, RecordOf(email, d1, aiModel), RecordOf(email, d2, aiModel));
      }
    }

    /** A stored decision is in the table, the email has one row under this
        version and model, and rows of other emails are kept. */
    lemma StoredSpec(analyses: seq<AnalysisRecord>, email: Email, d: AnalysisDecision)
      requires UniqueAnalysisKeys(analyses)
      requires !dryRun && db.reachable
      ensures !db.Admits(RecordOf(email, d, aiModel)) ==> Stored(analyses, email, d) == analyses
      ensures db.Admits(RecordOf(email, d, aiModel)) ==> var r := Stored(analyses, email, d);
        && UniqueAnalysisKeys(r)
        && RecordOf(email, d, aiModel) in r
        && (forall x :: x in analyses && x.emailId != email.id ==> x in r)
        && (forall x :: x in r && SameAnalysisKey(x, RecordOf(email, d, aiModel)) ==> x == RecordOf(email, d, aiModel))
    {
      UpsertAnalysisSpec(analyses, RecordOf(email, d, aiModel));
    }

    /** Whether tiers 0 to 3 all pass `email` on, so that a person is asked. */
    predicate ReachesHuman(email: Email, o: Oracles)
      requires humanPos <= |humanInput|
      reads this, db, tier0, tier1, tier2, tier3
    {
      var vs := Candidates(email, o);
      vs[0].None? && vs[1].None? && vs[2].None? && vs[3].None?
    }

    /** The rule rows after the cascade ran: tier 0 counts a match, tiers 2
        and 3 upsert what they learned, each only if it was reached. */
    function RulesAfterCascade(email: Email, o: Oracles): seq<RuleRow>
      requires humanPos <= |humanInput|
      reads this, db, tier0, tier1, tier2, tier3
    {
      var vs := Candidates(email, o);
      var rules := Tier0.ActiveRules(tier0.rulesCache, db.reachable, db.rules);
      if vs[0].Some? then Tier0.AfterAnalyze(rules, email, db.reachable, db.rules)
      else if vs[1].Some? then db.rules
      else
        var afterFast := Taught(db.rules, db.reachable, tier2.TaughtRule(email, o.fastLlm, o.decode));
        if vs[2].Some? then afterFast
        else Taught(afterFast, db.reachable, tier3.TaughtRule(email, o.deepLlm, o.decode))
    }

    /** The state a learning event leaves the tiers in. */
    ghost predicate Retrained()
      reads this, db, tier0, tier1, tier2, tier3
    {
      && tier0.rulesCache == Some(Tier0.Loaded(db.reachable, db.rules))
      && tier2.fewShotExamples.None? && tier3.fewShotExamples.None?
      && tier1.modelState == Tier1.InitializedState(tier1.transformersAvailable, modelEnv)
    }

    /** `_trigger_bert_training`: TRAINING, then back through initialisation. */
    method TriggerBertTraining()
      requires tier1.Valid()
      modifies tier1`modelState, tier1`currentModelVersion, tier1`stateHistory
      ensures tier1.Valid()
      ensures tier1.modelState == Tier1.InitializedState(tier1.transformersAvailable, modelEnv)
      ensures tier1.stateHistory == old(tier1.stateHistory) + [Tier1.Training] +
        (if tier1.transformersAvailable then [Tier1.Loading, tier1.modelState] else [Tier1.Failed])
    {
      tier1.SetTrainingState(true, modelEnv);
      tier1.SetTrainingState(false, modelEnv);
    }

    /** `_trigger_cache_invalidation`: tiers 0, 2 and 3 drop their caches,
        then tier 0 reloads at once. */
    method TriggerCacheInvalidation()
      requires tier0.db == db
      modifies tier0`rulesCache, tier2`fewShotExamples, tier3`fewShotExamples
      ensures tier0.rulesCache == Some(Tier0.Loaded(db.reachable, db.rules))
      ensures tier2.fewShotExamples.None? && tier3.fewShotExamples.None?
    {
      tier0.InvalidateCache();
      tier2.InvalidateExamplesCache();
      tier3.InvalidateExamplesCache();
      tier0.CheckForNewRules();
    }

    /** `_check_learning_triggers` */
    method CheckLearningTriggers()
      requires tier1.Valid() && tier0.db == db
      modifies this`stats, tier0`rulesCache, tier1`modelState, tier1`currentModelVersion, tier1`stateHistory,
               tier2`fewShotExamples, tier3`fewShotExamples
      ensures tier1.Valid()
      ensures LearningDue(classificationCount) ==> (
        && stats == old(stats).(learningEventsTriggered := old(stats).learningEventsTriggered + 1)
        && Retrained())
      ensures !LearningDue(classificationCount) ==> (
        && stats == old(stats)
        && unchanged(tier0, tier1, tier2, tier3))
    {
      if LearningDue(classificationCount) {
        TriggerBertTraining();
        TriggerCacheInvalidation();
        stats := stats.(learningEventsTriggered := stats.learningEventsTriggered + 1);
      }
    }

    /** `_finalize_decision`, entered once the tier's counter went up. */
    method FinalizeDecision(email: Email, d: AnalysisDecision)
      requires Wired()
      requires stats.emailsProcessed == classificationCount && HandledTotal(stats) == classificationCount + 1
      requires stats.learningEventsTriggered == classificationCount / TrainingThreshold
      modifies this`stats, this`classificationCount, db`analyses,
               tier0`rulesCache, tier1`modelState, tier1`currentModelVersion, tier1`stateHistory,
               tier2`fewShotExamples, tier3`fewShotExamples
      ensures Valid()
      ensures classificationCount == old(classificationCount) + 1
      ensures stats == Finalized(old(stats), classificationCount)
      ensures db.analyses == Stored(old(db.analyses), email, d)
      ensures LearningDue(classificationCount) ==> Retrained()
      ensures !LearningDue(classificationCount) ==> unchanged(tier0, tier1, tier2, tier3)
    {
      stats := stats.(emailsProcessed := stats.emailsProcessed + 1);
      if !dryRun {
        var _ := db.InsertAnalysis(RecordOf(email, d, aiModel));
      }
      EventsFollowCount(classificationCount);
      classificationCount := classificationCount + 1;
      CheckLearningTriggers();
    }

    /** A tier gave decision `d`: its counter goes up, then `_finalize_decision`. */
    method Accept(email: Email, d: AnalysisDecision)
      requires Valid()
      modifies this`stats, this`classificationCount, db`analyses,
               tier0`rulesCache, tier1`modelState, tier1`currentModelVersion, tier1`stateHistory,
               tier2`fewShotExamples, tier3`fewShotExamples
      ensures Valid()
      ensures classificationCount == old(classificationCount) + 1
      ensures stats == Finalized(Handled(old(stats), d.tier), classificationCount)
      ensures db.analyses == Stored(old(db.analyses), email, d)
      ensures LearningDue(classificationCount) ==> Retrained()
    {
      stats := Handled(stats, d.tier);
      FinalizeDecision(email, d);
    }

    /** Tiers 0 to 3 of `analyze_email`, each asked only when those before
        it gave no decision. */
    method RunAutomatedTiers(email: Email, o: Oracles) returns (d: Option<AnalysisDecision>)
      requires Wired()
      modifies db`rules, tier0`rulesCache
      ensures Wired()
      ensures d == (var vs := old(Candidates(email, o));
        if vs[0].Some? then vs[0] else if vs[1].Some? then vs[1] else if vs[2].Some? then vs[2] else vs[3])
      ensures d.None? <==> old(ReachesHuman(email, o))
      ensures db.rules == old(RulesAfterCascade(email, o))
    {
      ghost var vs := Candidates(email, o);
      ghost var after := RulesAfterCascade(email, o);
      ghost var fast := tier2.TaughtRule(email, o.fastLlm, o.decode);
      d := tier0.Analyze(email);
      assert d == vs[0] && (d.Some? ==> db.rules == after);
      if d.None? {
        d := tier1.Verdict(email, o.pipelineOk);
        assert d == vs[1];
      }
      if d.None? {
        d := tier2.Analyze(email, o.fastLlm, o.decode);
        assert d == vs[2];
        assert db.rules == Taught(old(db.rules), db.reachable, fast);
      }
      if d.None? {
        d := tier3.Analyze(email, o.deepLlm, o.decode);
        assert d == vs[3];
      }
    }

    /** `analyze_email`: tier k+1 is asked only when tiers 0..k gave no
        decision; the first decision is counted against its tier, finalised
        and returned. */
    method AnalyzeEmail(email: Email, o: Oracles) returns (d: Option<AnalysisDecision>)
      requires Valid()
      modifies this`stats, this`classificationCount, this`humanPos, db`rules, db`analyses,
               tier0`rulesCache, tier1`modelState, tier1`currentModelVersion, tier1`stateHistory,
               tier2`fewShotExamples, tier3`fewShotExamples
      ensures Valid()
      ensures d == FirstDecision(old(Candidates(email, o)))
      ensures d.None? ==> stats == old(stats) && classificationCount == old(classificationCount)
      ensures d.Some? ==> (
        && classificationCount == old(classificationCount) + 1
        && stats == Finalized(Handled(old(stats), d.value.tier), classificationCount))
      ensures humanPos ==
        if old(ReachesHuman(email, o)) then Tier4.Verdict(humanInput, old(humanPos)).1 else old(humanPos)
      ensures db.rules == old(RulesAfterCascade(email, o))
      ensures db.analyses == if d.Some? then Stored(old(db.analyses), email, d.value) else old(db.analyses)
      ensures d.Some? && LearningDue(classificationCount) ==> Retrained()
    {
      ghost var vs := Candidates(email, o);
      FirstOfFive(vs);
      var automated := RunAutomatedTiers(email, o);
      d := Conclude(email, automated);
    }

    /** The end of `analyze_email`: a person is asked only when the automated
        tiers gave no decision, and a decision is counted and finalised. */
    method Conclude(email: Email, automated: Option<AnalysisDecision>) returns (d: Option<AnalysisDecision>)
      requires Valid()
      modifies this`stats, this`classificationCount, this`humanPos, db`analyses,
               tier0`rulesCache, tier1`modelState, tier1`currentModelVersion, tier1`stateHistory,
               tier2`fewShotExamples, tier3`fewShotExamples
      ensures Valid()
      ensures d == if automated.Some? then automated else old(HumanAnswer())
      ensures humanPos == if automated.None? then Tier4.Verdict(humanInput, old(humanPos)).1 else old(humanPos)
      ensures d.None? ==> stats == old(stats) && classificationCount == old(classificationCount)
      ensures d.Some? ==> (
        && classificationCount == old(classificationCount) + 1
        && stats == Finalized(Handled(old(stats), d.value.tier), classificationCount))
      ensures db.analyses == if d.Some? then Stored(old(db.analyses), email, d.value) else old(db.analyses)
      ensures d.Some? && LearningDue(classificationCount) ==> Retrained()
    {
      d := automated;
      if d.None? {
        d, humanPos := Tier4.Analyze(email, humanInput, humanPos);
      }
      if d.Some? {
        Accept(email, d.value);
      }
    }

    /** One email of a batch, as `analyze_batch` sees it: a decision adds one
        classification, and one human answer when a person gave it. */
    method AnalyzeOne(email: Email, o: Oracles) returns (d: Option<AnalysisDecision>)
      requires Valid()
      modifies this`stats, this`classificationCount, this`humanPos, db`rules, db`analyses,
               tier0`rulesCache, tier1`modelState, tier1`currentModelVersion, tier1`stateHistory,
               tier2`fewShotExamples, tier3`fewShotExamples
      ensures Valid()
      ensures classificationCount == old(classificationCount) + (if d.Some? then 1 else 0)
      ensures stats.tier4Handled == old(stats.tier4Handled) + (if d.Some? && d.value.tier == HumanReview then 1 else 0)
    {
      d := AnalyzeEmail(email, o);
    }

    /** `analyze_batch`: emails in order until the end or until an interrupt
        arrives before email `interruptAt`; `oracles[i]` answers for
        `emails[i]`. */
    method AnalyzeBatch(emails: seq<Email>, oracles: seq<Oracles>, interruptAt: Option<nat>)
      returns (successful: nat, failed: nat, human: nat)
      requires Valid() && |oracles| == |emails|
      modifies this`stats, this`classificationCount, this`humanPos, db`rules, db`analyses,
               tier0`rulesCache, tier1`modelState, tier1`currentModelVersion, tier1`stateHistory,
               tier2`fewShotExamples, tier3`fewShotExamples
      ensures Valid()
      ensures successful + failed ==
        if interruptAt.Some? && interruptAt.value < |emails| then interruptAt.value else |emails|
      ensures human <= successful
      ensures classificationCount == old(classificationCount) + successful
      ensures stats.tier4Handled == old(stats.tier4Handled) + human
    {
      successful, failed, human := 0, 0, 0;
      var stop := if interruptAt.Some? && interruptAt.value < |emails| then interruptAt.value else |emails|;
      var i := 0;
      while i < stop
        invariant i <= stop
        invariant Valid()
        invariant successful + failed == i && human <= successful
        invariant classificationCount == old(classificationCount) + successful
        invariant stats.tier4Handled == old(stats.tier4Handled) + human
      {
        var d := AnalyzeOne(emails[i], oracles[i]);
        if d.Some? {
          successful := successful + 1;
          if d.value.tier == HumanReview {
            human := human + 1;
          }
        } else {
          failed := failed + 1;
        }
        i := i + 1;
      }
    }

    /** `get_coordinator_status` */
    function Status(): (r: CoordinatorStatus)
      reads this
      ensures r.emailsProcessed == stats.emailsProcessed
      ensures r.classificationCount == classificationCount
      ensures r.nextTrainingAt == NextTrainingAt(classificationCount)
      ensures r.classificationCount < r.nextTrainingAt && r.nextTrainingAt % TrainingThreshold == 0
      ensures r.learningEventsTriggered == stats.learningEventsTriggered
      ensures r.dryRunMode == dryRun
      ensures |r.tierPerformance| == 5
      ensures forall t :: r.tierPerformance[TierValue(t)] == HandledBy(stats, t)
    {
      CoordinatorStatus(stats.emailsProcessed, classificationCount, NextTrainingAt(classificationCount),
                        stats.learningEventsTriggered,
                        [stats.tier0Handled, stats.tier1Handled, stats.tier2Handled, stats.tier3Handled, stats.tier4Handled],
                        dryRun)
    }
  }

  /** What `get_coordinator_status` reports; `tierPerformance[k]` is tier k's count. */
  datatype CoordinatorStatus = CoordinatorStatus(
    emailsProcessed: nat,
    classificationCount: nat,
    nextTrainingAt: nat,
    learningEventsTriggered: nat,
    tierPerformance: seq<nat>,
    dryRunMode: bool)
}

=== FILE: config.dfy ===
/** The settings store (utils/config.py): a JSON settings tree read and
    written by dot-separated key paths, its defaults, and the deletion
    criteria drawn from it. Reading and writing the settings file is outside
    the model; what the file held is given to the constructor. */
module Config {

  import opened Optional
  import opened Text
  import opened Json

  /** `get_setting`'s walk: every key must meet a map that holds it. A
      missing key (`KeyError`) and a value that is not a map (`TypeError`)
      both end the walk with None. */
  function GetPath(v: Json, keys: seq<string>): Option<Json>
    decreases |keys|
  {
    if keys == [] then Some(v)
    else if v.JObject? && keys[0] in v.fields then GetPath(v.fields[keys[0]], keys[1..])
    else None
  }

  /** The paths `set_setting` can write: every map met on the way that
      already holds the next key must hold a map there. */
  predicate Settable(v: Json, keys: seq<string>)
    requires keys != []
    decreases |keys|
  {
    && v.JObject?
    && (|keys| == 1 || (keys[0] in v.fields ==> Settable(v.fields[keys[0]], keys[1..])))
  }

  /** `set_setting`'s walk as a value: a missing intermediate key gets a
      fresh map, the last key gets `value`, and a value in the way that is
      not a map makes it raise (None). */
  function SetPath(v: Json, keys: seq<string>, value: Json): (r: Option<Json>)
    requires keys != []
    ensures r.Some? <==> Settable(v, keys)
    ensures r.Some? ==> r.value.JObject?
    decreases |keys|
  {
    if !v.JObject? then None
    else if |keys| == 1 then Some(JObject(v.fields[keys[0] := value]))
    else
      var child := if keys[0] in v.fields then v.fields[keys[0]] else JObject(map[]);
      match SetPath(child, keys[1..], value)
      case Some(c) => Some(JObject(v.fields[keys[0] := c]))
      case None => None
  }

  /** Reading back a path just written gives the written value, and reading
      below it reads inside that value. */
  lemma {:induction false} SetThenGet(v: Json, keys: seq<string>, value: Json, rest: seq<string>)
    requires keys != [] && SetPath(v, keys, value).Some?
    ensures GetPath(SetPath(v, keys, value).value, keys + rest) == GetPath(value, rest)
    decreases |keys|
  {
    var w := SetPath(v, keys, value).value;
    assert (keys + rest)[0] == keys[0] && (keys + rest)[1..] == keys[1..] + rest;
    if |keys| == 1 {
      assert keys[1..] + rest == rest;
    } else {
      var child := if keys[0] in v.fields then v.fields[keys[0]] else JObject(map[]);
      SetThenGet(child, keys[1..], value, rest);
    }
  }

  /** The round trip: after a successful write, the path reads the value. */
  lemma SetGetRoundTrip(v: Json, keys: seq<string>, value: Json)
    requires keys != [] && Settable(v, keys)
    ensures GetPath(SetPath(v, keys, value).value, keys) == Some(value)
  {
    SetThenGet(v, keys, value, []);
    assert keys + [] == keys;
  }

  /** Two key paths part ways: neither is a prefix of the other. */
  predicate Diverge(p: seq<string>, q: seq<string>)
    decreases |p|
  {
    p != [] && q != [] && (p[0] != q[0] || Diverge(p[1..], q[1..]))
  }

  /** A write leaves every path that parts ways with it as it was. */
  lemma {:induction false} SetKeepsOthers(v: Json, keys: seq<string>, value: Json, other: seq<string>)
    requires keys != [] && SetPath(v, keys, value).Some? && Diverge(keys, other)
    ensures GetPath(SetPath(v, keys, value).value, other) == GetPath(v, other)
    decreases |keys|
  {
    if keys[0] == other[0] {
      var child := if keys[0] in v.fields then v.fields[keys[0]] else JObject(map[]);
      assert |keys| > 1 && |other| > 1;
      SetKeepsOthers(child, keys[1..], value, other[1..]);
      if keys[0] !in v.fields {
        assert GetPath(child, other[1..]) == None;
      }
    }
  }

  /** The default `deletion` section: three categories safe to delete,
      four always kept, a 30-day minimum age, preview mode on. */
  const DefaultDeletion: map<string, Json> := map[
    "safe_categories" := JArray([JString("SHOPPING"), JString("ENTERTAINMENT"), JString("SPAM")]),
    "preserve_categories" := JArray([JString("WORK"), JString("FINANCIAL"), JString("PERSONAL"), JString("HEALTH")]),
    "min_age_days" := JInt(30),
    "preview_mode" := JBool(true)]

  /** The defaults `_default_settings` returns. */
  const DefaultSettings: Json := JObject(map[
    "ai_models" := JObject(map[
      "fast" := JString("llama3.2:3b"),
      "comprehensive" := JString("llama3.1:70b"),
      "default" := JString("llama3.2:3b")]),
    "processing" := JObject(map[
      "default_batch_size" := JInt(100),
      "enable_adaptive_learning" := JBool(true),
      "safety_mode" := JBool(true),
      "max_emails_per_session" := JInt(10000)]),
    "deletion" := JObject(DefaultDeletion),
    "digest" := JObject(map[
      "default_hours_back" := JInt(24),
      "include_categories" := JArray([JString("WORK"), JString("FINANCIAL"), JString("PERSONAL"), JString("HEALTH")]),
      "exclude_low_importance" := JBool(true),
      "importance_threshold" := JInt(30)]),
    "database" := JObject(map[
      "cleanup_old_analysis" := JBool(true),
      "analysis_retention_days" := JInt(90),
      "backup_before_deletion" := JBool(true)]),
    "fraud_detection" := JObject(map[
      "enable_ai_analysis" := JBool(true),
      "strict_domain_checking" := JBool(true),
      "quarantine_suspicious" := JBool(true),
      "fraud_score_threshold" := JInt(70)])])

  /** The four keys `get_deletion_criteria` copies out of `deletion`. */
  const DeletionKeys: set<string> := {"safe_categories", "preserve_categories", "min_age_days", "preview_mode"}

  /** A two-key path reads one map inside another. */
  lemma PathOfTwo(v: Json, a: string, b: string)
    ensures GetPath(v, [a, b])
            == (if v.JObject? && a in v.fields && v.fields[a].JObject? && b in v.fields[a].fields
                then Some(v.fields[a].fields[b]) else None)
  {
    assert [a, b][1..] == [b];
    assert [b][1..] == [];
    if v.JObject? && a in v.fields {
      var w := v.fields[a];
      assert GetPath(v, [a, b]) == GetPath(w, [b]);
      if w.JObject? && b in w.fields {
        assert GetPath(w, [b]) == GetPath(w.fields[b], []);
      }
    }
  }

  /** `get_deletion_criteria`: the four `deletion.*` settings under their
      own names; None where the source raises (a key or the `deletion` map
      missing, or `deletion` not a map). */
  function DeletionCriteria(settings: Json): (r: Option<map<string, Json>>)
    ensures r.Some? <==> forall k | k in DeletionKeys :: GetPath(settings, ["deletion", k]).Some?
    ensures r.Some? ==> r.value.Keys == DeletionKeys
    ensures r.Some? ==> forall k | k in DeletionKeys :: Some(r.value[k]) == GetPath(settings, ["deletion", k])
  {
    forall k { PathOfTwo(settings, "deletion", k); }
    if settings.JObject? && "deletion" in settings.fields && settings.fields["deletion"].JObject?
       && DeletionKeys <= settings.fields["deletion"].fields.Keys
    then
      var d := settings.fields["deletion"].fields;
      Some(map k | k in DeletionKeys :: d[k])
    else
      None
  }

  /** Out of the box the deletion criteria are the default `deletion`
      section, whole. */
  lemma DefaultDeletionCriteria()
    ensures DeletionCriteria(DefaultSettings) == Some(DefaultDeletion)
  {
    var d := DefaultSettings.fields["deletion"].fields;
    assert d == DefaultDeletion;
    assert d.Keys == DeletionKeys;
    var r := DeletionCriteria(DefaultSettings).value;
    assert r == d;
  }

  /** `MarinConfig`, reduced to its settings tree. */
  class MarinConfig {
    var settings: Json

    /** `__init__` / `_load_settings`: the settings file's contents when it
        exists and parses, the defaults otherwise. */
    constructor (stored: Option<Json>)
      ensures settings == stored.GetOr(DefaultSettings)
    {
      settings := stored.GetOr(DefaultSettings);
    }

    /** `get_setting`: the value at the dotted path, or `default` when a key
        is missing or a value on the way is not a map. */
    method GetSetting(keyPath: string, default: Json) returns (r: Json)
      ensures r == GetPath(settings, Split(keyPath, '.')).GetOr(default)
    {
      var keys := Split(keyPath, '.');
      var value := settings;
      var i := 0;
      while i < |keys|
        invariant 0 <= i <= |keys|
        invariant GetPath(settings, keys) == GetPath(value, keys[i..])
      {
        if !(value.JObject? && keys[i] in value.fields) {
          return default;
        }
        assert keys[i..][1..] == keys[i + 1..];
        value := value.fields[keys[i]];
        i := i + 1;
      }
      return value;
    }

    /** `set_setting`: writes `value` at the dotted path, creating missing
        maps on the way. `raised` is the `TypeError` a value in the way
        that is not a map causes; the settings are then unchanged. */
    method SetSetting(keyPath: string, value: Json) returns (raised: bool)
      modifies this
      ensures raised <==> !Settable(old(settings), Split(keyPath, '.'))
      ensures !raised ==> settings == SetPath(old(settings), Split(keyPath, '.'), value).value
      ensures raised ==> settings == old(settings)
    {
      var keys := Split(keyPath, '.');
      var updated := SetPath(settings, keys, value);
      raised := updated.None?;
      if !raised {
        settings := updated.value;
      }
    }

    /** `get_deletion_criteria` */
    function GetDeletionCriteria(): (r: Option<map<string, Json>>)
      reads this
      ensures r.Some? ==> r.value.Keys == DeletionKeys
      ensures r == DeletionCriteria(settings)
    {
      DeletionCriteria(settings)
    }
  }
}

=== FILE: decisions.dfy ===
/** The decision types shared by every tier (analyzers/tier0_rules_engine.py):
    the category, action and tier enumerations, the decision record, and the
    email record the tiers read. */
module Decisions {

  import opened Optional

  datatype EmailCategory =
    | Newsletter | Promotional | Work | Financial | Personal | Social
    | Health | Legal | Shopping | Entertainment | Spam | Unknown

  datatype EmailAction = Keep | Delete | Archive

  datatype ProcessingTier = RulesEngine | BertClassifier | FastOllama | DeepOllama | HumanReview

  /** The enumeration's string value. */
  function CategoryName(c: EmailCategory): string {
    match c
    case Newsletter => "NEWSLETTER"
    case Promotional => "PROMOTIONAL"
    case Work => "WORK"
    case Financial => "FINANCIAL"
    case Personal => "PERSONAL"
    case Social => "SOCIAL"
    case Health => "HEALTH"
    case Legal => "LEGAL"
    case Shopping => "SHOPPING"
    case Entertainment => "ENTERTAINMENT"
    case Spam => "SPAM"
    case Unknown => "UNKNOWN"
  }

  /** `EmailCategory(s)`: `None` where Python raises `ValueError`. */
  function ParseCategory(s: string): (r: Option<EmailCategory>)
    ensures r.Some? ==> CategoryName(r.value) == s
    ensures r.None? ==> forall c: EmailCategory :: CategoryName(c) != s
  {
    if s == "NEWSLETTER" then Some(Newsletter)
    else if s == "PROMOTIONAL" then Some(Promotional)
    else if s == "WORK" then Some(Work)
    else if s == "FINANCIAL" then Some(Financial)
    else if s == "PERSONAL" then Some(Personal)
    else if s == "SOCIAL" then Some(Social)
    else if s == "HEALTH" then Some(Health)
    else if s == "LEGAL" then Some(Legal)
    else if s == "SHOPPING" then Some(Shopping)
    else if s == "ENTERTAINMENT" then Some(Entertainment)
    else if s == "SPAM" then Some(Spam)
    else if s == "UNKNOWN" then Some(Unknown)
    else None
  }

  /** Every category's name parses back to that category. */
  lemma CategoryRoundTrip(c: EmailCategory)
    ensures ParseCategory(CategoryName(c)) == Some(c)
  {
  }

  function ActionName(a: EmailAction): string {
    match a
    case Keep => "KEEP"
    case Delete => "DELETE"
    case Archive => "ARCHIVE"
  }

  /** `EmailAction(s)`: `None` where Python raises `ValueError`. */
  function ParseAction(s: string): (r: Option<EmailAction>)
    ensures r.Some? ==> ActionName(r.value) == s
    ensures r.None? ==> forall a: EmailAction :: ActionName(a) != s
  {
    if s == "KEEP" then Some(Keep)
    else if s == "DELETE" then Some(Delete)
    else if s == "ARCHIVE" then Some(Archive)
    else None
  }

  lemma ActionRoundTrip(a: EmailAction)
    ensures ParseAction(ActionName(a)) == Some(a)
  {
  }

  /** The enumeration's integer value. */
  function TierValue(t: ProcessingTier): (n: nat)
    ensures n <= 4
  {
    match t
    case RulesEngine => 0
    case BertClassifier => 1
    case FastOllama => 2
    case DeepOllama => 3
    case HumanReview => 4
  }

  /** Each tier has its own number, so the number identifies the tier. */
  lemma TierValueInjective(t: ProcessingTier, u: ProcessingTier)
    ensures TierValue(t) == TierValue(u) <==> t == u
  {
  }

  /** `AnalysisDecision`; `processing_time_ms` is a clock reading and is not kept. */
  datatype AnalysisDecision = AnalysisDecision(
    action: EmailAction,
    category: EmailCategory,
    confidence: real,
    reasoning: string,
    tier: ProcessingTier,
    deletionCandidate: bool,
    deletionReason: string,
    importanceScore: Option<int>,
    fraudScore: Option<int>)

  /** The `email_data` dictionary handed to every tier; a key the dictionary
      lacks is its `.get` default (`''`, `False`, `0`, `[]`). */
  datatype Email = Email(
    id: int,
    subject: string,
    sender: string,
    senderEmail: string,
    snippet: string,
    bodyText: string,
    dateSent: string,
    hasAttachments: bool,
    attachmentCount: nat,
    labels: seq<string>)

  /** A few-shot example as the tiers build it for a prompt. `bodyPreview` is
      present only on examples meant for Tier 3. */
  datatype FewShotExample = FewShotExample(
    tierLevel: nat,
    subject: string,
    sender: string,
    snippet: string,
    bodyPreview: Option<string>,
    category: EmailCategory,
    action: EmailAction,
    reasoning: string,
    confidence: real)
}

=== FILE: email_syncer.dfy ===
/** The Gmail-to-database sync engine (core/email_syncer.py): sender
    parsing, the walk over a message's MIME part tree, the date fallbacks,
    the message-to-row conversion and the batch loop with its counters.
    Gmail's answers are given as values: the listing answers in call order
    and a fetch function from message id to message. */
module Syncer {

  import opened Optional
  import opened Text

  // ---------------------------------------------------------------------
  // `_parse_sender`

  /** The index of the first `c` at or after `from`, if any. */
  function FindFrom(s: string, c: char, from: nat): (r: Option<nat>)
    requires from <= |s|
    ensures r.Some? ==> from <= r.value < |s| && s[r.value] == c
    ensures r.Some? ==> forall k | from <= k < r.value :: s[k] != c
    ensures r.None? ==> forall k | from <= k < |s| :: s[k] != c
    decreases |s| - from
  {
    if from == |s| then None else if s[from] == c then Some(from) else FindFrom(s, c, from + 1)
  }

  /** The index of the '>' closing the `[^>]+` run after a '<' at `i`, when
      that run is not empty: the first '>' after the '<', provided at least
      one other character comes between them. */
  function AngleClose(s: string, i: nat): (r: Option<nat>)
    requires i < |s|
    ensures r.Some? ==> s[i] == '<' && i + 1 < r.value < |s| && s[r.value] == '>'
    ensures r.Some? ==> forall k | i < k < r.value :: s[k] != '>'
  {
    if s[i] != '<' then None
    else match FindFrom(s, '>', i + 1)
      case Some(j) => if j > i + 1 then Some(j) else None
      case None => None
  }

  /** `re.search(r'<([^>]+)>', s)` from `from` on: the leftmost '<' whose
      run closes, with the index of its '>'. */
  function SearchAngle(s: string, from: nat): (r: Option<(nat, nat)>)
    requires from <= |s|
    ensures r.Some? ==> from <= r.value.0 < |s| && AngleClose(s, r.value.0) == Some(r.value.1)
    ensures r.Some? ==> forall i | from <= i < r.value.0 :: AngleClose(s, i).None?
    ensures r.None? <==> forall i | from <= i < |s| :: AngleClose(s, i).None?
    decreases |s| - from
  {
    if from == |s| then None
    else match AngleClose(s, from)
      case Some(j) => Some((from, j))
      case None => SearchAngle(s, from + 1)
  }

  /** The `<…>` that `AngleClose` finds occurs in `s` where it starts. */
  lemma BracketOccurs(s: string, i: nat)
    requires i < |s| && AngleClose(s, i).Some?
    ensures OccursAt(s, "<" + s[i + 1..AngleClose(s, i).value] + ">", i)
  {
    var j := AngleClose(s, i).value;
    var b := "<" + s[i + 1..j] + ">";
    assert |b| == j + 1 - i;
    forall k | 0 <= k < |b| ensures s[i..j + 1][k] == b[k] {
      if k == 0 {
      } else if k < |b| - 1 {
        assert b[k] == s[i + 1..j][k - 1];
      }
    }
    assert s[i..j + 1] == b;
  }

  /** The address inside the leftmost `<…>` of `s`: not empty, free of
      '>', and bracketed where the search found it. */
  lemma AddressFound(s: string)
    requires SearchAngle(s, 0).Some?
    ensures var (i, j) := SearchAngle(s, 0).value;
      && s[i + 1..j] != "" && '>' !in s[i + 1..j]
      && OccursAt(s, "<" + s[i + 1..j] + ">", i)
  {
    var (i, j) := SearchAngle(s, 0).value;
    BracketOccurs(s, i);
    var addr := s[i + 1..j];
    forall m | 0 <= m < |addr| ensures addr[m] != '>' {
      assert addr[m] == s[i + 1 + m];
    }
  }

  /** `_parse_sender`: (email, name). A bracketed address is the leftmost
      non-empty `<…>`; the name is what is left once every copy of that
      `<…>` is removed, stripped of blanks and then of quotes. Without
      brackets the whole stripped text is the address if it holds '@' and
      the name otherwise. */
  function ParseSender(sender: string): (r: (string, string))
    ensures sender == "" ==> r == ("", "")
    ensures SearchAngle(sender, 0).Some? ==>
      && r.0 != "" && '>' !in r.0
      && OccursAt(sender, "<" + r.0 + ">", SearchAngle(sender, 0).value.0)
      && r.1 == StripQuotes(Strip(ReplaceAll(sender, "<" + r.0 + ">", "")))
    ensures SearchAngle(sender, 0).None? && '@' in sender ==> r == (Strip(sender), "")
    ensures SearchAngle(sender, 0).None? && '@' !in sender ==> r == ("", Strip(sender))
  {
    if sender == "" then ("", "")
    else match SearchAngle(sender, 0)
      case Some((i, j)) =>
        var addr := sender[i + 1..j];
        AddressFound(sender);
        (addr, StripQuotes(Strip(ReplaceAll(sender, "<" + addr + ">", ""))))
      case None =>
        if '@' in sender then (Strip(sender), "") else ("", Strip(sender))
  }

  /** Removing a pattern that starts with a character `x` lacks, from the end
      of `x + pat`, gives back `x`. */
  lemma {:induction false} RemoveTrailingPattern(x: string, pat: string)
    requires pat != [] && pat[0] !in x
    ensures ReplaceAll(x + pat, pat, "") == x
    decreases |x|
  {
    if x == [] {
      assert (x + pat)[..|pat|] == pat && (x + pat)[|pat|..] == [];
    } else {
      assert (x + pat)[0] == x[0] != pat[0];
      assert (x + pat)[1..] == x[1..] + pat;
      RemoveTrailingPattern(x[1..], pat);
      assert x == [x[0]] + x[1..];
    }
  }

  /** A '<' followed by a non-empty run and then a '>' at `j` closes at `j`. */
  lemma CloseAt(s: string, i: nat, j: nat)
    requires i + 1 < j < |s| && s[i] == '<' && s[j] == '>' && forall k | i < k < j :: s[k] != '>'
    ensures AngleClose(s, i) == Some(j)
  {
  }

  /** The search stops at the first '<' that closes. */
  lemma {:induction false} SearchFinds(s: string, from: nat, i: nat)
    requires from <= i < |s| && AngleClose(s, i).Some?
    requires forall k | from <= k < i :: AngleClose(s, k).None?
    ensures SearchAngle(s, from) == Some((i, AngleClose(s, i).value))
    decreases i - from
  {
    if from < i {
      SearchFinds(s, from + 1, i);
    }
  }

  /** A '<' at `i` that closes at `j`, with no '<' before it, is what the
      search finds. */
  lemma FirstBracket(s: string, i: nat, j: nat)
    requires i + 1 < j < |s| && s[i] == '<' && s[j] == '>'
    requires forall k | i < k < j :: s[k] != '>'
    requires forall k | 0 <= k < i :: s[k] != '<'
    ensures SearchAngle(s, 0) == Some((i, j))
  {
    CloseAt(s, i, j);
    SearchFinds(s, 0, i);
  }

  /** The characters of "Name <address>": the name, '<', the address, '>'. */
  lemma DisplayFormChars(name: string, addr: string)
    ensures var s := name + "<" + addr + ">";
      && |s| == |name| + |addr| + 2 && s[|name|] == '<' && s[|s| - 1] == '>'
      && (forall k | 0 <= k < |name| :: s[k] == name[k])
      && (forall k | |name| < k < |s| - 1 :: s[k] == addr[k - |name| - 1])
  {
  }

  /** In "Name <address>" the search finds the bracket after the name. */
  lemma DisplayFormSearch(s: string, name: string, addr: string)
    requires s == name + "<" + addr + ">"
    requires '<' !in name && addr != "" && '>' !in addr
    ensures SearchAngle(s, 0) == Some((|name|, |name| + 1 + |addr|))
  {
    var i, j := |name|, |name| + 1 + |addr|;
    DisplayFormChars(name, addr);
    assert forall k | i < k < j :: s[k] != '>';
    assert forall k | 0 <= k < i :: s[k] != '<';
    FirstBracket(s, i, j);
  }

  /** The usual "Name <address>" form: the address comes back as written and
      the name with its blanks and quotes stripped. */
  lemma ParseDisplayForm(name: string, addr: string)
    requires '<' !in name && addr != "" && '>' !in addr
    ensures ParseSender(name + "<" + addr + ">") == (addr, StripQuotes(Strip(name)))
  {
    var pat := "<" + addr + ">";
    var s := name + "<" + addr + ">";
    assert s == name + pat;
    DisplayFormSearch(s, name, addr);
    assert s[|name| + 1..|name| + 1 + |addr|] == addr;
    RemoveTrailingPattern(name, pat);
  }

  // ---------------------------------------------------------------------
  // The MIME part tree

  /** A part of a message payload: its MIME type, its attachment file name
      ('' when it has none), its body data once base64-decoded (None when
      the part carries no data or the data does not decode) and its
      sub-parts. */
  datatype Part = Part(mimeType: string, filename: string, data: Option<string>, parts: seq<Part>)

  /** A payload that is missing altogether reads as an empty map. */
  const EmptyPart: Part := Part("", "", None, [])

  /** The parts of a tree in the order the source's recursion visits them:
      the part itself, then each sub-part's tree in turn. */
  function PreOrder(p: Part): (r: seq<Part>)
    ensures r != [] && r[0] == p
    decreases p, 1
  {
    [p] + PreOrderAll(p.parts)
  }

  function PreOrderAll(ps: seq<Part>): seq<Part>
    decreases ps, 0
  {
    if ps == [] then [] else PreOrder(ps[0]) + PreOrderAll(ps[1..])
  }

  lemma {:induction false} PreOrderAllAppend(a: seq<Part>, b: seq<Part>)
    ensures PreOrderAll(a + b) == PreOrderAll(a) + PreOrderAll(b)
    decreases |a|
  {
    if a != [] {
      assert (a + b)[0] == a[0] && (a + b)[1..] == a[1..] + b;
      PreOrderAllAppend(a[1..], b);
    } else {
      assert a + b == b;
    }
  }

  /** Visiting the first `i + 1` sub-parts is visiting the first `i`, then
      the tree of sub-part `i`. */
  lemma PreOrderAllSnoc(ps: seq<Part>, i: nat)
    requires i < |ps|
    ensures PreOrderAll(ps[..i + 1]) == PreOrderAll(ps[..i]) + PreOrder(ps[i])
  {
    assert ps[..i + 1] == ps[..i] + [ps[i]];
    PreOrderAllAppend(ps[..i], [ps[i]]);
    assert [ps[i]][1..] == [];
  }

  /** The number of parts that carry a file name. */
  function NamedCount(s: seq<Part>): (n: nat)
    ensures n <= |s|
  {
    if s == [] then 0 else (if s[0].filename != "" then 1 else 0) + NamedCount(s[1..])
  }

  lemma {:induction false} NamedCountAppend(a: seq<Part>, b: seq<Part>)
    ensures NamedCount(a + b) == NamedCount(a) + NamedCount(b)
    decreases |a|
  {
    if a != [] {
      assert (a + b)[0] == a[0] && (a + b)[1..] == a[1..] + b;
      NamedCountAppend(a[1..], b);
    } else {
      assert a + b == b;
    }
  }

  /** `_has_attachments`: a part with a file name, or a sub-part tree that
      has one. */
  function HasAttachments(p: Part): bool
    decreases p, 1
  {
    p.filename != "" || AnyHasAttachments(p.parts)
  }

  function AnyHasAttachments(ps: seq<Part>): bool
    decreases ps, 0
  {
    ps != [] && (HasAttachments(ps[0]) || AnyHasAttachments(ps[1..]))
  }

  /** A tree has attachments exactly when it holds at least one part with a
      file name. */
  lemma {:induction false} HasAttachmentsIffCount(p: Part)
    ensures HasAttachments(p) <==> NamedCount(PreOrder(p)) > 0
    decreases p, 1
  {
    AnyHasAttachmentsIffCount(p.parts);
    NamedCountAppend([p], PreOrderAll(p.parts));
  }

  lemma {:induction false} AnyHasAttachmentsIffCount(ps: seq<Part>)
    ensures AnyHasAttachments(ps) <==> NamedCount(PreOrderAll(ps)) > 0
    decreases ps, 0
  {
    if ps != [] {
      HasAttachmentsIffCount(ps[0]);
      AnyHasAttachmentsIffCount(ps[1..]);
      NamedCountAppend(PreOrder(ps[0]), PreOrderAll(ps[1..]));
    }
  }

  /** `count_part`: adds one to the running count for each part of the tree
      with a file name. */
  method CountPart(part: Part, count: nat) returns (total: nat)
    ensures total == count + NamedCount(PreOrder(part))
    decreases part
  {
    total := count;
    if part.filename != "" {
      total := total + 1;
    }
    for i := 0 to |part.parts|
      invariant total == count + NamedCount([part]) + NamedCount(PreOrderAll(part.parts[..i]))
    {
      PreOrderAllSnoc(part.parts, i);
      NamedCountAppend(PreOrderAll(part.parts[..i]), PreOrder(part.parts[i]));
      total := CountPart(part.parts[i], total);
    }
    assert part.parts[..|part.parts|] == part.parts;
    NamedCountAppend([part], PreOrderAll(part.parts));
  }

  /** `_count_attachments` */
  method CountAttachments(payload: Part) returns (n: nat)
    ensures n == NamedCount(PreOrder(payload))
    ensures n > 0 <==> HasAttachments(payload)
  {
    n := CountPart(payload, 0);
    HasAttachmentsIffCount(payload);
  }

  /** Part `p` has type `mime` and carries decoded data. */
  predicate Carries(p: Part, mime: string) {
    p.mimeType == mime && p.data.Some?
  }

  /** One accumulator of `extract_from_part` after it meets `p`. */
  function Visit(p: Part, mime: string, current: string): string {
    if Carries(p, mime) then p.data.value else current
  }

  /** The accumulator after meeting the parts of `s` in order. */
  function Scan(s: seq<Part>, mime: string, current: string): string
    decreases |s|
  {
    if s == [] then current else Scan(s[1..], mime, Visit(s[0], mime, current))
  }

  lemma {:induction false} ScanAppend(a: seq<Part>, b: seq<Part>, mime: string, current: string)
    ensures Scan(a + b, mime, current) == Scan(b, mime, Scan(a, mime, current))
    decreases |a|
  {
    if a != [] {
      assert (a + b)[0] == a[0] && (a + b)[1..] == a[1..] + b;
      ScanAppend(a[1..], b, mime, Visit(a[0], mime, current));
    } else {
      assert a + b == b;
    }
  }

  /** Scanning one part is visiting it. */
  lemma ScanOne(p: Part, mime: string, current: string)
    ensures Scan([p], mime, current) == Visit(p, mime, current)
  {
    assert [p][1..] == [];
  }

  /** The index of the last part of `s` with type `mime` and data. */
  function LastCarrier(s: seq<Part>, mime: string): (r: Option<nat>)
    ensures r.None? <==> forall k | 0 <= k < |s| :: !Carries(s[k], mime)
    ensures r.Some? ==> r.value < |s| && Carries(s[r.value], mime)
    ensures r.Some? ==> forall k | r.value < k < |s| :: !Carries(s[k], mime)
    decreases |s|
  {
    if s == [] then None
    else if Carries(s[|s| - 1], mime) then Some(|s| - 1)
    else LastCarrier(s[..|s| - 1], mime)
  }

  /** The scan ends with the data of the last carrying part, or where it
      started when no part carries any. */
  lemma {:induction false} ScanIsLast(s: seq<Part>, mime: string, current: string)
    ensures Scan(s, mime, current) ==
      match LastCarrier(s, mime)
      case Some(k) => s[k].data.value
      case None => current
    decreases |s|
  {
    if s != [] {
      var t := s[..|s| - 1];
      assert s == t + [s[|s| - 1]];
      ScanAppend(t, [s[|s| - 1]], mime, current);
      assert [s[|s| - 1]][1..] == [];
      ScanIsLast(t, mime, current);
      if !Carries(s[|s| - 1], mime) {
        assert LastCarrier(s, mime) == LastCarrier(t, mime);
        if LastCarrier(t, mime).Some? {
          assert s[LastCarrier(t, mime).value] == t[LastCarrier(t, mime).value];
        }
      }
    }
  }

  /** `extract_from_part`: the part's own data replaces the matching
      accumulator, then each sub-part's tree is visited in order. */
  method ExtractFromPart(part: Part, text: string, html: string) returns (t: string, h: string)
    ensures t == Scan(PreOrder(part), "text/plain", text)
    ensures h == Scan(PreOrder(part), "text/html", html)
    decreases part
  {
    t, h := text, html;
    if part.mimeType == "text/plain" {
      if part.data.Some? {
        t := part.data.value;
      }
      assert part.mimeType[5] != "text/html"[5];
    } else if part.mimeType == "text/html" {
      if part.data.Some? {
        h := part.data.value;
      }
    }
    ScanOne(part, "text/plain", text);
    ScanOne(part, "text/html", html);
    for i := 0 to |part.parts|
      invariant t == Scan([part] + PreOrderAll(part.parts[..i]), "text/plain", text)
      invariant h == Scan([part] + PreOrderAll(part.parts[..i]), "text/html", html)
    {
      var seen := [part] + PreOrderAll(part.parts[..i]);
      PreOrderAllSnoc(part.parts, i);
      assert [part] + PreOrderAll(part.parts[..i + 1]) == seen + PreOrder(part.parts[i]);
      ScanAppend(seen, PreOrder(part.parts[i]), "text/plain", text);
      ScanAppend(seen, PreOrder(part.parts[i]), "text/html", html);
      t, h := ExtractFromPart(part.parts[i], t, h);
    }
    assert part.parts[..|part.parts|] == part.parts;
  }

  /** The body `_extract_body` reports for one MIME type: the data of the
      last part of that type in visiting order, or ''. */
  function BodyOf(payload: Part, mime: string): (r: string)
    ensures LastCarrier(PreOrder(payload), mime).None? ==> r == ""
    ensures LastCarrier(PreOrder(payload), mime).Some? ==>
      r == PreOrder(payload)[LastCarrier(PreOrder(payload), mime).value].data.value
  {
    ScanIsLast(PreOrder(payload), mime, "");
    Scan(PreOrder(payload), mime, "")
  }

  /** `_extract_body`: (text, html). */
  method ExtractBody(payload: Part) returns (text: string, html: string)
    ensures text == BodyOf(payload, "text/plain") && html == BodyOf(payload, "text/html")
  {
    text, html := ExtractFromPart(payload, "", "");
  }

  // ---------------------------------------------------------------------
  // Headers

  /** A Python dict from header names to values, as (name, value) entries
      in the order their names were first inserted. */
  type Headers = seq<(string, string)>

  /** `headers.get(name)` */
  function Lookup(d: Headers, name: string): Option<string>
    decreases |d|
  {
    if d == [] then None else if d[0].0 == name then Some(d[0].1) else Lookup(d[1..], name)
  }

  /** `headers[name] = value`: an existing entry keeps its place. */
  function Assign(d: Headers, name: string, value: string): (r: Headers)
    ensures |r| == |d| || |r| == |d| + 1
    decreases |d|
  {
    if d == [] then [(name, value)]
    else if d[0].0 == name then [(name, value)] + d[1..]
    else [d[0]] + Assign(d[1..], name, value)
  }

  /** After an assignment the name maps to the new value and every other
      name to what it mapped to before. */
  lemma {:induction false} LookupAssign(d: Headers, name: string, value: string, other: string)
    ensures Lookup(Assign(d, name, value), name) == Some(value)
    ensures other != name ==> Lookup(Assign(d, name, value), other) == Lookup(d, other)
    decreases |d|
  {
    if d != [] && d[0].0 != name {
      LookupAssign(d[1..], name, value, other);
      var r := Assign(d, name, value);
      assert r[0] == d[0] && r[1..] == Assign(d[1..], name, value);
    }
  }

  /** The dict the header loop builds: the headers assigned in order. */
  function HeadersOf(list: seq<(string, string)>): Headers
    decreases |list|
  {
    if list == [] then []
    else Assign(HeadersOf(list[..|list| - 1]), list[|list| - 1].0, list[|list| - 1].1)
  }

  /** The value of the last header called `name`. */
  function LastValue(list: seq<(string, string)>, name: string): Option<string>
    decreases |list|
  {
    if list == [] then None
    else if list[|list| - 1].0 == name then Some(list[|list| - 1].1)
    else LastValue(list[..|list| - 1], name)
  }

  /** A name repeated among the headers maps to its last value. */
  lemma {:induction false} HeadersLastWins(list: seq<(string, string)>, name: string)
    ensures Lookup(HeadersOf(list), name) == LastValue(list, name)
    decreases |list|
  {
    if list != [] {
      var last := list[|list| - 1];
      HeadersLastWins(list[..|list| - 1], name);
      LookupAssign(HeadersOf(list[..|list| - 1]), last.0, last.1, name);
    }
  }

  /** `headers.get(name, '')` */
  function HeaderOr(d: Headers, name: string): string {
    Lookup(d, name).GetOr("")
  }

  // ---------------------------------------------------------------------
  // Dates

  /** A point in time, in milliseconds since the Unix epoch. */
  datatype Instant = Instant(millis: int)

  /** `_parse_date`: an empty string gives None; `parsedate` stands for
      `parsedate_to_datetime`, with None where it raises. */
  function ParseDate(s: string, parsedate: string -> Option<Instant>): (r: Option<Instant>)
    ensures s == "" ==> r.None?
  {
    if s == "" then None else parsedate(s)
  }

  /** One element of the Received-header date pattern. */
  datatype StampToken =
    | Letters(n: nat)     // exactly n ASCII letters, `[A-Za-z]{n}`
    | Literal(c: char)    // that character
    | Blanks              // `\s+`
    | DigitRun(n: nat)    // exactly n digits, `\d{n}`
    | OneOrTwoDigits      // `\d{1,2}`
    | SignChar            // `[+-]`

  /** `[A-Za-z]{3},\s+\d{1,2}\s+[A-Za-z]{3}\s+\d{4}\s+\d{2}:\d{2}:\d{2}\s+[+-]\d{4}`.
      Each repeated class is followed by a token of a disjoint class, so the
      longest run is the only one the pattern can use. */
  const ReceivedStamp: seq<StampToken> := [
    Letters(3), Literal(','), Blanks, OneOrTwoDigits, Blanks, Letters(3), Blanks, DigitRun(4), Blanks,
    DigitRun(2), Literal(':'), DigitRun(2), Literal(':'), DigitRun(2), Blanks, SignChar, DigitRun(4)]

  predicate IsAsciiLetter(c: char) {
    'A' <= c <= 'Z' || 'a' <= c <= 'z'
  }

  /** The end of the run of blanks starting at `i`. */
  function BlankRunEnd(s: string, i: nat): (r: nat)
    requires i <= |s|
    ensures i <= r <= |s| && forall k | i <= k < r :: IsSpace(s[k])
    ensures r == |s| || !IsSpace(s[r])
    decreases |s| - i
  {
    if i < |s| && IsSpace(s[i]) then BlankRunEnd(s, i + 1) else i
  }

  /** Where one token matched at `i` ends, if it matches. */
  function MatchToken(s: string, i: nat, t: StampToken): (r: Option<nat>)
    requires i <= |s|
    ensures r.Some? ==> i <= r.value <= |s|
  {
    match t
    case Letters(n) =>
      if i + n <= |s| && forall k | i <= k < i + n :: IsAsciiLetter(s[k]) then Some(i + n) else None
    case Literal(c) =>
      if i < |s| && s[i] == c then Some(i + 1) else None
    case Blanks =>
      var e := BlankRunEnd(s, i);
      if e > i then Some(e) else None
    case DigitRun(n) =>
      if i + n <= |s| && forall k | i <= k < i + n :: IsDigit(s[k]) then Some(i + n) else None
    case OneOrTwoDigits =>
      if i < |s| && IsDigit(s[i]) then
        (if i + 1 < |s| && IsDigit(s[i + 1]) then Some(i + 2) else Some(i + 1))
      else None
    case SignChar =>
      if i < |s| && (s[i] == '+' || s[i] == '-') then Some(i + 1) else None
  }

  /** Where the tokens matched one after another from `i` end. */
  function MatchTokens(s: string, i: nat, ts: seq<StampToken>): (r: Option<nat>)
    requires i <= |s|
    ensures r.Some? ==> i <= r.value <= |s|
    decreases ts
  {
    if ts == [] then Some(i)
    else match MatchToken(s, i, ts[0])
      case None => None
      case Some(j) => MatchTokens(s, j, ts[1..])
  }

  /** `re.search` of the token pattern `ts` from `from` on: the leftmost
      start and its end. */
  function Search(s: string, from: nat, ts: seq<StampToken>): (r: Option<(nat, nat)>)
    requires from <= |s|
    ensures r.Some? ==> from <= r.value.0 <= r.value.1 <= |s| && MatchTokens(s, r.value.0, ts) == Some(r.value.1)
    ensures r.Some? ==> forall i | from <= i < r.value.0 :: MatchTokens(s, i, ts).None?
    ensures r.None? ==> forall i | from <= i <= |s| :: MatchTokens(s, i, ts).None?
    decreases |s| - from
  {
    match MatchTokens(s, from, ts)
    case Some(e) => Some((from, e))
    case None => if from == |s| then None else Search(s, from + 1, ts)
  }

  /** Try 1: the Date header. */
  function FromDateHeader(dateHeader: string, parsedate: string -> Option<Instant>): Option<Instant> {
    ParseDate(dateHeader, parsedate)
  }

  /** Try 2: the first date stamp in the Received header. */
  function FromReceived(headers: Headers, parsedate: string -> Option<Instant>): (r: Option<Instant>)
    ensures r.Some? ==> exists i, j :: (&& 0 <= i <= j <= |HeaderOr(headers, "Received")|
                                        && r == parsedate(HeaderOr(headers, "Received")[i..j]))
  {
    var received := HeaderOr(headers, "Received");
    if received == "" then None
    else match Search(received, 0, ReceivedStamp)
      case Some((i, j)) => ParseDate(received[i..j], parsedate)
      case None => None
  }

  /** Try 3: `internalDate`, milliseconds as text; `int()` failing is
      swallowed. */
  function FromInternalDate(internalDate: Option<string>): (r: Option<Instant>)
    ensures r.Some? ==> internalDate.Some? && ParseInt(Strip(internalDate.value)) == Some(r.value.millis)
    ensures internalDate.Some? && internalDate.value != "" && ParseInt(Strip(internalDate.value)).Some? ==> r.Some?
  {
    match internalDate
    case Some(text) =>
      if text == "" then None
      else (match ParseInt(Strip(text))
        case Some(ms) => Some(Instant(ms))
        case None => None)
    case None => None
  }

  /** A header the last try accepts: 'date' in its lower-cased name and a
      value that parses. */
  predicate DateLike(h: (string, string), parsedate: string -> Option<Instant>) {
    Contains(Lower(h.0), "date") && ParseDate(h.1, parsedate).Some?
  }

  /** Try 4: the first date-like header, in dict order. */
  function FromDateLikeHeader(headers: Headers, parsedate: string -> Option<Instant>): (r: Option<Instant>)
    ensures r.None? <==> forall k | 0 <= k < |headers| :: !DateLike(headers[k], parsedate)
    ensures r.Some? ==> exists k | 0 <= k < |headers| ::
      && DateLike(headers[k], parsedate) && r == ParseDate(headers[k].1, parsedate)
      && forall j | 0 <= j < k :: !DateLike(headers[j], parsedate)
    decreases |headers|
  {
    if headers == [] then None
    else if DateLike(headers[0], parsedate) then ParseDate(headers[0].1, parsedate)
    else
      var r := FromDateLikeHeader(headers[1..], parsedate);
      assert forall j | 1 <= j < |headers| :: headers[j] == headers[1..][j - 1];
      r
  }

  /** `_parse_date_with_fallbacks`: the first try that gives a date wins. */
  function DateWithFallbacks(dateHeader: string, headers: Headers, internalDate: Option<string>,
                             parsedate: string -> Option<Instant>): (r: Option<Instant>)
    ensures FromDateHeader(dateHeader, parsedate).Some? ==> r == FromDateHeader(dateHeader, parsedate)
    ensures FromDateHeader(dateHeader, parsedate).None? && FromReceived(headers, parsedate).Some? ==>
      r == FromReceived(headers, parsedate)
    ensures (&& FromDateHeader(dateHeader, parsedate).None? && FromReceived(headers, parsedate).None?
             && FromInternalDate(internalDate).Some?) ==> r == FromInternalDate(internalDate)
    ensures (&& FromDateHeader(dateHeader, parsedate).None? && FromReceived(headers, parsedate).None?
             && FromInternalDate(internalDate).None?) ==> r == FromDateLikeHeader(headers, parsedate)
  {
    var first := FromDateHeader(dateHeader, parsedate);
    if first.Some? then first
    else
      var second := FromReceived(headers, parsedate);
      if second.Some? then second
      else
        var third := FromInternalDate(internalDate);
        if third.Some? then third else FromDateLikeHeader(headers, parsedate)
  }

  // ---------------------------------------------------------------------
  // `_parse_gmail_message`

  /** A message as the Gmail API returns it, with the keys the parser reads.
      `id` is None when the key is missing. */
  datatype GmailMessage = GmailMessage(
    id: Option<string>,
    threadId: Option<string>,
    headers: seq<(string, string)>,
    payload: Part,
    snippet: string,
    labelIds: seq<string>,
    sizeEstimate: int,
    internalDate: Option<string>)

  /** The row `_parse_gmail_message` builds, without the JSON copies of the
      headers, labels and raw message and without the receive time. */
  datatype EmailRecord = EmailRecord(
    messageId: string,
    threadId: Option<string>,
    subject: string,
    sender: string,
    senderEmail: string,
    senderName: string,
    recipient: string,
    dateSent: Option<Instant>,
    bodyText: string,
    bodyHtml: string,
    snippet: string,
    labels: seq<string>,
    hasAttachments: bool,
    attachmentCount: nat,
    sizeEstimate: int,
    isUnread: bool,
    isImportant: bool)

  /** The row for `m`; None where the source's `try` catches the missing id. */
  function ParsedMessage(m: GmailMessage, parsedate: string -> Option<Instant>): (r: Option<EmailRecord>)
    ensures r.None? <==> m.id.None?
    ensures r.Some? ==> (
      && r.value.messageId == m.id.value
      && (r.value.isUnread <==> "UNREAD" in m.labelIds)
      && (r.value.isImportant <==> "IMPORTANT" in m.labelIds)
      && r.value.attachmentCount == NamedCount(PreOrder(m.payload))
      && (r.value.hasAttachments <==> r.value.attachmentCount > 0)
      && r.value.sender == LastValue(m.headers, "From").GetOr("")
      && r.value.subject == LastValue(m.headers, "Subject").GetOr("")
      && (r.value.senderEmail, r.value.senderName) == ParseSender(r.value.sender)
      && r.value.bodyText == BodyOf(m.payload, "text/plain")
      && r.value.bodyHtml == BodyOf(m.payload, "text/html"))
  {
    match m.id
    case None => None
    case Some(id) =>
      var headers := HeadersOf(m.headers);
      HeadersLastWins(m.headers, "From");
      HeadersLastWins(m.headers, "Subject");
      var sender := HeaderOr(headers, "From");
      var (senderEmail, senderName) := ParseSender(sender);
      HasAttachmentsIffCount(m.payload);
      Some(EmailRecord(
        id, m.threadId, HeaderOr(headers, "Subject"), sender, senderEmail, senderName,
        HeaderOr(headers, "To"),
        DateWithFallbacks(HeaderOr(headers, "Date"), headers, m.internalDate, parsedate),
        BodyOf(m.payload, "text/plain"), BodyOf(m.payload, "text/html"),
        m.snippet, m.labelIds, HasAttachments(m.payload), NamedCount(PreOrder(m.payload)),
        m.sizeEstimate, "UNREAD" in m.labelIds, "IMPORTANT" in m.labelIds))
  }

  /** `_parse_gmail_message`, with the body and the attachment count taken
      by the walks above. */
  method ParseGmailMessage(m: GmailMessage, parsedate: string -> Option<Instant>) returns (r: Option<EmailRecord>)
    ensures r == ParsedMessage(m, parsedate)
  {
    if m.id.None? {
      return None;
    }
    var headers := HeadersOf(m.headers);
    var sender := HeaderOr(headers, "From");
    var (senderEmail, senderName) := ParseSender(sender);
    var dateSent := DateWithFallbacks(HeaderOr(headers, "Date"), headers, m.internalDate, parsedate);
    var bodyText, bodyHtml := ExtractBody(m.payload);
    var hasAttachments := HasAttachments(m.payload);
    var attachmentCount := CountAttachments(m.payload);
    r := Some(EmailRecord(
      m.id.value, m.threadId, HeaderOr(headers, "Subject"), sender, senderEmail, senderName,
      HeaderOr(headers, "To"), dateSent, bodyText, bodyHtml, m.snippet, m.labelIds,
      hasAttachments, attachmentCount, m.sizeEstimate,
      "UNREAD" in m.labelIds, "IMPORTANT" in m.labelIds));
  }

  // ---------------------------------------------------------------------
  // The emails table and the sync loop

  /** The message ids stored in `rows`. */
  function Ids(rows: seq<EmailRecord>): set<string>
    decreases |rows|
  {
    if rows == [] then {} else {rows[0].messageId} + Ids(rows[1..])
  }

  /** An id is stored exactly when some row carries it. */
  lemma {:induction false} IdsIff(rows: seq<EmailRecord>, id: string)
    ensures id in Ids(rows) <==> exists k | 0 <= k < |rows| :: rows[k].messageId == id
    decreases |rows|
  {
    if rows != [] {
      IdsIff(rows[1..], id);
      if id in Ids(rows[1..]) {
        var k :| 0 <= k < |rows[1..]| && rows[1..][k].messageId == id;
        assert rows[k + 1].messageId == id;
      }
      forall k | 1 <= k < |rows| && rows[k].messageId == id ensures id in Ids(rows[1..]) {
        assert rows[1..][k - 1].messageId == id;
      }
    }
  }

  lemma IdsCons(x: EmailRecord, rest: seq<EmailRecord>)
    ensures Ids([x] + rest) == {x.messageId} + Ids(rest)
  {
    assert ([x] + rest)[1..] == rest;
  }

  /** `insert_email`'s `ON CONFLICT (message_id) DO UPDATE`: a known id gets
      the new subject, sender, body text and snippet; a new one is added. */
  function InsertRow(rows: seq<EmailRecord>, rec: EmailRecord): (r: seq<EmailRecord>)
    ensures rec.messageId !in Ids(rows) ==> r == rows + [rec]
    ensures rec.messageId in Ids(rows) ==> |r| == |rows|
    ensures Ids(r) == Ids(rows) + {rec.messageId}
    decreases |rows|
  {
    if rows == [] then
      IdsCons(rec, []);
      assert [rec] + [] == [rec];
      [rec]
    else
      assert rows == [rows[0]] + rows[1..];
      IdsCons(rows[0], rows[1..]);
      if rows[0].messageId == rec.messageId then
        var updated := rows[0].(subject := rec.subject, sender := rec.sender, bodyText := rec.bodyText, snippet := rec.snippet);
        IdsCons(updated, rows[1..]);
        [updated] + rows[1..]
      else
        var rest := InsertRow(rows[1..], rec);
        IdsCons(rows[0], rest);
        [rows[0]] + rest
  }

  /** The emails table. A database that cannot be reached is unreachable
      for the whole run. */
  class EmailTable {
    const reachable: bool
    var rows: seq<EmailRecord>

    constructor (reachable: bool, rows: seq<EmailRecord>)
      ensures this.reachable == reachable && this.rows == rows
    {
      this.reachable := reachable;
      this.rows := rows;
    }

    /** `insert_email`; raises when the database cannot be reached. */
    method Insert(rec: EmailRecord) returns (ok: bool)
      modifies this`rows
      ensures ok == reachable
      ensures rows == if reachable then InsertRow(old(rows), rec) else old(rows)
    {
      ok := reachable;
      if reachable {
        rows := InsertRow(rows, rec);
      }
    }
  }

  /** What Gmail answers to one `list_messages` call. */
  datatype Listing = ListFailed | Listed(messageIds: seq<string>, nextPageToken: Option<string>)

  /** The answer to the `k`-th list call; calls past the given answers
      fail. */
  function ListingAt(listing: seq<Listing>, k: nat): Listing {
    if k < |listing| then listing[k] else ListFailed
  }

  /** `if not page_token`: a missing token and an empty one both end the
      paging. */
  predicate HasNextPage(l: Listing) {
    l.Listed? && l.nextPageToken.Some? && l.nextPageToken.value != ""
  }

  /** A batch after which the loop asks for another page: listed, not
      empty, and with a non-empty next-page token. */
  predicate Continues(l: Listing) {
    l.Listed? && l.messageIds != [] && HasNextPage(l)
  }

  /** Messages in the listings of calls `0..n`. */
  function ListedCount(listing: seq<Listing>, n: nat): nat {
    if n == 0 then 0
    else ListedCount(listing, n - 1) + (match ListingAt(listing, n - 1) case Listed(ids, _) => |ids| case ListFailed => 0)
  }

  /** `if count and emails_downloaded >= count`: a count of None or 0 sets
      no target. */
  predicate TargetReached(count: Option<int>, downloaded: nat) {
    count.Some? && count.value != 0 && downloaded >= count.value
  }

  /** How one listed message ends: stored, failed or skipped. */
  datatype Outcome = Downloaded | Failed | Skipped

  /** The three counters of a batch: success, failed, skipped. */
  datatype Tallies = Tallies(success: nat, failed: nat, skipped: nat)

  /** The counter one outcome adds to. */
  function Tally(o: Outcome): Tallies {
    match o
    case Downloaded => Tallies(1, 0, 0)
    case Failed => Tallies(0, 1, 0)
    case Skipped => Tallies(0, 0, 1)
  }

  function AddTallies(a: Tallies, b: Tallies): Tallies {
    Tallies(a.success + b.success, a.failed + b.failed, a.skipped + b.skipped)
  }

  /** `_parse_gmail_message` as a function value. */
  function Parser(parsedate: string -> Option<Instant>): GmailMessage -> Option<EmailRecord> {
    m => ParsedMessage(m, parsedate)
  }

  /** The outcome of message `id` and the table after it. A known id is
      skipped (the existence check reads false when the database is down);
      a failed fetch, a message that does not parse, or an insert into a
      database that is down, counts as failed. */
  function MessageStep(reachable: bool, rows: seq<EmailRecord>, id: string,
                       fetch: string -> Option<GmailMessage>, parse: GmailMessage -> Option<EmailRecord>)
    : (r: (Outcome, seq<EmailRecord>))
    ensures r.0 != Downloaded ==> r.1 == rows
    ensures r.0 == Skipped <==> reachable && id in Ids(rows)
    ensures r.0 == Downloaded ==>
      reachable && fetch(id).Some? && parse(fetch(id).value).Some?
      && r.1 == InsertRow(rows, parse(fetch(id).value).value)
  {
    if reachable && id in Ids(rows) then (Skipped, rows)
    else match fetch(id)
      case None => (Failed, rows)
      case Some(m) =>
        match parse(m)
        case None => (Failed, rows)
        case Some(rec) => if reachable then (Downloaded, InsertRow(rows, rec)) else (Failed, rows)
  }

  /** A batch's counters and the table after it. */
  function BatchStep(reachable: bool, rows: seq<EmailRecord>, ids: seq<string>,
                     fetch: string -> Option<GmailMessage>, parse: GmailMessage -> Option<EmailRecord>)
    : (r: (Tallies, seq<EmailRecord>))
    ensures r.0.success + r.0.failed + r.0.skipped == |ids|
    ensures |rows| <= |r.1|
    decreases |ids|
  {
    if ids == [] then (Tallies(0, 0, 0), rows)
    else
      var step := MessageStep(reachable, rows, ids[0], fetch, parse);
      var rest := BatchStep(reachable, step.1, ids[1..], fetch, parse);
      (AddTallies(Tally(step.0), rest.0), rest.1)
  }

  /** A batch is its first message, then the rest of it. */
  lemma BatchStepFirst(reachable: bool, rows: seq<EmailRecord>, ids: seq<string>,
                       fetch: string -> Option<GmailMessage>, parse: GmailMessage -> Option<EmailRecord>)
    requires ids != []
    ensures var step := MessageStep(reachable, rows, ids[0], fetch, parse);
      var rest := BatchStep(reachable, step.1, ids[1..], fetch, parse);
      BatchStep(reachable, rows, ids, fetch, parse) == (AddTallies(Tally(step.0), rest.0), rest.1)
  {
  }

  lemma AddTalliesAssoc(a: Tallies, b: Tallies, c: Tallies)
    ensures AddTallies(a, AddTallies(b, c)) == AddTallies(AddTallies(a, b), c)
  {
  }

  /** One message further into a batch: the counters kept so far plus what
      the rest gives still make up the whole batch. */
  lemma BatchAdvance(reachable: bool, rows: seq<EmailRecord>, ids: seq<string>, i: nat,
                     fetch: string -> Option<GmailMessage>, parse: GmailMessage -> Option<EmailRecord>,
                     done: Tallies, outcome: Outcome, rows': seq<EmailRecord>, whole: (Tallies, seq<EmailRecord>))
    requires i < |ids|
    requires (outcome, rows') == MessageStep(reachable, rows, ids[i], fetch, parse)
    requires AddTallies(done, BatchStep(reachable, rows, ids[i..], fetch, parse).0) == whole.0
    requires BatchStep(reachable, rows, ids[i..], fetch, parse).1 == whole.1
    ensures AddTallies(AddTallies(done, Tally(outcome)), BatchStep(reachable, rows', ids[i + 1..], fetch, parse).0) == whole.0
    ensures BatchStep(reachable, rows', ids[i + 1..], fetch, parse).1 == whole.1
  {
    assert ids[i..][0] == ids[i] && ids[i..][1..] == ids[i + 1..];
    BatchStepFirst(reachable, rows, ids[i..], fetch, parse);
    AddTalliesAssoc(done, Tally(outcome), BatchStep(reachable, rows', ids[i + 1..], fetch, parse).0);
  }

  /** One list call's page: a failed or empty listing adds nothing, a
      listed page runs its batch on the table. */
  function PageStep(reachable: bool, rows: seq<EmailRecord>, page: Listing,
                    fetch: string -> Option<GmailMessage>, parse: GmailMessage -> Option<EmailRecord>)
    : (r: (Tallies, seq<EmailRecord>))
  {
    if page.ListFailed? || page.messageIds == [] then (Tallies(0, 0, 0), rows)
    else BatchStep(reachable, rows, page.messageIds, fetch, parse)
  }

  /** The pages of list calls `0..n` processed in turn, starting from table
      `rows`: the summed counters and the table after them. */
  function SyncFold(reachable: bool, rows: seq<EmailRecord>, listing: seq<Listing>, n: nat,
                    fetch: string -> Option<GmailMessage>, parse: GmailMessage -> Option<EmailRecord>)
    : (r: (Tallies, seq<EmailRecord>))
    decreases n
  {
    if n == 0 then (Tallies(0, 0, 0), rows)
    else
      var prev := SyncFold(reachable, rows, listing, n - 1, fetch, parse);
      var page := PageStep(reachable, prev.1, ListingAt(listing, n - 1), fetch, parse);
      (AddTallies(prev.0, page.0), page.1)
  }

  /** One more list call adds its page to the fold. */
  lemma SyncFoldNext(reachable: bool, rows: seq<EmailRecord>, listing: seq<Listing>, n: nat,
                     fetch: string -> Option<GmailMessage>, parse: GmailMessage -> Option<EmailRecord>,
                     done: Tallies, before: seq<EmailRecord>, page: Tallies, after: seq<EmailRecord>)
    requires (done, before) == SyncFold(reachable, rows, listing, n, fetch, parse)
    requires (page, after) == PageStep(reachable, before, ListingAt(listing, n), fetch, parse)
    ensures SyncFold(reachable, rows, listing, n + 1, fetch, parse) == (AddTallies(done, page), after)
  {
  }

  /** Every message id the first `n` list calls returned lands in exactly
      one of the three counters, and the table never loses a row. */
  lemma {:induction false} SyncFoldCounts(reachable: bool, rows: seq<EmailRecord>, listing: seq<Listing>, n: nat,
                                          fetch: string -> Option<GmailMessage>, parse: GmailMessage -> Option<EmailRecord>)
    ensures var r := SyncFold(reachable, rows, listing, n, fetch, parse);
      r.0.success + r.0.failed + r.0.skipped == ListedCount(listing, n) && |rows| <= |r.1|
  {
    if n > 0 {
      SyncFoldCounts(reachable, rows, listing, n - 1, fetch, parse);
    }
  }

  /** The calls that asked for another page, one more. */
  lemma ContinuesExtend(listing: seq<Listing>, n: nat)
    requires forall k | 0 <= k < n :: Continues(ListingAt(listing, k))
    requires Continues(ListingAt(listing, n))
    ensures forall k | 0 <= k < n + 1 :: Continues(ListingAt(listing, k))
  {
  }

  /** No prefix of one to `n` listed pages reached the target: the loop
      would have stopped after the first that did. */
  ghost predicate TargetMissed(count: Option<int>, reachable: bool, rows: seq<EmailRecord>, listing: seq<Listing>, n: nat,
                               fetch: string -> Option<GmailMessage>, parse: GmailMessage -> Option<EmailRecord>)
    decreases n
  {
    n == 0 || (TargetMissed(count, reachable, rows, listing, n - 1, fetch, parse)
               && !TargetReached(count, SyncFold(reachable, rows, listing, n, fetch, parse).0.success))
  }

  /** What `TargetMissed` promises: no prefix of one to `n` pages reached
      the target. */
  lemma {:induction false} TargetMissedAll(count: Option<int>, reachable: bool, rows: seq<EmailRecord>, listing: seq<Listing>, n: nat,
                                          fetch: string -> Option<GmailMessage>, parse: GmailMessage -> Option<EmailRecord>)
    requires TargetMissed(count, reachable, rows, listing, n, fetch, parse)
    ensures forall k | 1 <= k <= n :: !TargetReached(count, SyncFold(reachable, rows, listing, k, fetch, parse).0.success)
  {
    if n > 0 {
      TargetMissedAll(count, reachable, rows, listing, n - 1, fetch, parse);
      forall k | 1 <= k <= n ensures !TargetReached(count, SyncFold(reachable, rows, listing, k, fetch, parse).0.success) {
        if k < n {
          assert 1 <= k <= n - 1;
        }
      }
    }
  }

  /** Conversely, no prefix reaching the target is `TargetMissed`. */
  lemma {:induction false} AllTargetMissed(count: Option<int>, reachable: bool, rows: seq<EmailRecord>, listing: seq<Listing>, n: nat,
                                          fetch: string -> Option<GmailMessage>, parse: GmailMessage -> Option<EmailRecord>)
    requires forall k | 1 <= k <= n :: !TargetReached(count, SyncFold(reachable, rows, listing, k, fetch, parse).0.success)
    ensures TargetMissed(count, reachable, rows, listing, n, fetch, parse)
  {
    if n > 0 {
      assert forall k | 1 <= k <= n - 1 :: !TargetReached(count, SyncFold(reachable, rows, listing, k, fetch, parse).0.success);
      AllTargetMissed(count, reachable, rows, listing, n - 1, fetch, parse);
    }
  }

  /** The loop's exit test after a page: a failed or empty listing, the
      target reached, or no next-page token. */
  predicate StopsAfter(page: Listing, count: Option<int>, downloaded: nat)
  {
    page.ListFailed? || page.messageIds == [] || TargetReached(count, downloaded) || !HasNextPage(page)
  }

  /** The paging loop's stop test after list call `n`, whose page brought
      the totals to `t`: it stops unless the page continues and the target
      is still missed, and going on keeps `TargetMissed`. */
  lemma TargetMissedStep(count: Option<int>, reachable: bool, rows: seq<EmailRecord>, listing: seq<Listing>, n: nat,
                         fetch: string -> Option<GmailMessage>, parse: GmailMessage -> Option<EmailRecord>, t: Tallies, stop: bool)
    requires TargetMissed(count, reachable, rows, listing, n, fetch, parse)
    requires t == SyncFold(reachable, rows, listing, n + 1, fetch, parse).0
    requires stop == StopsAfter(ListingAt(listing, n), count, t.success)
    ensures stop <==> !Continues(ListingAt(listing, n)) || TargetReached(count, t.success)
    ensures !stop ==> TargetMissed(count, reachable, rows, listing, n + 1, fetch, parse)
  {
  }

  /** `_sync_emails_with_query`'s summary, without its timings. */
  datatype SyncResult = SyncResult(downloaded: nat, failed: nat, skipped: nat, listCalls: nat)

  class EmailSyncer {
    const db: EmailTable

    constructor (db: EmailTable)
      ensures this.db == db
    {
      this.db := db;
    }

    /** `_email_exists`: false when the database cannot be reached. */
    function EmailExists(id: string): (r: bool)
      reads db
      ensures r <==> db.reachable && id in Ids(db.rows)
    {
      db.reachable && id in Ids(db.rows)
    }

    /** One pass of the per-message `try` block; `parse` is
        `_parse_gmail_message` (the sync loop passes `Parser(parsedate)`). */
    method ProcessMessage(id: string, fetch: string -> Option<GmailMessage>, parse: GmailMessage -> Option<EmailRecord>)
      returns (outcome: Outcome)
      modifies db`rows
      ensures (outcome, db.rows) == MessageStep(db.reachable, old(db.rows), id, fetch, parse)
    {
      if EmailExists(id) {
        return Skipped;
      }
      var fetched := fetch(id);
      if fetched.None? {
        return Failed;
      }
      var rec := parse(fetched.value);
      if rec.None? {
        return Failed;
      }
      var ok := db.Insert(rec.value);
      outcome := if ok then Downloaded else Failed;
    }

    /** The inner `for` loop over one batch of message ids: each message
      adds to exactly one counter. */
    method ProcessBatch(ids: seq<string>, fetch: string -> Option<GmailMessage>, parse: GmailMessage -> Option<EmailRecord>)
      returns (success: nat, failed: nat, skipped: nat)
      modifies db`rows
      ensures (Tallies(success, failed, skipped), db.rows) == BatchStep(db.reachable, old(db.rows), ids, fetch, parse)
      ensures success + failed + skipped == |ids|
    {
      success, failed, skipped := 0, 0, 0;
      var i := 0;
      while i < |ids|
        invariant 0 <= i <= |ids|
        invariant var rest := BatchStep(db.reachable, db.rows, ids[i..], fetch, parse);
          var whole := BatchStep(db.reachable, old(db.rows), ids, fetch, parse);
          AddTallies(Tallies(success, failed, skipped), rest.0) == whole.0 && rest.1 == whole.1
      {
        ghost var before := Tallies(success, failed, skipped);
        ghost var rows := db.rows;
        var outcome := ProcessMessage(ids[i], fetch, parse);
        BatchAdvance(db.reachable, rows, ids, i, fetch, parse, before, outcome, db.rows,
                     BatchStep(db.reachable, old(db.rows), ids, fetch, parse));
        if outcome == Downloaded {
          success := success + 1;
        } else if outcome == Failed {
          failed := failed + 1;
        } else {
          skipped := skipped + 1;
        }
        assert Tallies(success, failed, skipped) == AddTallies(before, Tally(outcome));
        i := i + 1;
      }
      assert ids[i..] == [];
      assert AddTallies(Tallies(success, failed, skipped), Tallies(0, 0, 0)) == Tallies(success, failed, skipped);
    }

    /** One round of the paging loop: process list call `n`'s page and
        add its counters to `done`. */
    method SyncPage(ghost start: seq<EmailRecord>, listing: seq<Listing>, n: nat,
                    fetch: string -> Option<GmailMessage>, parse: GmailMessage -> Option<EmailRecord>, done: Tallies)
      returns (totals: Tallies)
      modifies db`rows
      requires (done, db.rows) == SyncFold(db.reachable, start, listing, n, fetch, parse)
      ensures (totals, db.rows) == SyncFold(db.reachable, start, listing, n + 1, fetch, parse)
    {
      var page := ListingAt(listing, n);
      ghost var before := db.rows;
      var batch := Tallies(0, 0, 0);
      if page.Listed? && page.messageIds != [] {
        var s, f, k := ProcessBatch(page.messageIds, fetch, parse);
        batch := Tallies(s, f, k);
        assert (batch, db.rows) == PageStep(db.reachable, before, page, fetch, parse);
      } else {
        assert (batch, db.rows) == PageStep(db.reachable, before, page, fetch, parse);
      }
      SyncFoldNext(db.reachable, start, listing, n, fetch, parse, done, before, batch, db.rows);
      totals := AddTallies(done, batch);
    }

    /** `_sync_emails_with_query`: list a page, process its messages, then
        stop on a failed or empty listing, on reaching the target, or when
        no next page is announced. `listing[k]` answers the `k`-th list
        call, and `parse` is `_parse_gmail_message` (`Parser(parsedate)`).
        The counters and the table are the fold of the listed pages, so
        `SyncFoldCounts` accounts for every listed id. */
    method SyncEmailsWithQuery(count: Option<int>, listing: seq<Listing>,
                               fetch: string -> Option<GmailMessage>, parse: GmailMessage -> Option<EmailRecord>)
      returns (res: SyncResult)
      modifies db`rows
      ensures 1 <= res.listCalls <= |listing| + 1
      ensures forall k | 0 <= k < res.listCalls - 1 :: Continues(ListingAt(listing, k))
      ensures !Continues(ListingAt(listing, res.listCalls - 1)) || TargetReached(count, res.downloaded)
      ensures TargetMissed(count, db.reachable, old(db.rows), listing, res.listCalls - 1, fetch, parse)
      ensures (Tallies(res.downloaded, res.failed, res.skipped), db.rows)
        == SyncFold(db.reachable, old(db.rows), listing, res.listCalls, fetch, parse)
    {
      var totals := Tallies(0, 0, 0);
      var calls := 0;
      ghost var start := db.rows;
      while true
        invariant calls <= |listing|
        invariant forall k | 0 <= k < calls :: Continues(ListingAt(listing, k))
        invariant (totals, db.rows) == SyncFold(db.reachable, start, listing, calls, fetch, parse)
        invariant TargetMissed(count, db.reachable, start, listing, calls, fetch, parse)
        decreases |listing| - calls
      {
        var page := ListingAt(listing, calls);
        totals := SyncPage(start, listing, calls, fetch, parse, totals);
        var stop := StopsAfter(page, count, totals.success);
        TargetMissedStep(count, db.reachable, start, listing, calls, fetch, parse, totals, stop);
        calls := calls + 1;
        if stop {
          break;
        }
        ContinuesExtend(listing, calls - 1);
      }
      res := SyncResult(totals.success, totals.failed, totals.skipped, calls);
    }
  }
}

=== FILE: json.dfy ===
/** The JSON values that `json.loads` produces and that the settings file
    holds, with the Python readings of them the classifier uses. */
module Json {

  import opened Optional
  import opened Text

  datatype Json =
    | JNull
    | JBool(b: bool)
    | JInt(i: int)
    | JReal(r: real)
    | JString(s: string)
    | JArray(items: seq<Json>)
    | JObject(fields: map<string, Json>)

  type JsonObject = map<string, Json>

  /** The number Python compares when the value meets `<` or `>` against a
      float: `bool` and `int` are numbers too; every other value makes the
      comparison raise `TypeError`, read here as `None`. */
  function NumericValue(j: Json): (r: Option<real>)
    ensures r.Some? <==> (j.JBool? || j.JInt? || j.JReal?)
    ensures j.JInt? ==> r == Some(j.i as real)
    ensures j.JReal? ==> r == Some(j.r)
    ensures j.JBool? ==> r == Some(if j.b then 1.0 else 0.0)
  {
    match j
    case JBool(b) => Some(if b then 1.0 else 0.0)
    case JInt(i) => Some(i as real)
    case JReal(x) => Some(x)
    case _ => None
  }

  /** `obj.get(key, default)` where a non-string value is read as absent. */
  function StringOr(obj: JsonObject, key: string, default: string): (r: string)
    ensures key in obj && obj[key].JString? ==> r == obj[key].s
    ensures !(key in obj && obj[key].JString?) ==> r == default
  {
    if key in obj && obj[key].JString? then obj[key].s else default
  }

  /** `obj.get(key)` for an integer score: a non-integer value is read as absent. */
  function IntOrNone(obj: JsonObject, key: string): (r: Option<int>)
    ensures r.Some? <==> key in obj && obj[key].JInt?
    ensures r.Some? ==> r.value == obj[key].i
  {
    if key in obj && obj[key].JInt? then Some(obj[key].i) else None
  }

  /** `re.search(r'\{.*\}', text, re.DOTALL).group()`: the greedy match runs
      from the first '{' to the last '}', and there is none when no '{'
      comes before a '}'. */
  function ExtractJsonObject(text: string): (r: Option<string>)
    ensures r.None? <==> forall i, j :: 0 <= i < j < |text| && text[i] == '{' ==> text[j] != '}'
    ensures r.Some? ==> |r.value| >= 2 && r.value[0] == '{' && r.value[|r.value| - 1] == '}'
    ensures r.Some? ==> exists i :: OccursAt(text, r.value, i) && '{' !in text[..i] && '}' !in text[i + |r.value|..]
  {
    if '{' !in text then None
    else
      var i := IndexOf(text, '{');
      match LastIndexOf(text, '}')
      case None => None
      case Some(j) =>
        if j < i then None
        else
          assert OccursAt(text, text[i..j + 1], i);
          Some(text[i..j + 1])
  }

  /** `all(field in obj for field in fields)` */
  predicate HasFields(obj: JsonObject, fields: set<string>) {
    fields <= obj.Keys
  }

  /** The object a response parses to, if it is one holding every required
      field; any other JSON value fails the later field reads and so
      escalates as well. */
  function RequireFields(parsed: Option<Json>, fields: set<string>): (r: Option<JsonObject>)
    ensures r.Some? <==> parsed.Some? && parsed.value.JObject? && HasFields(parsed.value.fields, fields)
    ensures r.Some? ==> r.value == parsed.value.fields
  {
    match parsed
    case Some(JObject(obj)) => if HasFields(obj, fields) then Some(obj) else None
    case _ => None
  }
}

=== FILE: optional.dfy ===
/** The optional value used wherever the source returns `None` or a value. */
module Optional {

  datatype Option<+T> = None | Some(value: T) {

    /** The carried value, or `default` when there is none. */
    function GetOr(default: T): T {
      match this
      case Some(v) => v
      case None => default
    }
  }
}

=== FILE: store.dfy ===
/** An in-memory model of the parts of the PostgreSQL database the cascade
    uses: the `tier0_rules` table with its upsert keyed on
    (rule_type, pattern_text, action), the `tier23_few_shot_examples` table
    the Ollama tiers read, and the analyses the coordinator stores. A row's
    position in `rules` is its `id`; rows are never deleted. */
module Store {

  import opened Optional
  import opened Decisions

  /** One row of `tier0_rules`. */
  datatype RuleRow = RuleRow(
    ruleType: string,
    pattern: string,
    action: EmailAction,
    category: EmailCategory,
    confidence: real,
    timesMatched: nat,
    timesCorrect: nat,
    learnedFromEmails: nat,
    createdByTier: nat,
    isActive: bool)

  /** The arguments of `add_learned_rule` / `_store_tier0_rule`. */
  datatype RuleRequest = RuleRequest(
    ruleType: string,
    pattern: string,
    action: EmailAction,
    category: EmailCategory,
    confidence: real,
    createdByTier: nat)

  /** A cached rule as `_load_rules_from_database` builds it. */
  datatype Rule = Rule(
    id: nat,
    ruleType: string,
    pattern: string,
    action: EmailAction,
    category: EmailCategory,
    confidence: real,
    timesMatched: nat,
    timesCorrect: nat)

  /** One row of `tier23_few_shot_examples`, in the table's stored order. */
  datatype ExampleRow = ExampleRow(
    tierLevel: int,
    isActive: bool,
    subject: string,
    sender: string,
    snippet: string,
    bodyPreview: string,
    category: string,
    action: string,
    reasoning: string)

  /** One row of the analyses table written by `_store_analysis_result`. */
  datatype AnalysisRecord = AnalysisRecord(
    emailId: int,
    analysisVersion: string,
    aiModel: string,
    category: string,
    summary: string,
    fraudScore: Option<int>,
    deletionCandidate: bool,
    deletionReason: string,
    importanceScore: Option<int>,
    confidenceScore: int,
    tier: nat)

  /** A score the table's `CHECK (score >= 0 AND score <= 100)` accepts. */
  predicate ScoreInRange(n: int) {
    0 <= n <= 100
  }

  /** The three CHECK constraints of the analyses table; a NULL score
      passes its CHECK. */
  predicate ScoresChecked(rec: AnalysisRecord) {
    && ScoreInRange(rec.confidenceScore)
    && (rec.fraudScore.None? || ScoreInRange(rec.fraudScore.value))
    && (rec.importanceScore.None? || ScoreInRange(rec.importanceScore.value))
  }

  predicate SameKey(row: RuleRow, ruleType: string, pattern: string, action: EmailAction) {
    row.ruleType == ruleType && row.pattern == pattern && row.action == action
  }

  /** The unique constraint the `ON CONFLICT` clause relies on. */
  ghost predicate UniqueKeys(rows: seq<RuleRow>) {
    forall i, j :: 0 <= i < j < |rows| ==>
      !SameKey(rows[j], rows[i].ruleType, rows[i].pattern, rows[i].action)
  }

  /** The row holding the key (rule_type, pattern_text, action), if any. */
  function FindKey(rows: seq<RuleRow>, ruleType: string, pattern: string, action: EmailAction): (r: Option<nat>)
    ensures r.None? <==> forall k :: 0 <= k < |rows| ==> !SameKey(rows[k], ruleType, pattern, action)
    ensures r.Some? ==> r.value < |rows| && SameKey(rows[r.value], ruleType, pattern, action)
    decreases |rows|
  {
    if |rows| == 0 then None
    else if SameKey(rows[|rows| - 1], ruleType, pattern, action) then Some(|rows| - 1)
    else FindKey(rows[..|rows| - 1], ruleType, pattern, action)
  }

  function Max(a: real, b: real): real {
    if b > a then b else a
  }

  /** `INSERT ... ON CONFLICT (rule_type, pattern_text, action) DO UPDATE`:
      a new row with `learned_from_emails = 1`, or the existing row with the
      larger confidence, one more learning email and `is_active` set. The
      existing row's category and creator are kept. */
  function Upsert(rows: seq<RuleRow>, req: RuleRequest): seq<RuleRow> {
    match FindKey(rows, req.ruleType, req.pattern, req.action)
    case None =>
      rows + [RuleRow(req.ruleType, req.pattern, req.action, req.category, req.confidence,
                      0, 0, 1, req.createdByTier, true)]
    case Some(k) =>
      rows[k := rows[k].(confidence := Max(rows[k].confidence, req.confidence),
                         learnedFromEmails := rows[k].learnedFromEmails + 1,
                         isActive := true)]
  }

  /** An upsert on an existing key: confidence becomes the maximum, one more
      learning email, active again, every other field and row unchanged. */
  lemma UpsertExisting(rows: seq<RuleRow>, req: RuleRequest, k: nat)
    requires UniqueKeys(rows)
    requires k < |rows| && SameKey(rows[k], req.ruleType, req.pattern, req.action)
    ensures var r := Upsert(rows, req);
      && |r| == |rows|
      && r[k].confidence == Max(rows[k].confidence, req.confidence)
      && r[k].learnedFromEmails == rows[k].learnedFromEmails + 1
      && r[k].isActive
      && r[k].category == rows[k].category && r[k].timesMatched == rows[k].timesMatched
      && r[k].createdByTier == rows[k].createdByTier
      && forall j :: 0 <= j < |rows| && j != k ==> r[j] == rows[j]
  {
  }

  /** An upsert on a new key appends one active row learned from one email. */
  lemma UpsertNew(rows: seq<RuleRow>, req: RuleRequest)
    requires forall k :: 0 <= k < |rows| ==> !SameKey(rows[k], req.ruleType, req.pattern, req.action)
    ensures var r := Upsert(rows, req);
      && |r| == |rows| + 1 && r[..|rows|] == rows
      && r[|rows|] == RuleRow(req.ruleType, req.pattern, req.action, req.category,
                              req.confidence, 0, 0, 1, req.createdByTier, true)
  {
  }

  /** The upsert keeps the key unique, never lowers a stored confidence, never
      removes a row, and afterwards the key is present, active and at least as
      confident as the request. */
  lemma UpsertInvariant(rows: seq<RuleRow>, req: RuleRequest)
    requires UniqueKeys(rows)
    ensures var r := Upsert(rows, req);
      && UniqueKeys(r)
      && |r| >= |rows|
      && (forall k :: 0 <= k < |rows| ==> r[k].confidence >= rows[k].confidence)
      && FindKey(r, req.ruleType, req.pattern, req.action).Some?
      && var k := FindKey(r, req.ruleType, req.pattern, req.action).value;
         r[k].isActive && r[k].confidence >= req.confidence
  {
    var r := Upsert(rows, req);
    match FindKey(rows, req.ruleType, req.pattern, req.action)
    case None =>
      assert UniqueKeys(r) by {
        forall i, j | 0 <= i < j < |r|
          ensures !SameKey(r[j], r[i].ruleType, r[i].pattern, r[i].action)
        {
          if j == |rows| {
            assert !SameKey(rows[i], req.ruleType, req.pattern, req.action);
          }
        }
      }
      assert SameKey(r[|rows|], req.ruleType, req.pattern, req.action);
      var k := FindKey(r, req.ruleType, req.pattern, req.action).value;
      assert k == |rows|;
    case Some(k) =>
      assert UniqueKeys(r) by {
        forall i, j | 0 <= i < j < |r|
          ensures !SameKey(r[j], r[i].ruleType, r[i].pattern, r[i].action)
        {
          assert SameKey(r[i], rows[i].ruleType, rows[i].pattern, rows[i].action);
          assert SameKey(r[j], rows[j].ruleType, rows[j].pattern, rows[j].action);
        }
      }
      assert SameKey(r[k], req.ruleType, req.pattern, req.action);
  }

  function RuleOf(id: nat, row: RuleRow): Rule {
    Rule(id, row.ruleType, row.pattern, row.action, row.category, row.confidence,
         row.timesMatched, row.timesCorrect)
  }

  /** `WHERE is_active = true`, in id order, from row `from` on. */
  function ActiveRulesFrom(rows: seq<RuleRow>, from: nat): (r: seq<Rule>)
    requires from <= |rows|
    ensures forall x :: x in r ==> from <= x.id < |rows| && rows[x.id].isActive && x == RuleOf(x.id, rows[x.id])
    ensures forall id :: from <= id < |rows| && rows[id].isActive ==> RuleOf(id, rows[id]) in r
    decreases |rows| - from
  {
    if from == |rows| then []
    else if rows[from].isActive then [RuleOf(from, rows[from])] + ActiveRulesFrom(rows, from + 1)
    else ActiveRulesFrom(rows, from + 1)
  }

  /** `SELECT COUNT(*) FROM tier0_rules WHERE is_active = true` */
  function ActiveCount(rows: seq<RuleRow>): (n: nat)
    ensures n == 0 <==> forall k :: 0 <= k < |rows| ==> !rows[k].isActive
    decreases |rows|
  {
    if |rows| == 0 then 0
    else ActiveCount(rows[..|rows| - 1]) + (if rows[|rows| - 1].isActive then 1 else 0)
  }

  /** `a` may come before `b` under `ORDER BY confidence DESC, times_matched DESC`. */
  predicate Ranked(a: Rule, b: Rule) {
    a.confidence > b.confidence || (a.confidence == b.confidence && a.timesMatched >= b.timesMatched)
  }

  ghost predicate SortedByRank(rs: seq<Rule>) {
    forall i, j :: 0 <= i < j < |rs| ==> Ranked(rs[i], rs[j])
  }

  /** A rule ranked before every rule of a sorted list can lead it. */
  lemma ConsSorted(a: Rule, rs: seq<Rule>)
    requires SortedByRank(rs)
    requires forall y | y in rs :: Ranked(a, y)
    ensures SortedByRank([a] + rs)
  {
    var r := [a] + rs;
    forall i, j | 0 <= i < j < |r| ensures Ranked(r[i], r[j]) {
      assert r[j] == rs[j - 1];
      if i > 0 {
        assert r[i] == rs[i - 1];
      }
    }
  }

  /** The head of a sorted list is ranked before the rest of it. */
  lemma HeadRanksTail(rs: seq<Rule>)
    requires rs != [] && SortedByRank(rs)
    ensures forall y | y in rs[1..] :: Ranked(rs[0], y)
  {
    forall y | y in rs[1..] ensures Ranked(rs[0], y) {
      var k :| 0 <= k < |rs[1..]| && rs[1..][k] == y;
      assert rs[k + 1] == y;
    }
  }

  function InsertByRank(x: Rule, rs: seq<Rule>): (r: seq<Rule>)
    requires SortedByRank(rs)
    ensures SortedByRank(r)
    ensures multiset(r) == multiset(rs) + multiset{x}
    ensures forall y :: y in r ==> y == x || y in rs
    decreases |rs|
  {
    if rs == [] then [x]
    else if Ranked(x, rs[0]) then
      ConsSorted(x, rs);
      [x] + rs
    else
      var tail := InsertByRank(x, rs[1..]);
      assert rs == [rs[0]] + rs[1..];
      HeadRanksTail(rs);
      ConsSorted(rs[0], tail);
      [rs[0]] + tail
  }

  /** The rule list in `ORDER BY confidence DESC, times_matched DESC` order:
      a permutation of the input, sorted by rank. */
  function SortByRank(rs: seq<Rule>): (r: seq<Rule>)
    ensures SortedByRank(r)
    ensures multiset(r) == multiset(rs)
    decreases |rs|
  {
    if rs == [] then []
    else
      assert rs == [rs[0]] + rs[1..];
      InsertByRank(rs[0], SortByRank(rs[1..]))
  }

  /** What `_load_rules_from_database` puts in the cache: exactly the active
      rows, ranked. */
  function LoadActiveRules(rows: seq<RuleRow>): (r: seq<Rule>)
    ensures SortedByRank(r)
    ensures forall x :: x in r ==> x.id < |rows| && rows[x.id].isActive && x == RuleOf(x.id, rows[x.id])
    ensures forall id :: 0 <= id < |rows| && rows[id].isActive ==> RuleOf(id, rows[id]) in r
  {
    var active := ActiveRulesFrom(rows, 0);
    var r := SortByRank(active);
    assert forall x :: x in r <==> x in multiset(active);
    r
  }

  /** The table after `times_matched` of row `id` went up by one; an id with
      no row matches nothing. */
  function Bumped(rows: seq<RuleRow>, id: nat): (r: seq<RuleRow>)
    ensures |r| == |rows|
    ensures forall k :: 0 <= k < |rows| && k != id ==> r[k] == rows[k]
    ensures id < |rows| ==> r[id] == rows[id].(timesMatched := rows[id].timesMatched + 1)
  {
    if id < |rows| then rows[id := rows[id].(timesMatched := rows[id].timesMatched + 1)] else rows
  }

  /** With no active row the load is empty, so skipping it, as
      `_check_for_new_rules` does, changes nothing. */
  lemma NoActiveLoadsEmpty(rows: seq<RuleRow>)
    requires ActiveCount(rows) == 0
    ensures LoadActiveRules(rows) == []
  {
    NoActiveFromEmpty(rows, 0);
  }

  lemma {:induction false} NoActiveFromEmpty(rows: seq<RuleRow>, from: nat)
    requires from <= |rows|
    requires forall k :: from <= k < |rows| ==> !rows[k].isActive
    ensures ActiveRulesFrom(rows, from) == []
    decreases |rows| - from
  {
    if from < |rows| {
      NoActiveFromEmpty(rows, from + 1);
    }
  }

  /** Every row `WHERE tier_level = tier AND is_active = true`, in stored
      order. */
  function MatchingExamples(rows: seq<ExampleRow>, tier: int): (m: seq<ExampleRow>)
    ensures |m| <= |rows|
    ensures forall x :: x in m <==> x in rows && x.tierLevel == tier && x.isActive
    decreases |rows|
  {
    if rows == [] then []
    else if rows[0].tierLevel == tier && rows[0].isActive then [rows[0]] + MatchingExamples(rows[1..], tier)
    else MatchingExamples(rows[1..], tier)
  }

  /** The few-shot query with `LIMIT limit`: the first `limit` matching rows,
      or all of them when there are fewer. */
  function ExamplesFor(rows: seq<ExampleRow>, tier: int, limit: nat): (r: seq<ExampleRow>)
    ensures |r| == (if limit < |MatchingExamples(rows, tier)| then limit else |MatchingExamples(rows, tier)|)
    ensures r == MatchingExamples(rows, tier)[..|r|]
    ensures forall x :: x in r ==> x in rows && x.tierLevel == tier && x.isActive
    decreases |rows|
  {
    if rows == [] || limit == 0 then []
    else if rows[0].tierLevel == tier && rows[0].isActive then [rows[0]] + ExamplesFor(rows[1..], tier, limit - 1)
    else ExamplesFor(rows[1..], tier, limit)
  }

  /** Two analyses clash on the key (email_id, analysis_version, ai_model). */
  predicate SameAnalysisKey(a: AnalysisRecord, b: AnalysisRecord) {
    a.emailId == b.emailId && a.analysisVersion == b.analysisVersion && a.aiModel == b.aiModel
  }

  /** The unique constraint behind `insert_analysis`'s `ON CONFLICT`. */
  ghost predicate UniqueAnalysisKeys(rows: seq<AnalysisRecord>) {
    forall i, j :: 0 <= i < j < |rows| ==> !SameAnalysisKey(rows[i], rows[j])
  }

  /** The last analysis row with `rec`'s key, if any. */
  function FindAnalysis(rows: seq<AnalysisRecord>, rec: AnalysisRecord): (r: Option<nat>)
    ensures r.None? <==> forall k :: 0 <= k < |rows| ==> !SameAnalysisKey(rows[k], rec)
    ensures r.Some? ==> r.value < |rows| && SameAnalysisKey(rows[r.value], rec)
    ensures r.Some? ==> forall k :: r.value < k < |rows| ==> !SameAnalysisKey(rows[k], rec)
    decreases |rows|
  {
    if |rows| == 0 then None
    else if SameAnalysisKey(rows[|rows| - 1], rec) then Some(|rows| - 1)
    else FindAnalysis(rows[..|rows| - 1], rec)
  }

  /** `INSERT INTO email_analysis ... ON CONFLICT (email_id, analysis_version,
      ai_model) DO UPDATE`: the row with the key takes every column of the
      new one; without such a row the new one is appended. */
  function UpsertAnalysis(rows: seq<AnalysisRecord>, rec: AnalysisRecord): seq<AnalysisRecord> {
    match FindAnalysis(rows, rec)
    case None => rows + [rec]
    case Some(k) => rows[k := rec]
  }

  /** The upsert keeps the key unique, stores `rec`, keeps every row with
      another key, adds no other row, and grows the table only for a new key. */
  lemma UpsertAnalysisSpec(rows: seq<AnalysisRecord>, rec: AnalysisRecord)
    requires UniqueAnalysisKeys(rows)
    ensures var r := UpsertAnalysis(rows, rec);
      && UniqueAnalysisKeys(r)
      && rec in r
      && (forall k :: 0 <= k < |rows| && !SameAnalysisKey(rows[k], rec) ==> rows[k] in r)
      && (forall x :: x in r && x != rec ==> x in rows && !SameAnalysisKey(x, rec))
      && |r| == |rows| + (if FindAnalysis(rows, rec).None? then 1 else 0)
  {
    var r := UpsertAnalysis(rows, rec);
    match FindAnalysis(rows, rec)
    case None =>
      assert r[|rows|] == rec;
      forall k | 0 <= k < |rows| && !SameAnalysisKey(rows[k], rec) ensures rows[k] in r {
        assert r[k] == rows[k];
      }
    case Some(m) =>
      assert r[m] == rec;
      forall i, j | 0 <= i < j < |r| ensures !SameAnalysisKey(r[i], r[j]) {
        assert SameAnalysisKey(r[i], rows[i]) && SameAnalysisKey(r[j], rows[j]);
      }
      forall k | 0 <= k < |rows| && !SameAnalysisKey(rows[k], rec) ensures rows[k] in r {
        assert r[k] == rows[k];
      }
      forall x | x in r && x != rec ensures x in rows && !SameAnalysisKey(x, rec) {
        var k :| 0 <= k < |r| && r[k] == x;
        assert k != m && x == rows[k];
        assert SameAnalysisKey(rows[m], rec);
      }
  }

  /** Storing two analyses with the same key leaves only the second. */
  lemma UpsertAnalysisTwice(rows: seq<AnalysisRecord>, a: AnalysisRecord, b: AnalysisRecord)
    requires SameAnalysisKey(a, b)
    ensures UpsertAnalysis(UpsertAnalysis(rows, a), b) == UpsertAnalysis(rows, b)
  {
    var r := UpsertAnalysis(rows, a);
    match FindAnalysis(rows, a)
    case None =>
      assert SameAnalysisKey(r[|rows|], b);
      assert FindAnalysis(rows, b).None? by {
        forall k | 0 <= k < |rows| ensures !SameAnalysisKey(rows[k], b) {
          assert !SameAnalysisKey(rows[k], a);
        }
      }
      assert FindAnalysis(r, b) == Some(|rows|);
    case Some(m) =>
      assert SameAnalysisKey(r[m], b);
      assert FindAnalysis(r, b) == Some(m) by {
        assert forall k :: m < k < |r| ==> r[k] == rows[k] && !SameAnalysisKey(rows[k], a);
        FindAnalysisLast(r, b, m);
      }
      assert FindAnalysis(rows, b) == Some(m) by {
        assert forall k :: m < k < |rows| ==> !SameAnalysisKey(rows[k], a);
        FindAnalysisLast(rows, b, m);
      }
  }

  /** The row with the key that no later row shares is the one found. */
  lemma {:induction false} FindAnalysisLast(rows: seq<AnalysisRecord>, rec: AnalysisRecord, m: nat)
    requires m < |rows| && SameAnalysisKey(rows[m], rec)
    requires forall k :: m < k < |rows| ==> !SameAnalysisKey(rows[k], rec)
    ensures FindAnalysis(rows, rec) == Some(m)
    decreases |rows|
  {
    if m < |rows| - 1 {
      FindAnalysisLast(rows[..|rows| - 1], rec, m);
    }
  }

  /** The database connection shared by every tier. A database that cannot
      be reached makes every query raise, which each caller catches. */
  class Database {
    const reachable: bool
    /** The ids of the emails table, which `email_id REFERENCES emails(id)`
        points into; the analysis side never changes that table. */
    const emailIds: set<int>
    var rules: seq<RuleRow>
    var examples: seq<ExampleRow>
    var analyses: seq<AnalysisRecord>

    ghost predicate Valid()
      reads this
    {
      UniqueKeys(rules) && UniqueAnalysisKeys(analyses)
    }

    constructor (reachable: bool, emailIds: set<int>, rules: seq<RuleRow>, examples: seq<ExampleRow>)
      requires UniqueKeys(rules)
      ensures Valid()
      ensures this.reachable == reachable && this.emailIds == emailIds && this.rules == rules
      ensures this.examples == examples && this.analyses == []
    {
      this.reachable := reachable;
      this.emailIds := emailIds;
      this.rules := rules;
      this.examples := examples;
      this.analyses := [];
    }

    /** The upsert statement; `ok` is whether it returned a row id. */
    method UpsertRule(req: RuleRequest) returns (ok: bool)
      requires Valid()
      modifies this`rules
      ensures Valid()
      ensures ok == reachable
      ensures rules == if reachable then Upsert(old(rules), req) else old(rules)
    {
      ok := reachable;
      if reachable {
        UpsertInvariant(rules, req);
        rules := Upsert(rules, req);
      }
    }

    /** `UPDATE tier0_rules SET times_matched = times_matched + 1 WHERE id = ...` */
    method IncrementTimesMatched(id: nat)
      requires Valid()
      modifies this`rules
      ensures Valid()
      ensures rules == if reachable then Bumped(old(rules), id) else old(rules)
    {
      if reachable {
        var before := rules;
        rules := Bumped(rules, id);
        assert forall k :: 0 <= k < |rules| ==>
          SameKey(rules[k], before[k].ruleType, before[k].pattern, before[k].action);
      }
    }

    /** Whether the analyses table takes `rec`: its email exists (the
        foreign key) and its scores pass the CHECK constraints, on the
        insert and on the `DO UPDATE` alike. */
    predicate Admits(rec: AnalysisRecord) {
      rec.emailId in emailIds && ScoresChecked(rec)
    }

    /** `insert_analysis`: the upsert, on a database that can be reached;
        a row the constraints refuse raises, and `ok` is false. */
    method InsertAnalysis(rec: AnalysisRecord) returns (ok: bool)
      requires Valid()
      modifies this`analyses
      ensures Valid()
      ensures ok <==> reachable && rec.emailId in emailIds && ScoresChecked(rec)
      ensures analyses == if ok then UpsertAnalysis(old(analyses), rec) else old(analyses)
    {
      ok := reachable && Admits(rec);
      if ok {
        UpsertAnalysisSpec(analyses, rec);
        analyses := UpsertAnalysis(analyses, rec);
      }
    }
  }
}

=== FILE: text.dfy ===
/** The handful of Python `str` operations the classifier relies on, written
    out over `seq<char>`: whitespace stripping, ASCII lower-casing, the `in`
    substring test, slicing, `split`, `join` and `replace`. */
module Text {

  import opened Optional

  /** Python's `str.isspace` for one character (the Unicode White_Space
      characters plus the ASCII separators 0x1C-0x1F). */
  predicate IsSpace(c: char) {
    var n := c as int;
    n == 32 || 9 <= n <= 13 || 28 <= n <= 31 || n == 0x85 || n == 0xA0 || n == 0x1680
    || 0x2000 <= n <= 0x200A || n == 0x2028 || n == 0x2029 || n == 0x202F
    || n == 0x205F || n == 0x3000
  }

  predicate IsQuote(c: char) {
    c == '"' || c == '\''
  }

  /** `s.lstrip(chars)`: drops the leading characters that satisfy `drop`. */
  function TrimLeft(s: string, drop: char -> bool): (r: string)
    ensures |r| <= |s| && r == s[|s| - |r|..]
    ensures r == [] || !drop(r[0])
    ensures forall i :: 0 <= i < |s| - |r| ==> drop(s[i])
    decreases |s|
  {
    if s != [] && drop(s[0]) then
      var t := s[1..];
      var r := TrimLeft(t, drop);
      assert t[|t| - |r|..] == s[|s| - |r|..];
      r
    else s
  }

  /** `s.rstrip(chars)`: drops the trailing characters that satisfy `drop`. */
  function TrimRight(s: string, drop: char -> bool): (r: string)
    ensures |r| <= |s| && r == s[..|r|]
    ensures r == [] || !drop(r[|r| - 1])
    ensures forall i :: |r| <= i < |s| ==> drop(s[i])
    decreases |s|
  {
    if s != [] && drop(s[|s| - 1]) then TrimRight(s[..|s| - 1], drop) else s
  }

  /** `s.strip()` */
  function Strip(s: string): string {
    TrimRight(TrimLeft(s, IsSpace), IsSpace)
  }

  /** `s.strip('"\'')` */
  function StripQuotes(s: string): string {
    TrimRight(TrimLeft(s, IsQuote), IsQuote)
  }

  /** A stripped string neither starts nor ends with whitespace. */
  lemma StripTrimmed(s: string)
    ensures Strip(s) == [] || (!IsSpace(Strip(s)[0]) && !IsSpace(Strip(s)[|Strip(s)| - 1]))
  {
    var l := TrimLeft(s, IsSpace);
    var r := TrimRight(l, IsSpace);
    assert r == l[..|r|];
    if r != [] {
      assert r[0] == l[0];
    }
  }

  function LowerChar(c: char): char {
    if 'A' <= c <= 'Z' then (c as int + 32) as char else c
  }

  /** `s.lower()`, restricted to the ASCII letters. */
  function Lower(s: string): (r: string)
    ensures |r| == |s|
  {
    seq(|s|, i requires 0 <= i < |s| => LowerChar(s[i]))
  }

  lemma LowerIdempotent(s: string)
    ensures Lower(Lower(s)) == Lower(s)
  {
  }

  /** Lower-casing commutes with taking a slice. */
  lemma LowerSlice(s: string, i: nat, j: nat)
    requires i <= j <= |s|
    ensures Lower(s[i..j]) == Lower(s)[i..j]
  {
  }

  predicate IsPrefix(p: string, s: string) {
    |p| <= |s| && s[..|p|] == p
  }

  predicate EndsWith(s: string, suffix: string) {
    |suffix| <= |s| && s[|s| - |suffix|..] == suffix
  }

  /** `p` occurs in `s` starting at index `i`. */
  predicate OccursAt(s: string, p: string, i: int) {
    0 <= i && i + |p| <= |s| && s[i..i + |p|] == p
  }

  /** Python's `p in s`, scanning `s` from the left. */
  predicate Contains(s: string, p: string)
    decreases |s|
  {
    IsPrefix(p, s) || (s != [] && Contains(s[1..], p))
  }

  /** The scan finds `p` exactly when `p` occurs somewhere in `s`. */
  lemma {:induction false} ContainsIff(s: string, p: string)
    ensures Contains(s, p) <==> exists i :: OccursAt(s, p, i)
    decreases |s|
  {
    if IsPrefix(p, s) {
      assert OccursAt(s, p, 0);
    } else if s != [] {
      ContainsIff(s[1..], p);
      if Contains(s[1..], p) {
        var i :| OccursAt(s[1..], p, i);
        assert s[1..][i..i + |p|] == s[i + 1..i + 1 + |p|];
        assert OccursAt(s, p, i + 1);
      } else {
        forall i | 1 <= i && OccursAt(s, p, i) ensures OccursAt(s[1..], p, i - 1) {
          assert s[1..][i - 1..i - 1 + |p|] == s[i..i + |p|];
        }
      }
    }
  }

  /** A slice of `s` is contained in `s`. */
  lemma SliceContained(s: string, i: nat, j: nat)
    requires i <= j <= |s|
    ensures Contains(s, s[i..j])
  {
    assert OccursAt(s, s[i..j], i);
    ContainsIff(s, s[i..j]);
  }

  /** Python slicing `s[:n]`, which clamps at the end of `s`. */
  function Take<T>(s: seq<T>, n: nat): (r: seq<T>)
    ensures |r| == if n <= |s| then n else |s|
    ensures r == s[..|r|]
  {
    if n <= |s| then s[..n] else s
  }

  /** `c * n` */
  function Repeat(c: char, n: nat): (r: string)
    ensures |r| == n
    ensures multiset(r)[c] == n
    ensures forall d :: d != c ==> multiset(r)[d] == 0
  {
    if n == 0 then [] else [c] + Repeat(c, n - 1)
  }

  /** Index of the first `c` in `s`. */
  function IndexOf(s: string, c: char): (i: nat)
    requires c in s
    ensures i < |s| && s[i] == c && c !in s[..i]
  {
    if s[0] == c then 0 else 1 + IndexOf(s[1..], c)
  }

  /** Index of the last `c` in `s`, if any. */
  function LastIndexOf(s: string, c: char): (r: Option<nat>)
    ensures r.None? <==> c !in s
    ensures r.Some? ==> r.value < |s| && s[r.value] == c && c !in s[r.value + 1..]
    decreases |s|
  {
    if s == [] then None
    else if s[|s| - 1] == c then Some(|s| - 1)
    else
      var r := LastIndexOf(s[..|s| - 1], c);
      assert s == s[..|s| - 1] + [s[|s| - 1]];
      r
  }

  /** `sep.join(parts)` */
  function Join(parts: seq<string>, sep: string): string
    decreases |parts|
  {
    if |parts| == 0 then ""
    else if |parts| == 1 then parts[0]
    else parts[0] + sep + Join(parts[1..], sep)
  }

  /** `s.split(sep)` for a one-character separator: at least two pieces
      exactly when the separator occurs, and no piece holds it. */
  function Split(s: string, sep: char): (r: seq<string>)
    ensures |r| >= 1 && (|r| >= 2 <==> sep in s)
    ensures forall k :: 0 <= k < |r| ==> sep !in r[k]
    decreases |s|
  {
    if sep !in s then
      [s]
    else
      var i := IndexOf(s, sep);
      [s[..i]] + Split(s[i + 1..], sep)
  }

  /** There is one more piece than there are separators. */
  lemma {:induction false} SplitCount(s: string, sep: char)
    ensures |Split(s, sep)| == multiset(s)[sep] + 1
    decreases |s|
  {
    if sep !in s {
      assert multiset(s)[sep] == 0;
    } else {
      var i := IndexOf(s, sep);
      SplitCount(s[i + 1..], sep);
      assert s == s[..i] + [sep] + s[i + 1..];
      assert multiset(s[..i])[sep] == 0;
    }
  }

  /** Joining the pieces of a split with the separator gives back the string. */
  lemma {:induction false} JoinSplit(s: string, sep: char)
    ensures Join(Split(s, sep), [sep]) == s
    decreases |s|
  {
    if sep in s {
      var i := IndexOf(s, sep);
      JoinSplit(s[i + 1..], sep);
      assert s == s[..i] + [sep] + s[i + 1..];
    }
  }

  /** The first piece of a split is a prefix of `s`. */
  lemma SplitHeadIsPrefix(s: string, sep: char)
    ensures |Split(s, sep)[0]| <= |s| && Split(s, sep)[0] == s[..|Split(s, sep)[0]|]
  {
    if sep in s {
      var i := IndexOf(s, sep);
      assert Split(s, sep)[0] == s[..i];
    }
  }

  /** Splitting at the first separator. */
  lemma SplitUnfold(s: string, sep: char)
    requires sep in s
    ensures Split(s, sep)[1] == Split(s[IndexOf(s, sep) + 1..], sep)[0]
  {
    var i := IndexOf(s, sep);
    assert Split(s, sep) == [s[..i]] + Split(s[i + 1..], sep);
  }

  /** The piece after the first separator is a slice of `s`. */
  lemma SplitSecondIsSlice(s: string, sep: char)
    requires sep in s
    ensures exists i, j :: 0 <= i <= j <= |s| && Split(s, sep)[1] == s[i..j]
  {
    var i := IndexOf(s, sep);
    var rest := s[i + 1..];
    SplitUnfold(s, sep);
    SplitHeadIsPrefix(rest, sep);
    var n := |Split(rest, sep)[0]|;
    assert rest[..n] == s[i + 1..i + 1 + n];
    assert 0 <= i + 1 <= i + 1 + n <= |s| && Split(s, sep)[1] == s[i + 1..i + 1 + n];
  }

  /** `s.replace(pat, rep)`: non-overlapping occurrences, left to right. */
  function ReplaceAll(s: string, pat: string, rep: string): string
    requires |pat| > 0
    decreases |s|
  {
    if |s| < |pat| then s
    else if s[..|pat|] == pat then rep + ReplaceAll(s[|pat|..], pat, rep)
    else [s[0]] + ReplaceAll(s[1..], pat, rep)
  }

  /** A character that is in neither the pattern nor the replacement occurs
      in the result exactly as often as in the input. */
  lemma {:induction false} ReplaceKeepsCount(s: string, pat: string, rep: string, c: char)
    requires |pat| > 0 && c !in pat && c !in rep
    ensures multiset(ReplaceAll(s, pat, rep))[c] == multiset(s)[c]
    decreases |s|
  {
    if |s| < |pat| {
    } else if s[..|pat|] == pat {
      ReplaceKeepsCount(s[|pat|..], pat, rep, c);
      assert s == pat + s[|pat|..];
      assert multiset(pat)[c] == 0 && multiset(rep)[c] == 0;
    } else {
      ReplaceKeepsCount(s[1..], pat, rep, c);
      assert s == [s[0]] + s[1..];
    }
  }

  /** No proper suffix of `p` begins the replacement `rep`, so an occurrence
      of `p` cannot start before a replaced block and run into it. */
  predicate NoSuffixStarts(p: string, rep: string) {
    forall j :: 1 <= j < |p| ==> !IsPrefix(p[j..], rep)
  }

  /** A string shorter than `p` does not contain it. */
  lemma {:induction false} ShortNoContains(s: string, p: string)
    requires |s| < |p|
    ensures !Contains(s, p)
    decreases |s|
  {
    if s != [] {
      ShortNoContains(s[1..], p);
    }
  }

  /** Putting characters other than `p[0]` in front adds no occurrence of `p`. */
  lemma {:induction false} NoHeadNoContains(a: string, x: string, p: string)
    requires p != [] && p[0] !in a && !Contains(x, p)
    ensures !Contains(a + x, p)
    decreases |a|
  {
    if a == [] {
      assert a + x == x;
    } else {
      assert (a + x)[1..] == a[1..] + x;
      NoHeadNoContains(a[1..], x, p);
      assert !IsPrefix(p, a + x) by {
        if |p| <= |a + x| {
          assert (a + x)[..|p|][0] == a[0] != p[0];
        }
      }
    }
  }

  /** A prefix of `a + x` no longer than `a` is a prefix of `a`. */
  lemma PrefixOfJoined(q: string, a: string, x: string)
    ensures |q| <= |a| && IsPrefix(q, a + x) ==> IsPrefix(q[0..], a)
  {
    if |q| <= |a| && IsPrefix(q, a + x) {
      assert (a + x)[..|q|] == a[..|q|];
      assert q[0..] == q;
    }
  }

  /** When the result of a replacement starts with `q`, and no suffix of `q`
      begins the replacement, the input started with `q` as well. */
  lemma {:induction false} ReplacedPrefix(t: string, pat: string, rep: string, q: string)
    requires |pat| > 0 && |q| <= |rep|
    requires forall j :: 0 <= j < |q| ==> !IsPrefix(q[j..], rep)
    requires IsPrefix(q, ReplaceAll(t, pat, rep))
    ensures IsPrefix(q, t)
    decreases |t|
  {
    if q == [] || |t| < |pat| {
    } else if t[..|pat|] == pat {
      PrefixOfJoined(q, rep, ReplaceAll(t[|pat|..], pat, rep));
      assert false;
    } else {
      var x := ReplaceAll(t[1..], pat, rep);
      assert ([t[0]] + x)[1..] == x;
      forall j | 0 <= j < |q[1..]| ensures !IsPrefix(q[1..][j..], rep) {
        assert q[1..][j..] == q[j + 1..];
      }
      ReplacedPrefix(t[1..], pat, rep, q[1..]);
      assert q == [q[0]] + q[1..];
    }
  }

  /** After replacing `pat` no occurrence of `p` is left, when `p` is the
      pattern itself or was absent before, provided the replacement cannot
      re-form it: `p[0]` is not in it and no suffix of `p` begins it. */
  lemma {:induction false} ReplaceLeavesNone(t: string, pat: string, rep: string, p: string)
    requires |pat| > 0 && |p| > 0 && p[0] !in rep && |p| <= |rep| + 1 && NoSuffixStarts(p, rep)
    requires p == pat || !Contains(t, p)
    ensures !Contains(ReplaceAll(t, pat, rep), p)
    decreases |t|
  {
    if |t| < |pat| {
      if p == pat {
        ShortNoContains(t, p);
      }
    } else if t[..|pat|] == pat {
      var t' := t[|pat|..];
      assert p != pat ==> !Contains(t', p) by {
        if p != pat {
          NoContainsSuffix(t, p, |pat|);
        }
      }
      ReplaceLeavesNone(t', pat, rep, p);
      NoHeadNoContains(rep, ReplaceAll(t', pat, rep), p);
    } else {
      var x := ReplaceAll(t[1..], pat, rep);
      assert ReplaceAll(t, pat, rep) == [t[0]] + x;
      assert ([t[0]] + x)[1..] == x;
      ReplaceLeavesNone(t[1..], pat, rep, p);
      if IsPrefix(p, [t[0]] + x) {
        var q := p[1..];
        forall j | 0 <= j < |q| ensures !IsPrefix(q[j..], rep) {
          assert q[j..] == p[j + 1..];
        }
        assert IsPrefix(q, x);
        ReplacedPrefix(t[1..], pat, rep, q);
        assert false;
      }
    }
  }

  /** Dropping a prefix adds no occurrence. */
  lemma {:induction false} NoContainsSuffix(s: string, p: string, k: nat)
    requires k <= |s| && !Contains(s, p)
    ensures !Contains(s[k..], p)
    decreases k
  {
    if k > 0 {
      assert s[1..][k - 1..] == s[k..];
      NoContainsSuffix(s[1..], p, k - 1);
    }
  }

  /** Replacing a single character by a string without it removes that
      character altogether. */
  lemma {:induction false} ReplaceCharRemoves(s: string, a: char, rep: string)
    requires a !in rep
    ensures a !in ReplaceAll(s, [a], rep)
    decreases |s|
  {
    if |s| >= 1 {
      ReplaceCharRemoves(s[1..], a, rep);
    }
  }

  predicate IsDigit(c: char) { '0' <= c <= '9' }

  predicate AllDigits(s: string) { forall i | 0 <= i < |s| :: IsDigit(s[i]) }

  function DigitsValue(s: string): (n: nat)
    requires AllDigits(s)
  {
    if s == [] then 0 else 10 * DigitsValue(s[..|s| - 1]) + (s[|s| - 1] as int - '0' as int)
  }

  /** Python's `int(text)` on already stripped text: an optional sign and
      one or more ASCII digits. */
  function ParseInt(s: string): (r: Option<int>)
    ensures r.Some? <==> (|| (s != [] && AllDigits(s))
                          || (|s| >= 2 && (s[0] == '+' || s[0] == '-') && AllDigits(s[1..])))
  {
    if s != [] && AllDigits(s) then Some(DigitsValue(s))
    else if |s| >= 2 && s[0] == '+' && AllDigits(s[1..]) then Some(DigitsValue(s[1..]))
    else if |s| >= 2 && s[0] == '-' && AllDigits(s[1..]) then Some(0 - DigitsValue(s[1..]))
    else None
  }

  /** Decimal digits of a natural number, most significant first. */
  function NatText(n: nat): (s: string)
    ensures s != [] && AllDigits(s)
  {
    var d := [('0' as int + n % 10) as char];
    if n < 10 then d else NatText(n / 10) + d
  }

  /** Python's `str(n)`. */
  function IntText(n: int): string {
    if n < 0 then "-" + NatText(-n) else NatText(n)
  }

  lemma {:induction false} NatTextValue(n: nat)
    ensures DigitsValue(NatText(n)) == n
  {
    var s := NatText(n);
    if n >= 10 {
      NatTextValue(n / 10);
      assert s[..|s| - 1] == NatText(n / 10);
    }
  }

  /** Reading back what `str` writes gives the number. */
  lemma ParseIntText(n: int)
    ensures ParseInt(IntText(n)) == Some(n)
  {
    if n < 0 {
      NatTextValue(-n);
      assert IntText(n)[1..] == NatText(-n);
    } else {
      NatTextValue(n);
    }
  }
}

=== FILE: tier0_rules_engine.dfy ===
/** Tier 0 (analyzers/tier0_rules_engine.py): learned rules matched against
    the sender, subject and sender address, first match wins, over a rule
    cache that is either unloaded or a loaded list. */
module Tier0 {

  import opened Optional
  import opened Text
  import opened Decisions
  import opened Store

  const SenderDomain: string := "sender_domain"
  const SenderExact: string := "sender_exact"
  const SubjectPattern: string := "subject_pattern"
  const SenderPattern: string := "sender_pattern"

  /** `_check_rule_match` on fields `analyze` has already lower-cased. */
  function CheckRuleMatch(rule: Rule, sender: string, subject: string, senderEmail: string): (m: bool)
    ensures rule.ruleType == SenderDomain ==> (m <==> exists i :: OccursAt(senderEmail, Lower(rule.pattern), i))
    ensures rule.ruleType == SenderExact ==> (m <==> senderEmail == Lower(rule.pattern))
    ensures rule.ruleType == SubjectPattern ==> (m <==> exists i :: OccursAt(subject, Lower(rule.pattern), i))
    ensures rule.ruleType == SenderPattern ==> (m <==> exists i :: OccursAt(sender, Lower(rule.pattern), i))
    ensures rule.ruleType !in {SenderDomain, SenderExact, SubjectPattern, SenderPattern} ==> !m
  {
    var pattern := Lower(rule.pattern);
    ContainsIff(senderEmail, pattern);
    ContainsIff(subject, pattern);
    ContainsIff(sender, pattern);
    if rule.ruleType == SenderDomain then Contains(senderEmail, pattern)
    else if rule.ruleType == SenderExact then pattern == senderEmail
    else if rule.ruleType == SubjectPattern then Contains(subject, pattern)
    else if rule.ruleType == SenderPattern then Contains(sender, pattern)
    else false
  }

  /** Whether `rule` fires on `email`, after the lower-casing `analyze` does. */
  predicate Matches(rule: Rule, email: Email) {
    CheckRuleMatch(rule, Lower(email.sender), Lower(email.subject), Lower(email.senderEmail))
  }

  /** The index of the first rule, from `from` on, that fires on `email`. */
  function FirstMatchFrom(rules: seq<Rule>, email: Email, from: nat): (r: Option<nat>)
    requires from <= |rules|
    ensures r.None? <==> forall k :: from <= k < |rules| ==> !Matches(rules[k], email)
    ensures r.Some? ==>
      && from <= r.value < |rules|
      && Matches(rules[r.value], email)
      && (forall k :: from <= k < r.value ==> !Matches(rules[k], email))
    decreases |rules| - from
  {
    if from == |rules| then None
    else if Matches(rules[from], email) then Some(from)
    else FirstMatchFrom(rules, email, from + 1)
  }

  function FirstMatch(rules: seq<Rule>, email: Email): (r: Option<nat>)
    ensures r.None? <==> forall k :: 0 <= k < |rules| ==> !Matches(rules[k], email)
    ensures r.Some? ==>
      && r.value < |rules|
      && Matches(rules[r.value], email)
      && (forall k :: 0 <= k < r.value ==> !Matches(rules[k], email))
  {
    FirstMatchFrom(rules, email, 0)
  }

  /** A `sender_exact` rule on an email's lower-cased address fires on it. */
  lemma ExactRuleFires(rule: Rule, email: Email)
    requires rule.ruleType == SenderExact && rule.pattern == Lower(email.senderEmail)
    ensures Matches(rule, email)
  {
    LowerIdempotent(email.senderEmail);
  }

  /** A `sender_domain` rule on the domain part (`split('@')[1]`) of an
      email's lower-cased address fires on it. */
  lemma DomainRuleFires(rule: Rule, email: Email)
    requires '@' in Lower(email.senderEmail)
    requires rule.ruleType == SenderDomain && rule.pattern == Split(Lower(email.senderEmail), '@')[1]
    ensures Matches(rule, email)
  {
    var senderEmail := Lower(email.senderEmail);
    SplitSecondIsSlice(senderEmail, '@');
    var i, j :| 0 <= i <= j <= |senderEmail| && rule.pattern == senderEmail[i..j];
    LowerSlice(email.senderEmail, i, j);
    LowerSlice(senderEmail, i, j);
    LowerIdempotent(email.senderEmail);
    SliceContained(senderEmail, i, j);
    ContainsIff(senderEmail, rule.pattern);
  }

  /** The decision a matching rule produces. */
  function RuleDecision(rule: Rule): (d: AnalysisDecision)
    ensures d.action == rule.action && d.category == rule.category && d.confidence == rule.confidence
    ensures d.tier == RulesEngine
    ensures d.deletionCandidate <==> rule.action == Delete
    ensures d.importanceScore.None? && d.fraudScore.None?
  {
    AnalysisDecision(
      rule.action, rule.category, rule.confidence,
      "Rule match: " + rule.pattern + " (" + rule.ruleType + ")",
      RulesEngine, rule.action == Delete,
      "Learned pattern: " + rule.pattern, None, None)
  }

  /** What `analyze` answers for a given rule list: `None` when there are no
      rules or none fires, otherwise the first firing rule's decision. */
  function Verdict(rules: seq<Rule>, email: Email): (r: Option<AnalysisDecision>)
    ensures rules == [] ==> r.None?
    ensures r.Some? ==> r.value.tier == RulesEngine
    ensures r.None? <==> forall k :: 0 <= k < |rules| ==> !Matches(rules[k], email)
    ensures r.Some? ==> exists k ::
      && 0 <= k < |rules|
      && Matches(rules[k], email)
      && (forall j :: 0 <= j < k ==> !Matches(rules[j], email))
      && r.value == RuleDecision(rules[k])
  {
    if rules == [] then None
    else match FirstMatch(rules, email)
      case None => None
      case Some(k) => Some(RuleDecision(rules[k]))
  }

  /** What `_load_rules_from_database` leaves in the cache. */
  function Loaded(reachable: bool, rows: seq<RuleRow>): seq<Rule> {
    if reachable then LoadActiveRules(rows) else []
  }

  /** The list `_get_active_rules` returns: the cache, or a fresh load when
      the cache is unloaded. */
  function ActiveRules(cache: Option<seq<Rule>>, reachable: bool, rows: seq<RuleRow>): seq<Rule> {
    match cache
    case Some(rs) => rs
    case None => Loaded(reachable, rows)
  }

  /** The rule rows once `analyze` has scanned `rules`: the first matching
      rule's use count goes up by one. */
  function AfterAnalyze(rules: seq<Rule>, email: Email, reachable: bool, rows: seq<RuleRow>): (r: seq<RuleRow>)
    ensures FirstMatch(rules, email).None? || !reachable ==> r == rows
    ensures |r| == |rows|
  {
    match FirstMatch(rules, email)
    case Some(k) => if reachable then Bumped(rows, rules[k].id) else rows
    case None => rows
  }

  class RulesEngine {
    const db: Database
    var rulesCache: Option<seq<Rule>>

    /** `__init__`: an unloaded cache, then `_check_for_new_rules`. */
    constructor (db: Database)
      ensures this.db == db
      ensures rulesCache == Some(Loaded(db.reachable, db.rules))
    {
      this.db := db;
      rulesCache := None;
      new;
      CheckForNewRules();
    }

    /** `_check_for_new_rules`: loads only an unloaded cache; an unreachable
        database leaves the empty list whatever the cache held. */
    method CheckForNewRules()
      modifies this`rulesCache
      ensures rulesCache ==
        if !db.reachable then Some([])
        else if old(rulesCache).None? then Some(Loaded(db.reachable, db.rules))
        else old(rulesCache)
    {
      if !db.reachable {
        rulesCache := Some([]);
      } else if rulesCache.None? {
        if ActiveCount(db.rules) > 0 {
          LoadRulesFromDatabase();
        } else {
          NoActiveLoadsEmpty(db.rules);
          rulesCache := Some([]);
        }
      }
    }

    /** `_load_rules_from_database` */
    method LoadRulesFromDatabase()
      modifies this`rulesCache
      ensures rulesCache == Some(Loaded(db.reachable, db.rules))
    {
      if db.reachable {
        rulesCache := Some(LoadActiveRules(db.rules));
      } else {
        rulesCache := Some([]);
      }
    }

    /** `_get_active_rules`: reloads only when the cache is unloaded. */
    method GetActiveRules() returns (rules: seq<Rule>)
      modifies this`rulesCache
      ensures rules == ActiveRules(old(rulesCache), db.reachable, db.rules)
      ensures rulesCache == Some(rules)
    {
      if rulesCache.None? {
        LoadRulesFromDatabase();
      }
      rules := rulesCache.value;
    }

    /** `analyze`: scans the rules in cache order and returns the first
        match's decision, recording one more use of that rule. */
    method Analyze(email: Email) returns (d: Option<AnalysisDecision>)
      requires db.Valid()
      modifies this`rulesCache, db`rules
      ensures db.Valid()
      ensures rulesCache == Some(ActiveRules(old(rulesCache), db.reachable, old(db.rules)))
      ensures d == Verdict(rulesCache.value, email)
      ensures db.rules == AfterAnalyze(rulesCache.value, email, db.reachable, old(db.rules))
    {
      var rules := GetActiveRules();
      if rules == [] {
        return None;
      }
      var sender := Lower(email.sender);
      var subject := Lower(email.subject);
      var senderEmail := Lower(email.senderEmail);
      var i := 0;
      while i < |rules|
        invariant 0 <= i <= |rules|
        invariant forall k :: 0 <= k < i ==> !Matches(rules[k], email)
        invariant rulesCache == Some(rules) && db.rules == old(db.rules)
      {
        if CheckRuleMatch(rules[i], sender, subject, senderEmail) {
          assert FirstMatch(rules, email) == Some(i);
          db.IncrementTimesMatched(rules[i].id);
          return Some(RuleDecision(rules[i]));
        }
        i := i + 1;
      }
      return None;
    }

    /** `add_learned_rule`: the upsert, then an unloaded cache on success. */
    method AddLearnedRule(req: RuleRequest) returns (ok: bool)
      requires db.Valid()
      modifies this`rulesCache, db`rules
      ensures db.Valid()
      ensures ok == db.reachable
      ensures db.rules == if ok then Upsert(old(db.rules), req) else old(db.rules)
      ensures rulesCache == if ok then None else old(rulesCache)
    {
      ok := db.UpsertRule(req);
      if ok {
        InvalidateCache();
      }
    }

    /** `invalidate_cache` */
    method InvalidateCache()
      modifies this`rulesCache
      ensures rulesCache.None?
    {
      rulesCache := None;
    }
  }
}

=== FILE: tier1_bert_classifier.dfy ===
/** Tier 1 (analyzers/tier1_bert_classifier.py): a BERT classifier behind a
    model-state machine and a 0.75 confidence floor. Loading a model, the
    training-batch query and the pipeline call are outside the model; what
    they would do is given as a `ModelEnv` and a `pipelineOk` flag. */
module Tier1 {

  import opened Optional
  import opened Text
  import opened Decisions

  datatype BertModelState = NotInitialized | Ready | Training | Failed | Loading

  const BaseVersion: string := "base_bert_v1.0"
  const ConfidenceFloor: real := 0.75

  /** The latest completed training batch, as `_get_latest_model` finds it,
      with what loading it would do. */
  datatype ModelInfo = ModelInfo(version: string, fileExists: bool, loads: bool)

  /** What model loading would meet: the latest batch (if the query finds one)
      and whether loading the base model succeeds. */
  datatype ModelEnv = ModelEnv(latest: Option<ModelInfo>, baseLoads: bool)

  /** The version `_load_base_model` / `_load_trained_model` install, or
      `None` when the load raises. A trained model whose file is missing or
      fails to load falls back to the base model. */
  function LoadedVersion(env: ModelEnv): (r: Option<string>)
    ensures r.Some? && r.value != BaseVersion ==>
      env.latest.Some? && r.value == env.latest.value.version
      && env.latest.value.fileExists && env.latest.value.loads
    ensures r.None? <==> !env.baseLoads && !(env.latest.Some? && env.latest.value.fileExists && env.latest.value.loads)
    ensures env.latest.None? ==> r == (if env.baseLoads then Some(BaseVersion) else None)
  {
    match env.latest
    case Some(info) =>
      if info.fileExists && info.loads then Some(info.version)
      else if env.baseLoads then Some(BaseVersion)
      else None
    case None =>
      if env.baseLoads then Some(BaseVersion) else None
  }

  /** `BERTClassificationResult` without its timing. */
  datatype BertResult = BertResult(category: string, action: string, confidence: real, modelVersion: string)

  /** `_map_bert_output_to_categories`: both branches answer UNKNOWN / KEEP
      at 0.30, below the floor. */
  function MapBertOutput(version: string): (r: (string, string, real))
    ensures r.2 < ConfidenceFloor
    ensures r.0 == CategoryName(Unknown) && r.1 == ActionName(Keep)
  {
    if version == BaseVersion then ("UNKNOWN", "KEEP", 0.30)
    else ("UNKNOWN", "KEEP", 0.30)
  }

  /** `_classify_with_bert`; `pipelineOk` is whether the pipeline call returns. */
  function ClassifyWithBert(version: string, pipelineOk: bool): (r: Option<BertResult>)
    ensures r.Some? ==> r.value.modelVersion == version && r.value.confidence < ConfidenceFloor
  {
    if !pipelineOk then None
    else
      var (category, action, confidence) := MapBertOutput(version);
      Some(BertResult(category, action, confidence, version))
  }

  /** The acceptance part of `analyze`: a result below the floor or with a
      name that is not a category / action escalates. */
  function AcceptBert(res: Option<BertResult>): (r: Option<AnalysisDecision>)
    ensures res.None? ==> r.None?
    ensures res.Some? && res.value.confidence < ConfidenceFloor ==> r.None?
    ensures r.Some? ==>
      && res.Some?
      && r.value.confidence == res.value.confidence >= ConfidenceFloor
      && ActionName(r.value.action) == res.value.action
      && CategoryName(r.value.category) == res.value.category
      && r.value.tier == BertClassifier
      && (r.value.deletionCandidate <==> r.value.action == Delete)
    ensures (res.Some? && res.value.confidence >= ConfidenceFloor
             && ParseAction(res.value.action).Some? && ParseCategory(res.value.category).Some?) ==> r.Some?
  {
    match res
    case None => None
    case Some(b) =>
      if b.confidence < ConfidenceFloor then None
      else match (ParseAction(b.action), ParseCategory(b.category))
        case (Some(action), Some(category)) =>
          Some(AnalysisDecision(
            action, category, b.confidence,
            "BERT classification (" + b.modelVersion + ")", BertClassifier,
            b.action == "DELETE", "BERT classified as " + b.category, None, None))
        case _ => None
  }

  /** The non-empty parts `_prepare_input_text` joins, in order, from the
      stripped subject, sender and snippet. */
  function InputParts(subject: string, sender: string, snippet: string): (parts: seq<string>)
    ensures |parts| <= 3
    ensures forall k :: 0 <= k < |parts| ==> parts[k] != ""
    ensures |parts| == 0 <==> subject == "" && sender == "" && snippet == ""
    ensures |parts| == (if subject != "" then 1 else 0) + (if sender != "" then 1 else 0) + (if snippet != "" then 1 else 0)
    ensures subject != "" ==> parts[0] == "Subject: " + subject
    ensures sender != "" ==> parts[if subject != "" then 1 else 0] == "From: " + sender
    ensures snippet != "" ==> parts[|parts| - 1] == "Preview: " + Take(snippet, 200)
  {
    var a: seq<string> := if subject != "" then ["Subject: " + subject] else [];
    var b: seq<string> := if sender != "" then ["From: " + sender] else [];
    var c: seq<string> := if snippet != "" then ["Preview: " + Take(snippet, 200)] else [];
    a + b + c
  }

  /** Joining non-empty parts gives the empty string only for no parts. */
  lemma {:induction false} JoinNonEmpty(parts: seq<string>, sep: string)
    requires forall k :: 0 <= k < |parts| ==> parts[k] != ""
    ensures Join(parts, sep) == "" <==> parts == []
    ensures parts != [] ==> IsPrefix(parts[0], Join(parts, sep))
    decreases |parts|
  {
    if |parts| > 1 {
      JoinNonEmpty(parts[1..], sep);
      assert Join(parts, sep) == parts[0] + (sep + Join(parts[1..], sep));
    }
  }

  /** Three parts joined: the first, the separator, the second, the
      separator, the third. */
  lemma JoinThree(a: string, b: string, c: string, sep: string)
    ensures Join([a, b, c], sep) == a + sep + b + sep + c
  {
    assert [a, b, c][1..] == [b, c];
    assert [b, c][1..] == [c];
    assert Join([b, c], sep) == b + sep + c;
    assert Join([a, b, c], sep) == a + sep + (b + sep + c);
  }

  /** The input text of already stripped fields: the " | "-join of their
      parts, empty exactly when every field is. */
  function InputText(subject: string, sender: string, snippet: string): (r: string)
    ensures r == Join(InputParts(subject, sender, snippet), " | ")
    ensures r == "" <==> subject == "" && sender == "" && snippet == ""
    ensures subject != "" ==> IsPrefix("Subject: " + subject, r)
    ensures subject != "" && sender != "" && snippet != "" ==>
      r == ("Subject: " + subject) + " | " + ("From: " + sender) + " | " + ("Preview: " + Take(snippet, 200))
  {
    var parts := InputParts(subject, sender, snippet);
    JoinNonEmpty(parts, " | ");
    if subject != "" && sender != "" && snippet != "" then
      AllPartsJoined(subject, sender, snippet);
      Join(parts, " | ")
    else
      Join(parts, " | ")
  }

  /** With every field present the text has all three parts. */
  lemma AllPartsJoined(subject: string, sender: string, snippet: string)
    requires subject != "" && sender != "" && snippet != ""
    ensures Join(InputParts(subject, sender, snippet), " | ") ==
      ("Subject: " + subject) + " | " + ("From: " + sender) + " | " + ("Preview: " + Take(snippet, 200))
  {
    var parts := InputParts(subject, sender, snippet);
    assert parts == [parts[0], parts[1], parts[2]];
    JoinThree(parts[0], parts[1], parts[2], " | ");
  }

  /** `_prepare_input_text`: "Subject: … | From: … | Preview: …" over the
      stripped subject, sender and snippet, with empty parts left out. */
  function PrepareInputText(email: Email): (r: string)
    ensures r == InputText(Strip(email.subject), Strip(email.sender), Strip(email.snippet))
    ensures r == "" <==> Strip(email.subject) == "" && Strip(email.sender) == "" && Strip(email.snippet) == ""
  {
    InputText(Strip(email.subject), Strip(email.sender), Strip(email.snippet))
  }

  class BertClassifier {
    const transformersAvailable: bool
    var modelState: BertModelState
    var currentModelVersion: Option<string>
    /** Every state `model_state` has been set to, in order. */
    ghost var stateHistory: seq<BertModelState>

    ghost predicate Valid()
      reads this
    {
      (modelState == Ready ==> transformersAvailable && currentModelVersion.Some?)
      && (stateHistory != [] ==> stateHistory[|stateHistory| - 1] == modelState)
    }

    /** `__init__`: NOT_INITIALIZED, then `_initialize_model`. */
    constructor (transformersAvailable: bool, env: ModelEnv)
      ensures Valid()
      ensures this.transformersAvailable == transformersAvailable
      ensures modelState == InitializedState(transformersAvailable, env)
      ensures currentModelVersion == (if transformersAvailable then LoadedVersion(env) else None)
    {
      this.transformersAvailable := transformersAvailable;
      modelState := NotInitialized;
      currentModelVersion := None;
      stateHistory := [NotInitialized];
      new;
      InitializeModel(env);
    }

    /** `_initialize_model`: FAILED without transformers; otherwise LOADING,
        then READY when a model loads and FAILED when loading raises. */
    method InitializeModel(env: ModelEnv)
      requires Valid()
      modifies this`modelState, this`currentModelVersion, this`stateHistory
      ensures Valid()
      ensures modelState == InitializedState(transformersAvailable, env)
      ensures IsReadyForTraining() <==> modelState == Ready
      ensures currentModelVersion ==
        if transformersAvailable && LoadedVersion(env).Some? then LoadedVersion(env) else old(currentModelVersion)
      ensures stateHistory == old(stateHistory) +
        if transformersAvailable then [Loading, modelState] else [Failed]
    {
      if !transformersAvailable {
        modelState := Failed;
        stateHistory := stateHistory + [Failed];
        return;
      }
      modelState := Loading;
      stateHistory := stateHistory + [Loading];
      var loaded := LoadedVersion(env);
      if loaded.Some? {
        currentModelVersion := loaded;
        modelState := Ready;
      } else {
        modelState := Failed;
      }
      stateHistory := stateHistory + [modelState];
    }

    /** `set_training_state`: TRAINING, or a fresh `_initialize_model`. */
    method SetTrainingState(training: bool, env: ModelEnv)
      requires Valid()
      modifies this`modelState, this`currentModelVersion, this`stateHistory
      ensures Valid()
      ensures training ==> (
        && modelState == Training
        && !IsReadyForTraining()
        && currentModelVersion == old(currentModelVersion)
        && stateHistory == old(stateHistory) + [Training])
      ensures !training ==> (
        && modelState == InitializedState(transformersAvailable, env)
        && (IsReadyForTraining() <==> modelState == Ready)
        && stateHistory == old(stateHistory) + (if transformersAvailable then [Loading, modelState] else [Failed])
        && currentModelVersion ==
             if transformersAvailable && LoadedVersion(env).Some? then LoadedVersion(env) else old(currentModelVersion))
    {
      if training {
        modelState := Training;
        stateHistory := stateHistory + [Training];
      } else {
        InitializeModel(env);
      }
    }

    /** `is_ready_for_training` */
    function IsReadyForTraining(): bool
      reads this
    {
      transformersAvailable && modelState in {Ready, NotInitialized}
    }

    /** `analyze`: escalates unless transformers are present and the model is
        READY, then applies the floor to the pipeline's answer. */
    function Verdict(email: Email, pipelineOk: bool): (r: Option<AnalysisDecision>)
      reads this
      ensures !transformersAvailable || modelState != Ready ==> r.None?
      ensures r.Some? ==> r.value.tier == BertClassifier && r.value.confidence >= ConfidenceFloor
    {
      if !transformersAvailable || modelState != Ready || currentModelVersion.None? then None
      else AcceptBert(ClassifyWithBert(currentModelVersion.value, pipelineOk))
    }
  }

  /** The state `_initialize_model` ends in. */
  function InitializedState(transformersAvailable: bool, env: ModelEnv): (s: BertModelState)
    ensures s == Ready || s == Failed
    ensures s == Ready <==> transformersAvailable && LoadedVersion(env).Some?
  {
    if transformersAvailable && LoadedVersion(env).Some? then Ready else Failed
  }

  /** With the output mapping as it stands, Tier 1 never accepts an email. */
  lemma NeverAccepts(c: BertClassifier, email: Email, pipelineOk: bool)
    ensures c.Verdict(email, pipelineOk).None?
  {
  }
}

=== FILE: tier2_fast_ollama.dfy ===
/** Tier 2 (analyzers/tier2_fast_ollama.py): a fast LLM asked with up to
    three cached few-shot examples; its JSON answer is extracted, repaired
    when malformed, and accepted only above 0.75 and never as UNKNOWN. A
    very confident answer teaches Tier 0 a sender or domain rule. The HTTP
    call is the oracle `llm` and `json.loads` the oracle `decode`. */
module Tier2 {

  import opened Optional
  import opened Text
  import opened Json
  import opened Decisions
  import opened Store
  import Tier0

  const ConfidenceFloor: real := 0.75
  const RuleFloor: real := 0.95
  const ExampleLimit: nat := 5
  const PromptExamples: nat := 3
  const RequiredFields: set<string> := {"category", "action", "confidence"}
  const PromotionalKeywords: seq<string> :=
    ["noreply", "no-reply", "newsletter", "marketing", "promotions", "deals", "offers"]

  /** What `_build_classification_prompt` puts in the prompt, without its
      fixed wording. */
  datatype FastPrompt = FastPrompt(
    examples: seq<ExampleRow>,
    subject: string,
    sender: string,
    date: string,
    hasAttachments: bool,
    preview: string)

  /** `str(date_sent)[:n] if date_sent else 'Unknown'` */
  function DateText(dateSent: string, n: nat): (r: string)
    ensures dateSent == "" ==> r == "Unknown"
    ensures dateSent != "" ==> |r| == (if |dateSent| < n then |dateSent| else n) && IsPrefix(r, dateSent)
  {
    if dateSent != "" then Take(dateSent, n) else "Unknown"
  }

  /** The prompt: the first three cached examples when the cache holds any,
      and a 300-character preview of the snippet. */
  function BuildPrompt(cache: Option<seq<ExampleRow>>, email: Email): (p: FastPrompt)
    ensures |p.examples| <= PromptExamples
    ensures cache.None? ==> p.examples == []
    ensures cache.Some? ==> (
      && |p.examples| == (if |cache.value| < 3 then |cache.value| else 3)
      && p.examples == cache.value[..|p.examples|])
    ensures |p.preview| == (if |email.snippet| < 300 then |email.snippet| else 300) && IsPrefix(p.preview, email.snippet)
    ensures p.date == (if email.dateSent == "" then "Unknown" else email.dateSent[..if |email.dateSent| < 10 then |email.dateSent| else 10])
  {
    var examples := if cache.Some? && cache.value != [] then Take(cache.value, PromptExamples) else [];
    FastPrompt(examples, email.subject, email.sender, DateText(email.dateSent, 10),
               email.hasAttachments, Take(email.snippet, 300))
  }

  // ---- `_repair_json`, step by step ----

  /** Appends the '}' characters a truncated object is missing: exactly as
      many as '{' outnumbers '}', and nothing else. */
  function CloseBraces(s: string): (r: string)
    ensures IsPrefix(s, r)
    ensures r[|s|..] == Repeat('}', if multiset(s)['{'] > multiset(s)['}'] then multiset(s)['{'] - multiset(s)['}'] else 0)
    ensures multiset(r)['{'] == multiset(s)['{']
    ensures multiset(r)['{'] <= multiset(r)['}']
  {
    var open := multiset(s)['{'];
    var close := multiset(s)['}'];
    if open > close then s + Repeat('}', open - close) else s
  }

  /** `re.search(r':\s*"[^"]*$', s)`: the last '"' opens a string value
      that is never closed. */
  predicate OpenStringAtEnd(s: string) {
    match LastIndexOf(s, '"')
    case None => false
    case Some(q) =>
      var before := TrimRight(s[..q], IsSpace);
      before != [] && before[|before| - 1] == ':'
  }

  /** The two truncation fixes: a string that ends on '"' (but not on '"}'),
      and then an unterminated last string value, each get '"}' appended. */
  function CloseStrings(s: string): (r: string)
    ensures multiset(r)['{'] == multiset(s)['{']
    ensures multiset(r)['}'] >= multiset(s)['}']
  {
    var s1 := if EndsWith(s, "\"") && !EndsWith(s, "\"}") then s + "\"}" else s;
    if OpenStringAtEnd(s1) then s1 + "\"}" else s1
  }

  /** `re.sub(r',\s*' + close, close, s)`: a comma followed only by
      whitespace before `close` is removed with that whitespace. */
  function DropTrailingCommas(s: string, close: char): string
    decreases |s|
  {
    if s == [] then []
    else if s[0] == ',' then
      var rest := TrimLeft(s[1..], IsSpace);
      if rest != [] && rest[0] == close then [close] + DropTrailingCommas(rest[1..], close)
      else [s[0]] + DropTrailingCommas(s[1..], close)
    else [s[0]] + DropTrailingCommas(s[1..], close)
  }

  /** Leading whitespace holds no non-space character. */
  lemma TrimKeepsCount(t: string, c: char)
    requires !IsSpace(c)
    ensures multiset(TrimLeft(t, IsSpace))[c] == multiset(t)[c]
  {
    var r := TrimLeft(t, IsSpace);
    var k := |t| - |r|;
    assert multiset(t[..k])[c] == 0 by {
      assert c !in t[..k];
    }
    assert multiset(t)[c] == multiset(t[..k])[c] + multiset(r)[c] by {
      assert t == t[..k] + r;
    }
  }

  /** Counting over a string built from a first character and the rest. */
  lemma CountCons(x: char, s: string, c: char)
    ensures multiset([x] + s)[c] == (if x == c then 1 else 0) + multiset(s)[c]
  {
  }

  /** Counting over a non-empty string: its first character, then the rest. */
  lemma CountHead(s: string, c: char)
    requires s != []
    ensures multiset(s)[c] == (if s[0] == c then 1 else 0) + multiset(s[1..])[c]
  {
    assert s == [s[0]] + s[1..];
  }

  /** Removing trailing commas keeps every character that is neither a comma
      nor whitespace, as often as it occurred. */
  lemma {:induction false} DropKeepsCount(s: string, close: char, c: char)
    requires c != ',' && !IsSpace(c)
    ensures multiset(DropTrailingCommas(s, close))[c] == multiset(s)[c]
    decreases |s|
  {
    if s != [] {
      CountHead(s, c);
      var rest := TrimLeft(s[1..], IsSpace);
      if s[0] == ',' && rest != [] && rest[0] == close {
        DropKeepsCount(rest[1..], close, c);
        CountCons(close, DropTrailingCommas(rest[1..], close), c);
        TrimKeepsCount(s[1..], c);
        CountHead(rest, c);
      } else {
        DropKeepsCount(s[1..], close, c);
        CountCons(s[0], DropTrailingCommas(s[1..], close), c);
      }
    }
  }

  /** Removing trailing commas only deletes characters. */
  lemma {:induction false} DropShrinks(s: string, close: char)
    ensures multiset(DropTrailingCommas(s, close)) <= multiset(s)
    decreases |s|
  {
    if s != [] {
      assert s == [s[0]] + s[1..];
      var rest := TrimLeft(s[1..], IsSpace);
      if s[0] == ',' && rest != [] && rest[0] == close {
        DropShrinks(rest[1..], close);
        assert rest == [close] + rest[1..];
        assert s[1..] == s[1..][..|s[1..]| - |rest|] + rest;
      } else {
        DropShrinks(s[1..], close);
      }
    }
  }

  /** Both trailing-comma rewrites, '}' first and then ']': what they delete
      is commas and whitespace only, every other character is kept as often
      as it occurred. */
  function DropAllTrailingCommas(s: string): (r: string)
    ensures multiset(r) <= multiset(s)
    ensures forall c :: c != ',' && !IsSpace(c) ==> multiset(r)[c] == multiset(s)[c]
    ensures multiset(r)['{'] == multiset(s)['{']
    ensures multiset(r)['}'] == multiset(s)['}']
  {
    var s1 := DropTrailingCommas(s, '}');
    DropBothKeeps(s, s1, DropTrailingCommas(s1, ']'));
    DropTrailingCommas(s1, ']')
  }

  /** The two rewrites in turn delete nothing but commas and whitespace. */
  lemma DropBothKeeps(s: string, s1: string, r: string)
    requires s1 == DropTrailingCommas(s, '}') && r == DropTrailingCommas(s1, ']')
    ensures multiset(r) <= multiset(s)
    ensures forall c :: c != ',' && !IsSpace(c) ==> multiset(r)[c] == multiset(s)[c]
  {
    DropShrinks(s, '}');
    DropShrinks(s1, ']');
    forall c | c != ',' && !IsSpace(c) ensures multiset(r)[c] == multiset(s)[c] {
      DropKeepsCount(s, '}', c);
      DropKeepsCount(s1, ']', c);
    }
  }

  /** The literal replacements: single quotes become double quotes, then
      Python's True, False and None become JSON's true, false and null. */
  function NormaliseLiterals(s: string): (r: string)
    ensures multiset(r)['{'] == multiset(s)['{']
    ensures multiset(r)['}'] == multiset(s)['}']
    ensures '\'' !in r
    ensures !Contains(r, "True") && !Contains(r, "False") && !Contains(r, "None")
  {
    var s1 := ReplaceAll(s, "'", "\"");
    var s2 := ReplaceAll(s1, "True", "true");
    var s3 := ReplaceAll(s2, "False", "false");
    ReplaceCharRemoves(s, '\'', "\"");
    assert multiset(s1)['\''] == 0;
    ReplaceKeepsCount(s1, "True", "true", '\'');
    ReplaceKeepsCount(s2, "False", "false", '\'');
    ReplaceKeepsCount(s3, "None", "null", '\'');
    ReplaceKeepsCount(s, "'", "\"", '{');
    ReplaceKeepsCount(s1, "True", "true", '{');
    ReplaceKeepsCount(s2, "False", "false", '{');
    ReplaceKeepsCount(s3, "None", "null", '{');
    ReplaceKeepsCount(s, "'", "\"", '}');
    ReplaceKeepsCount(s1, "True", "true", '}');
    ReplaceKeepsCount(s2, "False", "false", '}');
    ReplaceKeepsCount(s3, "None", "null", '}');
    LiteralsGone(s1, s2, s3, ReplaceAll(s3, "None", "null"));
    ReplaceAll(s3, "None", "null")
  }

  /** No JSON literal can re-form a Python literal: no proper suffix of
      True, False or None begins true, false or null. */
  lemma LiteralsCannotReform()
    ensures NoSuffixStarts("True", "true") && NoSuffixStarts("True", "false") && NoSuffixStarts("True", "null")
    ensures NoSuffixStarts("False", "false") && NoSuffixStarts("False", "null")
    ensures NoSuffixStarts("None", "null")
  {
    NoSuffixStartsByHead("True", "true");
    NoSuffixStartsByHead("True", "false");
    NoSuffixStartsByHead("True", "null");
    NoSuffixStartsByHead("False", "false");
    NoSuffixStartsByHead("False", "null");
    forall j | 1 <= j < 4 ensures !IsPrefix("None"[j..], "null") {
      if j == 2 {
        assert "None"[2..] == "ne" && "null"[..2] == "nu";
      } else {
        assert "None"[j..][0] == "None"[j] != 'n';
      }
    }
  }

  /** A suffix that starts with a character other than the first of `rep`
      does not begin `rep`. */
  lemma NoSuffixStartsByHead(p: string, rep: string)
    requires rep != [] && forall j :: 1 <= j < |p| ==> p[j] != rep[0]
    ensures NoSuffixStarts(p, rep)
  {
    forall j | 1 <= j < |p| ensures !IsPrefix(p[j..], rep) {
      assert p[j..][0] == p[j];
    }
  }

  /** The three literal replacements leave none of True, False and None. */
  lemma LiteralsGone(s1: string, s2: string, s3: string, r: string)
    requires s2 == ReplaceAll(s1, "True", "true")
    requires s3 == ReplaceAll(s2, "False", "false")
    requires r == ReplaceAll(s3, "None", "null")
    ensures !Contains(r, "True") && !Contains(r, "False") && !Contains(r, "None")
  {
    LiteralsCannotReform();
    ReplaceLeavesNone(s1, "True", "true", "True");
    ReplaceLeavesNone(s2, "False", "false", "True");
    ReplaceLeavesNone(s2, "False", "false", "False");
    ReplaceLeavesNone(s3, "None", "null", "True");
    ReplaceLeavesNone(s3, "None", "null", "False");
    ReplaceLeavesNone(s3, "None", "null", "None");
  }

  /** `_repair_json` without its two regex rewrites of embedded quotes and
      bare keys: the result never has more '{' than '}', holds no single
      quote and none of Python's literals True, False and None. */
  function RepairJson(s: string): (r: string)
    ensures multiset(r)['{'] <= multiset(r)['}']
    ensures '\'' !in r
    ensures !Contains(r, "True") && !Contains(r, "False") && !Contains(r, "None")
  {
    NormaliseLiterals(DropAllTrailingCommas(CloseStrings(CloseBraces(s))))
  }

  /** `_parse_ollama_response`: the extracted object is decoded, and decoded
      again after repair when the first decode fails; it must be an object
      with category, action and confidence. */
  function ParseResponse(text: string, decode: string -> Option<Json>): (r: Option<JsonObject>)
    ensures r.Some? ==> HasFields(r.value, RequiredFields)
    ensures ExtractJsonObject(text).None? ==> r.None?
    ensures ExtractJsonObject(text).Some? && decode(ExtractJsonObject(text).value).Some? ==>
      r == RequireFields(decode(ExtractJsonObject(text).value), RequiredFields)
    ensures ExtractJsonObject(text).Some? && decode(ExtractJsonObject(text).value).None? ==>
      r == RequireFields(decode(RepairJson(ExtractJsonObject(text).value)), RequiredFields)
  {
    match ExtractJsonObject(text)
    case None => None
    case Some(s) =>
      match decode(s)
      case Some(j) => RequireFields(Some(j), RequiredFields)
      case None => RequireFields(decode(RepairJson(s)), RequiredFields)
  }

  /** The acceptance gates of `analyze`: UNKNOWN always escalates; so does a
      confidence below 0.75, one that is not a number, and an action or
      category that is not a member of its enumeration. */
  function Gate(c: JsonObject): (r: Option<AnalysisDecision>)
    requires HasFields(c, RequiredFields)
    ensures c["category"] == JString("UNKNOWN") ==> r.None?
    ensures NumericValue(c["confidence"]).None? ==> r.None?
    ensures NumericValue(c["confidence"]).Some? && NumericValue(c["confidence"]).value < ConfidenceFloor ==> r.None?
    ensures r.Some? ==>
      && r.value.category != Unknown
      && r.value.confidence >= ConfidenceFloor
      && r.value.confidence == NumericValue(c["confidence"]).value
      && c["action"] == JString(ActionName(r.value.action))
      && c["category"] == JString(CategoryName(r.value.category))
      && r.value.tier == FastOllama
      && (r.value.deletionCandidate <==> r.value.action == Delete)
    ensures r.Some? ==> r.value.reasoning == StringOr(c, "reasoning", "Fast Ollama classification")
    ensures (&& NumericValue(c["confidence"]).Some?
             && NumericValue(c["confidence"]).value >= ConfidenceFloor
             && c["action"].JString? && ParseAction(c["action"].s).Some?
             && c["category"].JString? && ParseCategory(c["category"].s).Some?
             && c["category"] != JString("UNKNOWN")) ==> r.Some?
  {
    var category := c["category"];
    if category == JString("UNKNOWN") then None
    else match NumericValue(c["confidence"])
      case None => None
      case Some(confidence) =>
        if confidence < ConfidenceFloor then None
        else if !c["action"].JString? || !category.JString? then None
        else match (ParseAction(c["action"].s), ParseCategory(category.s))
          case (Some(action), Some(cat)) =>
            Some(AnalysisDecision(
              action, cat, confidence,
              StringOr(c, "reasoning", "Fast Ollama classification"),
              FastOllama, action == Delete,
              StringOr(c, "deletion_reason", ""),
              IntOrNone(c, "importance_score"), IntOrNone(c, "fraud_score")))
          case _ => None
  }

  /** `_create_tier0_rules`: only at confidence 0.95 or more and for a
      sender address with '@'. A KEEP on WORK, FINANCIAL, PERSONAL or
      HEALTH whitelists the address at min(c - 0.02, 0.95); a DELETE on
      PROMOTIONAL or SPAM blacklists a domain carrying a promotional keyword
      at min(c - 0.05, 0.90). Never a subject rule. */
  function RuleRequestFor(email: Email, confidence: real, action: EmailAction, category: EmailCategory): (r: Option<RuleRequest>)
    ensures r.Some? ==> confidence >= RuleFloor && '@' in Lower(email.senderEmail)
    ensures r.Some? ==> r.value.createdByTier == 2 && r.value.confidence < confidence
    ensures r.Some? ==> r.value.action == action
    ensures r.Some? && r.value.ruleType == Tier0.SenderExact ==>
      && action == Keep && category in {Work, Financial, Personal, Health}
      && r.value.pattern == Lower(email.senderEmail)
      && r.value.category == category
      && r.value.confidence == (if confidence - 0.02 < 0.95 then confidence - 0.02 else 0.95)
    ensures r.Some? && r.value.ruleType != Tier0.SenderExact ==>
      && r.value.ruleType == Tier0.SenderDomain
      && action == Delete && category in {Promotional, Spam}
      && r.value.pattern == Split(Lower(email.senderEmail), '@')[1]
      && r.value.category == Promotional
      && r.value.confidence == (if confidence - 0.05 < 0.90 then confidence - 0.05 else 0.90)
      && exists k :: 0 <= k < |PromotionalKeywords| && Contains(r.value.pattern, PromotionalKeywords[k])
    ensures (confidence >= RuleFloor && '@' in Lower(email.senderEmail) && action == Keep
             && category in {Work, Financial, Personal, Health}) ==> r.Some?
    ensures (confidence >= RuleFloor && '@' in Lower(email.senderEmail) && action == Delete
             && category in {Promotional, Spam}
             && exists k :: 0 <= k < |PromotionalKeywords|
                  && Contains(Split(Lower(email.senderEmail), '@')[1], PromotionalKeywords[k])) ==>
      r.Some? && r.value.ruleType == Tier0.SenderDomain
  {
    var senderEmail := Lower(email.senderEmail);
    if confidence < RuleFloor || senderEmail == "" || '@' !in senderEmail then None
    else if action == Keep && category in {Work, Financial, Personal, Health} then
      Some(RuleRequest(Tier0.SenderExact, senderEmail, Keep, category,
                       if confidence - 0.02 < 0.95 then confidence - 0.02 else 0.95, 2))
    else if action == Delete && category in {Promotional, Spam} then
      var domain := Split(senderEmail, '@')[1];
      if exists k :: 0 <= k < |PromotionalKeywords| && Contains(domain, PromotionalKeywords[k]) then
        Some(RuleRequest(Tier0.SenderDomain, domain, Delete, Promotional,
                         if confidence - 0.05 < 0.90 then confidence - 0.05 else 0.90, 2))
      else None
    else None
  }

  /** A rule Tier 2 teaches fires, in Tier 0, on the email it was learned
      from. */
  lemma TaughtRuleMatches(email: Email, confidence: real, action: EmailAction, category: EmailCategory, rule: Rule)
    requires RuleRequestFor(email, confidence, action, category).Some?
    requires rule.ruleType == RuleRequestFor(email, confidence, action, category).value.ruleType
    requires rule.pattern == RuleRequestFor(email, confidence, action, category).value.pattern
    ensures Tier0.Matches(rule, email)
  {
    if rule.ruleType == Tier0.SenderDomain {
      Tier0.DomainRuleFires(rule, email);
    } else {
      Tier0.ExactRuleFires(rule, email);
    }
  }

  /** The few-shot example `_create_few_shot_example` would record: the
      outer gate is above 0.90 and the inner one at 0.95 or more, so only
      the second decides. */
  function FewShotExampleFor(email: Email, confidence: real, c: JsonObject, action: EmailAction, category: EmailCategory): (r: Option<FewShotExample>)
    ensures r.Some? <==> confidence >= RuleFloor
    ensures r.Some? ==> r.value.tierLevel == 2 && r.value.bodyPreview.None?
    ensures r.Some? ==> |r.value.snippet| == (if |email.snippet| < 200 then |email.snippet| else 200) && IsPrefix(r.value.snippet, email.snippet)
  {
    if confidence > 0.90 && confidence >= RuleFloor then
      Some(FewShotExample(2, email.subject, email.sender, Take(email.snippet, 200), None,
                          category, action, StringOr(c, "reasoning", ""), confidence))
    else None
  }

  class FastOllama {
    const db: Database
    var fewShotExamples: Option<seq<ExampleRow>>

    /** `__init__`: loads the examples at once. */
    constructor (db: Database)
      ensures this.db == db
      ensures fewShotExamples == Some(if db.reachable then ExamplesFor(db.examples, 2, ExampleLimit) else [])
    {
      this.db := db;
      fewShotExamples := None;
      new;
      LoadFewShotExamples();
    }

    /** `_load_few_shot_examples`: the five active tier-2 rows, or the empty
        list when the query fails. */
    method LoadFewShotExamples()
      modifies this`fewShotExamples
      ensures fewShotExamples == Some(if db.reachable then ExamplesFor(db.examples, 2, ExampleLimit) else [])
    {
      if db.reachable {
        fewShotExamples := Some(ExamplesFor(db.examples, 2, ExampleLimit));
      } else {
        fewShotExamples := Some([]);
      }
    }

    /** The parsed answer for `email`; an empty or missing reply escalates. */
    function Classification(email: Email, llm: FastPrompt -> Option<string>, decode: string -> Option<Json>): (r: Option<JsonObject>)
      reads this
      ensures r.Some? ==> HasFields(r.value, RequiredFields)
    {
      match llm(BuildPrompt(fewShotExamples, email))
      case None => None
      case Some(reply) => if reply == "" then None else ParseResponse(reply, decode)
    }

    /** What `analyze` answers. */
    function Verdict(email: Email, llm: FastPrompt -> Option<string>, decode: string -> Option<Json>): (r: Option<AnalysisDecision>)
      reads this
      ensures r.Some? ==> r.value.tier == FastOllama && r.value.category != Unknown && r.value.confidence >= ConfidenceFloor
    {
      match Classification(email, llm, decode)
      case None => None
      case Some(c) => Gate(c)
    }

    /** The rule an accepted answer teaches Tier 0, if any. */
    function TaughtRule(email: Email, llm: FastPrompt -> Option<string>, decode: string -> Option<Json>): (r: Option<RuleRequest>)
      reads this
      ensures r.Some? ==> Verdict(email, llm, decode).Some? && r.value.confidence < Verdict(email, llm, decode).value.confidence
    {
      match Verdict(email, llm, decode)
      case None => None
      case Some(d) => RuleRequestFor(email, d.confidence, d.action, d.category)
    }

    /** `analyze`: the verdict, and for an accepted answer the learning step,
        whose only lasting effect is the rule upsert. */
    method Analyze(email: Email, llm: FastPrompt -> Option<string>, decode: string -> Option<Json>)
      returns (d: Option<AnalysisDecision>)
      requires db.Valid()
      modifies db`rules
      ensures db.Valid()
      ensures d == Verdict(email, llm, decode)
      ensures db.rules ==
        if db.reachable && TaughtRule(email, llm, decode).Some?
        then Upsert(old(db.rules), TaughtRule(email, llm, decode).value)
        else old(db.rules)
    {
      d := Verdict(email, llm, decode);
      if d.Some? {
        var req := RuleRequestFor(email, d.value.confidence, d.value.action, d.value.category);
        if req.Some? {
          var _ := db.UpsertRule(req.value);
        }
      }
    }

    /** `invalidate_examples_cache`: nothing reloads the cache afterwards. */
    method InvalidateExamplesCache()
      modifies this`fewShotExamples
      ensures fewShotExamples.None?
    {
      fewShotExamples := None;
    }
  }

  /** Once invalidated, prompts carry no examples. */
  lemma InvalidatedPromptHasNoExamples(email: Email)
    ensures BuildPrompt(None, email).examples == []
  {
  }
}

=== FILE: tier3_deep_ollama.dfy ===
/** Tier 3 (analyzers/tier3_deep_ollama.py): a larger LLM shown the body
    preview and all cached tier-3 examples; its answer needs a reasoning
    field and is accepted from 0.60, with no UNKNOWN veto. A very confident
    answer whose sender relationship is business or marketing teaches Tier 0
    a rule at a fixed confidence. */
module Tier3 {

  import opened Optional
  import opened Text
  import opened Json
  import opened Decisions
  import opened Store
  import Tier0

  const ConfidenceFloor: real := 0.60
  const RuleFloor: real := 0.95
  const ExampleLimit: nat := 3
  const RequiredFields: set<string> := {"category", "action", "confidence", "reasoning"}
  const MarketingKeywords: seq<string> := ["unsubscribe", "newsletter", "noreply", "marketing", "promotions"]

  /** `body_text[:2000] if body_text else snippet` */
  function BodyPreview(email: Email): (r: string)
    ensures email.bodyText != "" ==> |r| == (if |email.bodyText| < 2000 then |email.bodyText| else 2000) && IsPrefix(r, email.bodyText)
    ensures email.bodyText == "" ==> r == email.snippet
  {
    if email.bodyText != "" then Take(email.bodyText, 2000) else email.snippet
  }

  /** What `_build_deep_analysis_prompt` puts in the prompt, without its
      fixed wording. */
  datatype DeepPrompt = DeepPrompt(
    examples: seq<ExampleRow>,
    subject: string,
    sender: string,
    senderEmail: string,
    date: string,
    hasAttachments: bool,
    attachmentCount: nat,
    labels: string,
    bodyPreview: string,
    year: string)

  /** `str(date_sent)[:n] if date_sent else fallback` */
  function DatePrefix(dateSent: string, n: nat, fallback: string): (r: string)
    ensures dateSent == "" ==> r == fallback
    ensures dateSent != "" ==> |r| == (if |dateSent| < n then |dateSent| else n) && IsPrefix(r, dateSent)
  {
    if dateSent != "" then Take(dateSent, n) else fallback
  }

  /** The prompt: every cached example when the cache holds any. */
  function BuildPrompt(cache: Option<seq<ExampleRow>>, email: Email): (p: DeepPrompt)
    ensures cache.None? ==> p.examples == []
    ensures cache.Some? ==> p.examples == cache.value
    ensures p.bodyPreview == BodyPreview(email)
  {
    var examples := if cache.Some? && cache.value != [] then cache.value else [];
    DeepPrompt(examples, email.subject, email.sender, email.senderEmail,
               DatePrefix(email.dateSent, 10, "Unknown"), email.hasAttachments,
               email.attachmentCount,
               if email.labels != [] then Join(email.labels, ", ") else "None",
               BodyPreview(email), DatePrefix(email.dateSent, 4, "unknown"))
  }

  /** `_parse_ollama_response`: no repair; any decode failure escalates. */
  function ParseResponse(text: string, decode: string -> Option<Json>): (r: Option<JsonObject>)
    ensures r.Some? ==> HasFields(r.value, RequiredFields)
    ensures r.Some? ==> ExtractJsonObject(text).Some? && decode(ExtractJsonObject(text).value) == Some(JObject(r.value))
  {
    match ExtractJsonObject(text)
    case None => None
    case Some(s) => RequireFields(decode(s), RequiredFields)
  }

  /** The acceptance gate of `analyze`: below 0.60, a confidence that is not
      a number, or an action or category outside its enumeration escalates.
      UNKNOWN is accepted like any other category. */
  function Gate(c: JsonObject): (r: Option<AnalysisDecision>)
    requires HasFields(c, RequiredFields)
    ensures NumericValue(c["confidence"]).None? ==> r.None?
    ensures NumericValue(c["confidence"]).Some? && NumericValue(c["confidence"]).value < ConfidenceFloor ==> r.None?
    ensures r.Some? ==>
      && r.value.confidence >= ConfidenceFloor
      && r.value.confidence == NumericValue(c["confidence"]).value
      && c["action"] == JString(ActionName(r.value.action))
      && c["category"] == JString(CategoryName(r.value.category))
      && r.value.tier == DeepOllama
      && (r.value.deletionCandidate <==> r.value.action == Delete)
    ensures (&& NumericValue(c["confidence"]).Some?
             && NumericValue(c["confidence"]).value >= ConfidenceFloor
             && c["category"] == JString("UNKNOWN")
             && c["action"].JString? && ParseAction(c["action"].s).Some?) ==> r.Some? && r.value.category == Unknown
    ensures (&& NumericValue(c["confidence"]).Some?
             && NumericValue(c["confidence"]).value >= ConfidenceFloor
             && c["action"].JString? && ParseAction(c["action"].s).Some?
             && c["category"].JString? && ParseCategory(c["category"].s).Some?) ==> r.Some?
  {
    match NumericValue(c["confidence"])
    case None => None
    case Some(confidence) =>
      if confidence < ConfidenceFloor then None
      else if !c["action"].JString? || !c["category"].JString? then None
      else match (ParseAction(c["action"].s), ParseCategory(c["category"].s))
        case (Some(action), Some(cat)) =>
          Some(AnalysisDecision(
            action, cat, confidence,
            StringOr(c, "reasoning", "Deep Ollama analysis"),
            DeepOllama, action == Delete,
            StringOr(c, "deletion_reason", ""),
            IntOrNone(c, "importance_score"), IntOrNone(c, "fraud_score")))
        case _ => None
  }

  /** `classification.get('sender_relationship', '')` as a string; any other
      value makes the `.lower()` raise, which abandons rule creation. */
  function Relationship(c: JsonObject): (r: Option<string>)
    ensures "sender_relationship" !in c ==> r == Some("")
    ensures r.Some? && "sender_relationship" in c ==> c["sender_relationship"] == JString(r.value)
  {
    if "sender_relationship" !in c then Some("")
    else match c["sender_relationship"]
      case JString(s) => Some(s)
      case _ => None
  }

  /** `_create_sophisticated_tier0_rules`: only at confidence 0.95 or more,
      for a sender address with '@', and with a relationship that can be
      read. A KEEP on WORK, FINANCIAL, LEGAL or HEALTH from a "business"
      relationship whitelists the address at 0.98; a DELETE on PROMOTIONAL
      or SPAM from a "marketing" relationship blacklists a domain carrying a
      marketing keyword at 0.92. */
  function RuleRequestFor(email: Email, confidence: real, action: EmailAction, category: EmailCategory, relationship: Option<string>): (r: Option<RuleRequest>)
    ensures r.Some? ==> confidence >= RuleFloor && '@' in Lower(email.senderEmail) && relationship.Some?
    ensures r.Some? ==> r.value.createdByTier == 3 && r.value.action == action
    ensures r.Some? && r.value.ruleType == Tier0.SenderExact ==>
      && action == Keep && category in {Work, Financial, Legal, Health}
      && Contains(Lower(relationship.value), "business")
      && r.value.pattern == Lower(email.senderEmail)
      && r.value.category == category
      && r.value.confidence == 0.98
    ensures r.Some? && r.value.ruleType != Tier0.SenderExact ==>
      && r.value.ruleType == Tier0.SenderDomain
      && action == Delete && category in {Promotional, Spam}
      && Contains(Lower(relationship.value), "marketing")
      && r.value.pattern == Split(Lower(email.senderEmail), '@')[1]
      && r.value.category == Promotional
      && r.value.confidence == 0.92
      && exists k :: 0 <= k < |MarketingKeywords| && Contains(r.value.pattern, MarketingKeywords[k])
    ensures (&& confidence >= RuleFloor && '@' in Lower(email.senderEmail)
             && action == Keep && category in {Work, Financial, Legal, Health}
             && relationship.Some? && Contains(Lower(relationship.value), "business")) ==> r.Some?
    ensures (&& confidence >= RuleFloor && '@' in Lower(email.senderEmail)
             && action == Delete && category in {Promotional, Spam}
             && relationship.Some? && Contains(Lower(relationship.value), "marketing")
             && exists k :: 0 <= k < |MarketingKeywords|
                  && Contains(Split(Lower(email.senderEmail), '@')[1], MarketingKeywords[k])) ==>
      r.Some? && r.value.ruleType == Tier0.SenderDomain
  {
    var senderEmail := Lower(email.senderEmail);
    if confidence < RuleFloor || senderEmail == "" || '@' !in senderEmail then None
    else if action == Keep && category in {Work, Financial, Legal, Health} then
      match relationship
      case None => None
      case Some(rel) =>
        if Contains(Lower(rel), "business") then
          Some(RuleRequest(Tier0.SenderExact, senderEmail, Keep, category, 0.98, 3))
        else None
    else if action == Delete && category in {Promotional, Spam} then
      match relationship
      case None => None
      case Some(rel) =>
        if Contains(Lower(rel), "marketing") then
          var domain := Split(senderEmail, '@')[1];
          if exists k :: 0 <= k < |MarketingKeywords| && Contains(domain, MarketingKeywords[k]) then
            Some(RuleRequest(Tier0.SenderDomain, domain, Delete, Promotional, 0.92, 3))
          else None
        else None
    else None
  }

  /** A rule Tier 3 teaches fires, in Tier 0, on the email it was learned from. */
  lemma TaughtRuleMatches(email: Email, confidence: real, action: EmailAction, category: EmailCategory,
                          relationship: Option<string>, rule: Rule)
    requires RuleRequestFor(email, confidence, action, category, relationship).Some?
    requires rule.ruleType == RuleRequestFor(email, confidence, action, category, relationship).value.ruleType
    requires rule.pattern == RuleRequestFor(email, confidence, action, category, relationship).value.pattern
    ensures Tier0.Matches(rule, email)
  {
    if rule.ruleType == Tier0.SenderDomain {
      Tier0.DomainRuleFires(rule, email);
    } else {
      Tier0.ExactRuleFires(rule, email);
    }
  }

  /** `_update_tier2_prompts`: a tier-2 example only above 0.95. */
  function Tier2ExampleFor(email: Email, confidence: real, c: JsonObject, action: EmailAction, category: EmailCategory): (r: Option<FewShotExample>)
    ensures r.Some? <==> confidence > 0.95
    ensures r.Some? ==> r.value.tierLevel == 2 && r.value.bodyPreview.None?
    ensures r.Some? ==> |r.value.snippet| == (if |email.snippet| < 200 then |email.snippet| else 200) && IsPrefix(r.value.snippet, email.snippet)
    ensures r.Some? ==> IsPrefix("Tier 3 insight: ", r.value.reasoning)
  {
    if confidence > 0.95 then
      Some(FewShotExample(2, email.subject, email.sender, Take(email.snippet, 200), None,
                          category, action, "Tier 3 insight: " + StringOr(c, "content_summary", ""), confidence))
    else None
  }

  /** `_create_tier3_few_shot_example`, reached only above 0.90. */
  function Tier3ExampleFor(email: Email, confidence: real, c: JsonObject, action: EmailAction, category: EmailCategory): (r: Option<FewShotExample>)
    ensures r.Some? <==> confidence > 0.90
    ensures r.Some? ==> r.value.tierLevel == 3
    ensures r.Some? ==> |r.value.snippet| == (if |email.snippet| < 200 then |email.snippet| else 200) && IsPrefix(r.value.snippet, email.snippet)
    ensures r.Some? ==> (&& r.value.bodyPreview.Some?
                         && |r.value.bodyPreview.value| == (if |email.bodyText| < 500 then |email.bodyText| else 500)
                         && IsPrefix(r.value.bodyPreview.value, email.bodyText))
  {
    if confidence > 0.90 then
      Some(FewShotExample(3, email.subject, email.sender, Take(email.snippet, 200),
                          Some(Take(email.bodyText, 500)), category, action,
                          StringOr(c, "reasoning", ""), confidence))
    else None
  }

  class DeepOllama {
    const db: Database
    var fewShotExamples: Option<seq<ExampleRow>>

    /** `__init__`: loads the examples at once. */
    constructor (db: Database)
      ensures this.db == db
      ensures fewShotExamples == Some(if db.reachable then ExamplesFor(db.examples, 3, ExampleLimit) else [])
    {
      this.db := db;
      fewShotExamples := None;
      new;
      LoadFewShotExamples();
    }

    /** `_load_few_shot_examples`: the three active tier-3 rows, or the empty
        list when the query fails. */
    method LoadFewShotExamples()
      modifies this`fewShotExamples
      ensures fewShotExamples == Some(if db.reachable then ExamplesFor(db.examples, 3, ExampleLimit) else [])
    {
      if db.reachable {
        fewShotExamples := Some(ExamplesFor(db.examples, 3, ExampleLimit));
      } else {
        fewShotExamples := Some([]);
      }
    }

    /** The parsed answer for `email`; an empty or missing reply escalates. */
    function Classification(email: Email, llm: DeepPrompt -> Option<string>, decode: string -> Option<Json>): (r: Option<JsonObject>)
      reads this
      ensures r.Some? ==> HasFields(r.value, RequiredFields)
    {
      match llm(BuildPrompt(fewShotExamples, email))
      case None => None
      case Some(reply) => if reply == "" then None else ParseResponse(reply, decode)
    }

    /** What `analyze` answers. */
    function Verdict(email: Email, llm: DeepPrompt -> Option<string>, decode: string -> Option<Json>): (r: Option<AnalysisDecision>)
      reads this
      ensures r.Some? ==> r.value.tier == DeepOllama && r.value.confidence >= ConfidenceFloor
    {
      match Classification(email, llm, decode)
      case None => None
      case Some(c) => Gate(c)
    }

    /** The rule an accepted answer teaches Tier 0, if any. */
    function TaughtRule(email: Email, llm: DeepPrompt -> Option<string>, decode: string -> Option<Json>): (r: Option<RuleRequest>)
      reads this
      ensures r.Some? ==> Verdict(email, llm, decode).Some? && Verdict(email, llm, decode).value.confidence >= RuleFloor
    {
      match Classification(email, llm, decode)
      case None => None
      case Some(c) =>
        match Gate(c)
        case None => None
        case Some(d) => RuleRequestFor(email, d.confidence, d.action, d.category, Relationship(c))
    }

    /** `analyze`: the verdict, and for an accepted answer the learning step,
        whose only lasting effect is the rule upsert. */
    method Analyze(email: Email, llm: DeepPrompt -> Option<string>, decode: string -> Option<Json>)
      returns (d: Option<AnalysisDecision>)
      requires db.Valid()
      modifies db`rules
      ensures db.Valid()
      ensures d == Verdict(email, llm, decode)
      ensures db.rules ==
        if db.reachable && TaughtRule(email, llm, decode).Some?
        then Upsert(old(db.rules), TaughtRule(email, llm, decode).value)
        else old(db.rules)
    {
      var c := Classification(email, llm, decode);
      d := Verdict(email, llm, decode);
      if c.Some? && d.Some? {
        var req := RuleRequestFor(email, d.value.confidence, d.value.action, d.value.category, Relationship(c.value));
        if req.Some? {
          var _ := db.UpsertRule(req.value);
        }
      }
    }

    /** `invalidate_examples_cache` */
    method InvalidateExamplesCache()
      modifies this`fewShotExamples
      ensures fewShotExamples.None?
    {
      fewShotExamples := None;
    }
  }
}

=== FILE: tier4_human_interface.dfy ===
/** Tier 4 (analyzers/tier4_human_interface.py): a person picks a category
    and an action from numbered menus, then optionally gives reasoning, a
    deletion reason, an importance score and a fraud score. Standard input
    is a sequence of lines read from a position; running out of lines is
    end of file. Every prompt strips the line it reads, so the menu and
    answer functions below take the stripped lines (`StripAll`). */
module Tier4 {

  import opened Optional
  import opened Text
  import opened Decisions
  import opened Store
  import Tier0

  /** The category menu, keys "1" to "12". */
  const Categories: map<string, EmailCategory> := map[
    "1" := Work, "2" := Financial, "3" := Personal, "4" := Health,
    "5" := Legal, "6" := Newsletter, "7" := Promotional, "8" := Shopping,
    "9" := Social, "10" := Entertainment, "11" := Spam, "12" := Unknown]

  /** The action menu, keys "1" to "3". */
  const Actions: map<string, EmailAction> := map["1" := Keep, "2" := Delete, "3" := Archive]

  /** The menu key that selects a category. */
  function CategoryKey(c: EmailCategory): (k: string)
    ensures k in Categories && Categories[k] == c
  {
    match c
    case Work => "1"
    case Financial => "2"
    case Personal => "3"
    case Health => "4"
    case Legal => "5"
    case Newsletter => "6"
    case Promotional => "7"
    case Shopping => "8"
    case Social => "9"
    case Entertainment => "10"
    case Spam => "11"
    case Unknown => "12"
  }

  /** The menu key that selects an action. */
  function ActionKey(a: EmailAction): (k: string)
    ensures k in Actions && Actions[k] == a
  {
    match a
    case Keep => "1"
    case Delete => "2"
    case Archive => "3"
  }

  /** Each of the twelve keys selects a different category: `CategoryKey`
      inverts the menu. */
  lemma CategoryMenuBijective()
    ensures forall k | k in Categories :: CategoryKey(Categories[k]) == k
    ensures forall c1, c2 :: CategoryKey(c1) == CategoryKey(c2) ==> c1 == c2
  {
    forall k | k in Categories ensures CategoryKey(Categories[k]) == k {
      if k == "1" {} else if k == "2" {} else if k == "3" {} else if k == "4" {}
      else if k == "5" {} else if k == "6" {} else if k == "7" {} else if k == "8" {}
      else if k == "9" {} else if k == "10" {} else if k == "11" {} else {}
    }
  }

  /** Each of the three keys selects a different action. */
  lemma ActionMenuBijective()
    ensures forall k | k in Actions :: ActionKey(Actions[k]) == k
    ensures forall a1, a2 :: ActionKey(a1) == ActionKey(a2) ==> a1 == a2
  {
  }

  /** What a prompt, or a whole classification, ends in. A quit stands for
      the KeyboardInterrupt raised on 'q', 'quit' or end of file. */
  datatype Choice<T> = Picked(value: T) | SkipEmail | QuitSession

  predicate IsSkip(line: string) { Lower(line) == "s" || Lower(line) == "skip" }
  predicate IsQuit(line: string) { Lower(line) == "q" || Lower(line) == "quit" }

  /** A stripped line the menu loop answers with "Invalid choice" and asks again. */
  predicate Rejected<T>(menu: map<string, T>, line: string) {
    line !in menu && !IsSkip(line) && !IsQuit(line)
  }

  /** One menu prompt: the first line that is a key, a skip or a quit decides;
      rejected lines are read past; end of file quits. The second component
      is the position after the lines read. */
  function MenuChoice<T>(menu: map<string, T>, input: seq<string>, pos: nat): (r: (Choice<T>, nat))
    requires pos <= |input|
    decreases |input| - pos
    ensures pos <= r.1 <= |input|
    ensures r.0.QuitSession? || pos < r.1
  {
    if pos == |input| then (QuitSession, pos)
    else
      var line := input[pos];
      if line in menu then (Picked(menu[line]), pos + 1)
      else if IsSkip(line) then (SkipEmail, pos + 1)
      else if IsQuit(line) then (QuitSession, pos + 1)
      else MenuChoice(menu, input, pos + 1)
  }

  /** What decided a menu prompt: every line read before the last was
      rejected; a pick is the last line's entry; a skip or a quit was typed
      on the last line, unless the input ran out. */
  lemma {:induction false} MenuChoiceSpec<T>(menu: map<string, T>, input: seq<string>, pos: nat)
    requires pos <= |input|
    decreases |input| - pos
    ensures var (c, next) := MenuChoice(menu, input, pos);
      && (forall j | pos <= j < next - 1 :: Rejected(menu, input[j]))
      && (c.Picked? ==> input[next - 1] in menu && menu[input[next - 1]] == c.value)
      && (c.SkipEmail? ==> input[next - 1] !in menu && IsSkip(input[next - 1]))
      && (c.QuitSession? ==> (|| next == |input|
                              || (input[next - 1] !in menu && !IsSkip(input[next - 1])
                                  && IsQuit(input[next - 1]))))
  {
    if pos < |input| && Rejected(menu, input[pos]) {
      MenuChoiceSpec(menu, input, pos + 1);
    }
  }

  /** The `while True` loop of one menu prompt. */
  method ReadMenu<T>(menu: map<string, T>, input: seq<string>, pos: nat) returns (c: Choice<T>, next: nat)
    requires pos <= |input|
    ensures (c, next) == MenuChoice(menu, input, pos)
  {
    next := pos;
    while next < |input|
      invariant pos <= next <= |input|
      invariant MenuChoice(menu, input, next) == MenuChoice(menu, input, pos)
      decreases |input| - next
    {
      var line := input[next];
      next := next + 1;
      if line in menu {
        c := Picked(menu[line]);
        return;
      } else if IsSkip(line) {
        c := SkipEmail;
        return;
      } else if IsQuit(line) {
        c := QuitSession;
        return;
      }
    }
    c := QuitSession;
  }

  /** Each typed line as `input().strip()` returns it. */
  function StripAll(typed: seq<string>): (r: seq<string>)
    ensures |r| == |typed|
    ensures forall i | 0 <= i < |typed| :: r[i] == Strip(typed[i])
  {
    seq(|typed|, i requires 0 <= i < |typed| => Strip(typed[i]))
  }

  /** An optional free-text prompt: the line, or None at end of file. */
  function ReadLine(input: seq<string>, pos: nat): (r: (Option<string>, nat))
    requires pos <= |input|
    ensures pos < |input| ==> r == (Some(input[pos]), pos + 1)
    ensures pos == |input| ==> r == (None, pos)
  {
    if pos < |input| then (Some(input[pos]), pos + 1) else (None, pos)
  }

  /** `max(lo, min(hi, n))` */
  function Clamp(lo: int, hi: int, n: int): (r: int)
    requires lo <= hi
    ensures lo <= r <= hi
    ensures lo <= n <= hi ==> r == n
    ensures n < lo ==> r == lo
    ensures n > hi ==> r == hi
  {
    if n < lo then lo else if n > hi then hi else n
  }

  /** The answers collected by `_get_human_classification`. */
  datatype HumanDecision = HumanDecision(
    category: EmailCategory,
    action: EmailAction,
    reasoning: string,
    deletionReason: string,
    importanceScore: Option<int>,
    fraudScore: Option<int>)

  function DefaultReasoning(category: EmailCategory, action: EmailAction): string {
    "Human classified as " + CategoryName(category) + "/" + ActionName(action)
  }

  const DefaultDeletionReason: string := "Human determined safe to delete"

  /** The reasoning prompt: blank or end of file gives the default. */
  function ReasoningAnswer(line: Option<string>, category: EmailCategory, action: EmailAction): (r: string)
    ensures r != ""
    ensures line.Some? && line.value != "" ==> r == line.value
  {
    if line.Some? && line.value != "" then line.value else DefaultReasoning(category, action)
  }

  /** The deletion-reason prompt, asked for DELETE only. */
  function DeletionAnswer(line: Option<string>): (r: string)
    ensures r != ""
    ensures line.Some? && line.value != "" ==> r == line.value
  {
    if line.Some? && line.value != "" then line.value else DefaultDeletionReason
  }

  /** The importance prompt, asked for KEEP only: blank, not an integer or
      end of file leaves the score unset. */
  function ImportanceAnswer(line: Option<string>): (r: Option<int>)
    ensures r.Some? ==> 1 <= r.value <= 100
    ensures r.Some? <==> line.Some? && ParseInt(line.value).Some?
    ensures line.Some? && ParseInt(line.value).Some? && 1 <= ParseInt(line.value).value <= 100 ==>
      r == ParseInt(line.value)
  {
    if line.Some? && line.value != "" then
      match ParseInt(line.value)
      case Some(n) => Some(Clamp(1, 100, n))
      case None => None
    else None
  }

  /** The fraud prompt, asked for SPAM only: blank, not an integer or end of
      file gives 50. */
  function FraudAnswer(line: Option<string>): (r: int)
    ensures 0 <= r <= 100
    ensures !(line.Some? && ParseInt(line.value).Some?) ==> r == 50
    ensures line.Some? && ParseInt(line.value).Some? && 0 <= ParseInt(line.value).value <= 100 ==>
      r == ParseInt(line.value).value
  {
    if line.Some? && line.value != "" then
      match ParseInt(line.value)
      case Some(n) => Clamp(0, 100, n)
      case None => 50
    else 50
  }

  /** `_get_human_classification` over the input lines from `pos`, with the
      position after the lines it read. */
  function Classification(input: seq<string>, pos: nat): (r: (Choice<HumanDecision>, nat))
    requires pos <= |input|
    ensures pos <= r.1 <= |input|
    ensures r.0.Picked? ==> (
      && r.0.value.reasoning != ""
      && (r.0.value.deletionReason != "" <==> r.0.value.action == Delete)
      && (r.0.value.importanceScore.Some? ==> (r.0.value.action == Keep && 1 <= r.0.value.importanceScore.value <= 100))
      && (r.0.value.fraudScore.Some? <==> r.0.value.category == Spam)
      && (r.0.value.fraudScore.Some? ==> 0 <= r.0.value.fraudScore.value <= 100))
    ensures MenuChoice(Categories, input, pos).0.SkipEmail? ==> r.0.SkipEmail?
    ensures MenuChoice(Categories, input, pos).0.QuitSession? ==> r.0.QuitSession?
    ensures r.0.Picked? ==> MenuChoice(Categories, input, pos).0 == Picked(r.0.value.category)
    ensures MenuChoice(Categories, input, pos).0.Picked? ==>
      var act := MenuChoice(Actions, input, MenuChoice(Categories, input, pos).1).0;
      && (act.SkipEmail? ==> r.0.SkipEmail?)
      && (act.QuitSession? ==> r.0.QuitSession?)
      && (act.Picked? ==> r.0.Picked? && r.0.value.action == act.value)
    ensures r.0.Picked? ==>
      MenuChoice(Actions, input, MenuChoice(Categories, input, pos).1).0 == Picked(r.0.value.action)
  {
    var (cat, p1) := MenuChoice(Categories, input, pos);
    match cat
    case SkipEmail => (SkipEmail, p1)
    case QuitSession => (QuitSession, p1)
    case Picked(category) =>
      var (act, p2) := MenuChoice(Actions, input, p1);
      match act
      case SkipEmail => (SkipEmail, p2)
      case QuitSession => (QuitSession, p2)
      case Picked(action) =>
        var (reasonLine, p3) := ReadLine(input, p2);
        var reasoning := ReasoningAnswer(reasonLine, category, action);
        var (deletionLine, p4) := if action == Delete then ReadLine(input, p3) else (None, p3);
        var deletionReason := if action == Delete then DeletionAnswer(deletionLine) else "";
        var (importanceLine, p5) := if action == Keep then ReadLine(input, p4) else (None, p4);
        var importance := if action == Keep then ImportanceAnswer(importanceLine) else None;
        var (fraudLine, p6) := if category == Spam then ReadLine(input, p5) else (None, p5);
        var fraud := if category == Spam then Some(FraudAnswer(fraudLine)) else None;
        (Picked(HumanDecision(category, action, reasoning, deletionReason, importance, fraud)), p6)
  }

  /** The prompts of `_get_human_classification`, read in order. */
  method GetHumanClassification(input: seq<string>, pos: nat) returns (c: Choice<HumanDecision>, next: nat)
    requires pos <= |input|
    ensures (c, next) == Classification(input, pos)
  {
    var cat, p1 := ReadMenu(Categories, input, pos);
    if !cat.Picked? {
      c, next := if cat.SkipEmail? then SkipEmail else QuitSession, p1;
      return;
    }
    var act, p2 := ReadMenu(Actions, input, p1);
    if !act.Picked? {
      c, next := if act.SkipEmail? then SkipEmail else QuitSession, p2;
      return;
    }
    var category, action := cat.value, act.value;
    var reasonLine;
    reasonLine, next := ReadLine(input, p2).0, ReadLine(input, p2).1;
    var reasoning := ReasoningAnswer(reasonLine, category, action);
    var deletionReason := "";
    if action == Delete {
      var line;
      line, next := ReadLine(input, next).0, ReadLine(input, next).1;
      deletionReason := DeletionAnswer(line);
    }
    var importance: Option<int> := None;
    if action == Keep {
      var line;
      line, next := ReadLine(input, next).0, ReadLine(input, next).1;
      importance := ImportanceAnswer(line);
    }
    var fraud: Option<int> := None;
    if category == Spam {
      var line;
      line, next := ReadLine(input, next).0, ReadLine(input, next).1;
      fraud := Some(FraudAnswer(line));
    }
    c := Picked(HumanDecision(category, action, reasoning, deletionReason, importance, fraud));
  }

  /** The decision `analyze` builds from the human's answers. */
  function DecisionOf(h: HumanDecision): (d: AnalysisDecision)
    ensures d.confidence == 1.0 && d.tier == HumanReview
    ensures d.category == h.category && d.action == h.action
    ensures d.deletionCandidate <==> h.action == Delete
    ensures d.reasoning == "Human classification: " + h.reasoning
  {
    AnalysisDecision(h.action, h.category, 1.0, "Human classification: " + h.reasoning,
                     HumanReview, h.action == Delete, h.deletionReason,
                     h.importanceScore, h.fraudScore)
  }

  /** What `analyze` answers: a skip and a quit both give None, because the
      interrupt is caught there. */
  function Verdict(input: seq<string>, pos: nat): (r: (Option<AnalysisDecision>, nat))
    requires pos <= |input|
    ensures pos <= r.1 <= |input|
    ensures r.0.Some? <==> Classification(input, pos).0.Picked?
    ensures r.0.Some? ==> r.0.value == DecisionOf(Classification(input, pos).0.value)
  {
    var (c, next) := Classification(input, pos);
    if c.Picked? then (Some(DecisionOf(c.value)), next) else (None, next)
  }

  /** At end of file every email is left unclassified. */
  lemma EndOfInputSkips(input: seq<string>)
    ensures Verdict(input, |input|) == (None, |input|)
  {
  }

  method Analyze(email: Email, input: seq<string>, pos: nat) returns (d: Option<AnalysisDecision>, next: nat)
    requires pos <= |input|
    ensures (d, next) == Verdict(input, pos)
  {
    var c;
    c, next := GetHumanClassification(input, pos);
    d := if c.Picked? then Some(DecisionOf(c.value)) else None;
  }

  /** `_create_human_validated_rules`: a DELETE of PROMOTIONAL or SPAM mail
      from an address with '@' yields a domain rule at 0.98 for tier 4,
      keeping the human's category. The rule is built but not stored. */
  function HumanValidatedRule(email: Email, h: HumanDecision): (r: Option<RuleRequest>)
    ensures r.Some? <==> ('@' in Lower(email.senderEmail) && h.action == Delete && h.category in {Promotional, Spam})
    ensures r.Some? ==> (&& r.value.ruleType == Tier0.SenderDomain
                         && r.value.pattern == Split(Lower(email.senderEmail), '@')[1]
                         && r.value.action == Delete && r.value.category == h.category
                         && r.value.confidence == 0.98 && r.value.createdByTier == 4)
  {
    var senderEmail := Lower(email.senderEmail);
    if '@' in senderEmail && h.action in {Delete, Keep} then
      var domain := Split(senderEmail, '@')[1];
      if h.action == Delete && h.category in {Promotional, Spam} then
        Some(RuleRequest(Tier0.SenderDomain, domain, Delete, h.category, 0.98, 4))
      else None
    else None
  }

  /** A human rule would fire in Tier 0 on the email it came from. */
  lemma HumanRuleMatches(email: Email, h: HumanDecision, rule: Rule)
    requires HumanValidatedRule(email, h).Some?
    requires rule.ruleType == Tier0.SenderDomain
    requires rule.pattern == HumanValidatedRule(email, h).value.pattern
    ensures Tier0.Matches(rule, email)
  {
    Tier0.DomainRuleFires(rule, email);
  }

  /** `_create_human_few_shot_examples`: one example for tier 2 and one for
      tier 3, at confidence 1.0; only the tier-3 one carries the body. */
  function HumanFewShotExamples(email: Email, h: HumanDecision): (r: seq<FewShotExample>)
    ensures |r| == 2 && r[0].tierLevel == 2 && r[1].tierLevel == 3
    ensures forall i | 0 <= i < 2 :: (&& r[i].confidence == 1.0 && r[i].category == h.category
                                      && r[i].action == h.action && r[i].reasoning == h.reasoning
                                      && |r[i].snippet| == (if |email.snippet| < 200 then |email.snippet| else 200)
                                      && IsPrefix(r[i].snippet, email.snippet))
    ensures r[0].bodyPreview.None?
    ensures r[1].bodyPreview.Some? && |r[1].bodyPreview.value| == (if |email.bodyText| < 500 then |email.bodyText| else 500)
    ensures IsPrefix(r[1].bodyPreview.value, email.bodyText)
  {
    [FewShotExample(2, email.subject, email.sender, Take(email.snippet, 200), None,
                    h.category, h.action, h.reasoning, 1.0),
     FewShotExample(3, email.subject, email.sender, Take(email.snippet, 200),
                    Some(Take(email.bodyText, 500)), h.category, h.action, h.reasoning, 1.0)]
  }

  function CountSome<T>(s: seq<Option<T>>): (n: nat)
    ensures n <= |s|
  {
    if s == [] then 0 else CountSome(s[..|s| - 1]) + (if s[|s| - 1].Some? then 1 else 0)
  }

  /** The verdicts of a batch of `n` emails reading the same input. */
  function BatchVerdicts(n: nat, input: seq<string>, pos: nat): (r: seq<Option<AnalysisDecision>>)
    requires pos <= |input|
    ensures |r| == n
    ensures forall i | 0 <= i < n :: r[i].Some? ==> (r[i].value.tier == HumanReview && r[i].value.confidence == 1.0)
  {
    if n == 0 then []
    else
      var (d, next) := Verdict(input, pos);
      [d] + BatchVerdicts(n - 1, input, next)
  }

  /** Once the input is exhausted, the rest of a batch is skipped. */
  lemma {:induction false} ExhaustedBatchSkips(n: nat, input: seq<string>)
    ensures forall i | 0 <= i < n :: BatchVerdicts(n, input, |input|)[i].None?
  {
    if n > 0 {
      EndOfInputSkips(input);
      ExhaustedBatchSkips(n - 1, input);
      assert BatchVerdicts(n, input, |input|) == [None] + BatchVerdicts(n - 1, input, |input|);
    }
  }

  /** One email further into a batch: the verdicts so far, the new one and
      the rest's still make up the whole batch. */
  lemma VerdictsAdvance(done: seq<Option<AnalysisDecision>>, n: nat, input: seq<string>, pos: nat,
                        d: Option<AnalysisDecision>, next: nat, whole: seq<Option<AnalysisDecision>>)
    requires n > 0 && pos <= |input|
    requires (d, next) == Verdict(input, pos)
    requires done + BatchVerdicts(n, input, pos) == whole
    ensures (done + [d]) + BatchVerdicts(n - 1, input, next) == whole
  {
    assert BatchVerdicts(n, input, pos) == [d] + BatchVerdicts(n - 1, input, next);
    assert (done + [d]) + BatchVerdicts(n - 1, input, next) == done + ([d] + BatchVerdicts(n - 1, input, next));
  }

  /** `batch_classify_emails`: one verdict per email, since a quit inside
      `analyze` never reaches the batch loop; classified and skipped add up
      to the number of verdicts. */
  method BatchClassify(emails: seq<Email>, typed: seq<string>)
    returns (decisions: seq<Option<AnalysisDecision>>, classified: nat, skipped: nat)
    ensures decisions == BatchVerdicts(|emails|, StripAll(typed), 0)
    ensures |decisions| == |emails|
    ensures classified == CountSome(decisions) && classified + skipped == |decisions|
  {
    var input := StripAll(typed);
    decisions := [];
    var pos: nat := 0;
    var i := 0;
    while i < |emails|
      invariant 0 <= i <= |emails| && pos <= |input| && |input| == |typed|
      invariant decisions + BatchVerdicts(|emails| - i, input, pos) == BatchVerdicts(|emails|, input, 0)
    {
      var d, next := Analyze(emails[i], input, pos);
      VerdictsAdvance(decisions, |emails| - i, input, pos, d, next, BatchVerdicts(|emails|, input, 0));
      decisions := decisions + [d];
      pos := next;
      i := i + 1;
    }
    assert BatchVerdicts(0, input, pos) == [];
    assert decisions + [] == decisions;
    classified := CountSome(decisions);
    skipped := |decisions| - classified;
  }
}
